=== FILE: README.md ===
# Control Tower deployment pipeline: a verified model of its decision logic

This project models the decision logic of a tool that prepares an AWS
Organization for AWS Control Tower, deploys a landing zone, and layers
guardrails and a security baseline on top. The tool works in five stages:

1. It checks prerequisites: Organizations, the structure, accounts, IAM roles, and any existing Control Tower.
2. It generates a landing-zone manifest.
3. It submits the manifest and waits for the operation to finish.
4. It deploys a tier of Service Control Policies (SCPs).
5. It validates the result.

The model also covers the post-deployment security baseline (AWS Config,
GuardDuty, Security Hub), the documentation validator's report, and the two
configuration stores (the main settings and the security-tier configuration).

The tool talks to remote AWS APIs. The model never calls them. Each answer
becomes an input:
- A `Result` value stands for one reply.
- A function from request to `Result` stands for a client that may be called many times.
- A trace of ticks stands for a polling loop. A tick holds the status returned, the elapsed time, and whether the sleep was interrupted.

So every operation is a pure function of what the remote side answered, and
every contract is stated for all possible answers.

Modules follow the program's packages. `Results`, `Json`, `Text` and
`Remote` are shared helpers:
- `Results`: `Option`/`Result`.
- `Json`: Python-style dictionaries, `in`, `.get`, `==` and truthiness.
- `Text`: lower-casing, splitting and joining.
- `Remote`: the client-error shape.

The other modules, one per source file:
- `Manifest`, `Deployer`, `ScpPolicies`, `Orchestrator`: the `control_tower` package.
- `Validation`: the core prerequisites validator.
- `AccountValidator`, `IamValidator`, `IamRoles`, `Organizations`, `Accounts`: the `prerequisites` package.
- `SecurityConfig`, `Config`: the two configuration stores.
- `PostDeployment`: the security-baseline orchestrator.
- `DocValidator`: the documentation validator.

## Model

| member | source | states |
|---|---|---|
| Manifest.ValidateManifest | src/control_tower/manifest.py:80-114 | accepts exactly the well-formed manifests: all four sections present, a non-empty list of region strings of at least nine characters, an organization structure whose security OU is a dictionary with a name, two account blocks each carrying a 12-digit account ID, and the two IDs distinct |
| Manifest.FirstMissing | src/control_tower/manifest.py:93-97 | reports the first required section (in declaration order) that is absent, and nothing iff every section is present |
| Manifest.CheckGovernedRegions | src/control_tower/manifest.py:221-232 | no error iff the regions value is a non-empty list of strings, each at least nine characters long |
| Manifest.CheckOrganizationStructure | src/control_tower/manifest.py:234-245 | no error iff the structure is a dictionary whose security OU entry is a dictionary with a name |
| Manifest.CheckAccountBlock | src/control_tower/manifest.py:247-271 | no error iff the block is a dictionary whose account ID is a 12-digit string |
| Manifest.MissingFieldReportedInOrder | src/control_tower/manifest.py:93-97 | when the i-th required section is the first one missing, validation fails with exactly that section's name |
| Manifest.EmptyRegionsRejected | src/control_tower/manifest.py:226-227 | an otherwise complete manifest with an empty region list is rejected with the empty-regions message |
| Manifest.SharedAccountRejected | src/control_tower/manifest.py:273-281 | when logging and security roles name the same account, validation fails with the uniqueness message even though every section is individually valid |
| Manifest.CollectIds | src/control_tower/manifest.py:134-140 | the resolved map holds exactly the requested names that some account carries, and each maps to the ID of the LAST account with that name (later listings overwrite earlier ones) |
| Manifest.MissingNames | src/control_tower/manifest.py:142-147 | lists, without repetition, exactly the requested names that were not found (in one fixed order, where the source joins a set) |
| Manifest.ResolveAccountIds | src/control_tower/manifest.py:116-153 | a listing failure becomes the resolve error; otherwise it succeeds iff every requested name is found, and then maps every requested name to its last matching ID; when names are missing, the error is "Could not find accounts: " followed by exactly the names no account carries, joined by ", " |
| Manifest.BuildOrganizationStructure | src/control_tower/manifest.py:164-179 | the structure built always passes the structure check |
| Manifest.OrganizationStructureKeys | src/control_tower/manifest.py:164-179 | the keys are exactly the security OU plus the lower-cased additional OU names, and the security entry keeps its own name unless an additional OU lower-cases onto it |
| Manifest.OrganizationStructureNames | src/control_tower/manifest.py:172-177 | each key added for an additional OU names an OU whose lower-cased name is that key |
| Manifest.BuildCentralizedLogging | src/control_tower/manifest.py:181-210 | the block carries the log account and the enabled flag; a configurations section exists iff a retention period or a non-empty KMS key is given, and holds them; the block is valid iff the account ID is 12 digits |
| Manifest.BuildSecurityRoles | src/control_tower/manifest.py:212-219 | the block names the audit account, and is valid iff that ID is 12 digits |
| Manifest.AssembleKeys | src/control_tower/manifest.py:69-70 | the access-management section is present iff Identity Center is enabled |
| Manifest.GenerateManifest | src/control_tower/manifest.py:47-78 | a generated manifest always passes validation and carries access management iff Identity Center is enabled; every failure is reported under the generation-failure prefix |
| Manifest.GenerateManifestSucceedsIff | src/control_tower/manifest.py:47-78 | generation succeeds iff both account names resolve and the assembled inputs are acceptable, and then returns the manifest assembled from the resolved IDs |
| Manifest.AssembledValidIff | src/control_tower/manifest.py:72-75 | the assembled manifest is valid iff the settings and the two IDs are acceptable (non-empty regions, 12-digit distinct IDs) |
| Deployer.HasKey | src/control_tower/deployer.py:258-262 | Python `in` on a manifest value: a membership answer for dictionaries, lists and strings, and a TypeError for the rest |
| Deployer.CheckForDeploy | src/control_tower/deployer.py:249-290 | the pre-submit check passes iff all four sections are present, the regions form a non-empty list, the structure contains the security OU and the account blocks pass, their IDs compared with Python's `==`; a failure is a Control Tower error or a Python TypeError, never a deployment error |
| Deployer.CheckAccountBlocks | src/control_tower/deployer.py:274-290 | the account-block part of the pre-submit check passes iff both blocks are dictionaries carrying an account ID and the two IDs differ under Python's `==`, where a boolean equals 1 or 0 and lists and dictionaries compare item by item; a block that is a string or list ends in Python's TypeError |
| Deployer.IntAndBoolIdsClash | src/control_tower/deployer.py:284-290 | a log-archive ID of `1` and an audit ID of `True` count as the same account, so the check refuses the manifest |
| Deployer.DeployCheckMissingFieldInOrder | src/control_tower/deployer.py:258-262 | the first missing required section is the one reported, with the missing-field message |
| Deployer.WellFormedIsDeployable | src/control_tower/deployer.py:249-290 | every manifest that the manifest generator's validation accepts also passes the pre-submit check |
| Deployer.DeployCheckIsWeaker | src/control_tower/deployer.py:274-290 | a manifest with malformed account IDs passes the pre-submit check although the generator's validation rejects it |
| Deployer.MapCreateError | src/control_tower/deployer.py:112-127 | a validation exception maps to a Control Tower error and every other code to a deployment error, with the code-specific message prefix |
| Deployer.CreateLandingZone | src/control_tower/deployer.py:67-127 | the remote create call is made at most once and exactly when the pre-submit check passes; it carries the manifest, the given version or the default, and the tags only when non-empty; with a Control Tower client at hand, the outcome is the operation ID or the mapped service error |
| Deployer.Verdict | src/control_tower/deployer.py:181-215 | one poll decides nothing exactly when the operation is still running within the timeout and the sleep was not interrupted |
| Deployer.WaitForCompletion | src/control_tower/deployer.py:160-215 | the loop stops at the first poll that decides, returns that poll's verdict, and sleeps once per undecided poll (plus one more if the deciding poll came after a sleep) |
| Deployer.InProgressTwiceThenSucceeded | src/control_tower/deployer.py:181-209 | two in-progress polls followed by success yield success after three polls and two sleeps |
| Deployer.TimeoutNamesOperation | src/control_tower/deployer.py:202-206 | an unfinished operation past its deadline fails with the timeout message naming the operation |
| Deployer.ExtractAuditAccount | src/control_tower/deployer.py:292-312 | an audit account is extracted iff the security-roles block holds a string of 12 digits, and it is that string |
| Deployer.ExtractFromWellFormed | src/control_tower/deployer.py:292-312 | every well-formed manifest yields its security-roles account ID as the audit account |
| ScpPolicies.CheckPolicy | src/control_tower/scp_policies.py:96-131 | a policy configuration passes iff it has name, description and policy fields, the document has a version and statements, and its serialized length is within the 5120-character limit |
| ScpPolicies.ValidatePolicies | src/control_tower/scp_policies.py:96-131 | passes iff every policy passes, and otherwise reports the error of the first failing one |
| ScpPolicies.PolicyNames | src/control_tower/scp_policies.py:79 | the deployed names are exactly the tier-prefixed names of the configured policies |
| ScpPolicies.FindByName | src/control_tower/scp_policies.py:232-233 | finds the first policy carrying the name, or proves there is none |
| ScpPolicies.CreateOrUpdate | src/control_tower/scp_policies.py:228-263 | on success the named policy exists with the new content and description; an existing policy keeps its ID and no policy is added; a new one is appended with an ID that no earlier policy carries, and the earlier policies are untouched; the store keeps unique IDs, all below the next one; on failure nothing changes; the call never attaches |
| ScpPolicies.CreateOrUpdateKeepsOthers | src/control_tower/scp_policies.py:228-263 | writing one policy leaves every differently named policy as it was |
| ScpPolicies.Attach | src/control_tower/scp_policies.py:265-282 | one attach call; it fails iff the remote error is anything but a duplicate attachment; success leaves the pair attached or already-attached; policies are unchanged |
| ScpPolicies.AttachAll | src/control_tower/scp_policies.py:89-90 | attaching to a list of OUs succeeds iff no single attach fails, and then every target is attached with one call each |
| ScpPolicies.DeployRecordsAll | src/control_tower/scp_policies.py:85-94 | a successful deployment records every configured policy name and makes one attach call per policy per target OU |
| ScpPolicies.DeployPolicies | src/control_tower/scp_policies.py:76-87 | the deployment loop only adds attachments, and it keeps the store's IDs unique and below the next one through every create, attach and failure |
| ScpPolicies.DeployOne | src/control_tower/scp_policies.py:79-87 | deploying one policy makes one attach call per target, never detaches anything and keeps the store's IDs unique and below the next one |
| ScpPolicies.DeployTier | src/control_tower/scp_policies.py:50-94 | an unknown tier fails before any call; calls are made only for a known tier whose configuration loads and validates; a success returns exactly the tier's policy names after policies × targets attach calls; every other failure carries the tier-failure prefix; the store keeps unique IDs below the next one |
| ScpPolicies.DeployKeepsOthers | src/control_tower/scp_policies.py:85-94 | deploying a tier leaves every policy outside the tier as it was |
| ScpPolicies.DeployEstablishes | src/control_tower/scp_policies.py:76-87 | without faults, deployment succeeds, the last configuration of each name ends up deployed with its description and content, every configured name is attached to every target, and the result maps each name to its ID |
| ScpPolicies.DeployKeepsSlot | src/control_tower/scp_policies.py:76-87 | a fault-free deployment keeps an existing policy of a name at its position, with its ID and its attachments |
| ScpPolicies.DeployStays | src/control_tower/scp_policies.py:76-87 | when the store already holds the last configuration of each name, attached to every target, deploying changes nothing and returns the existing IDs |
| ScpPolicies.DeployRestores | src/control_tower/scp_policies.py:76-87 | deploying onto a store that differs from a target store only in policies the configurations are still to rewrite yields the target store and the target's IDs |
| ScpPolicies.RewriteStep | src/control_tower/scp_policies.py:81 | writing one configuration into its policy leaves a store that differs from the target only where later configurations still write |
| ScpPolicies.RedeployIsFixpoint | src/control_tower/scp_policies.py:50-94 | deploying the same tier twice without faults leaves the organization and the result as after the first deployment, also when configurations share a name |
| ScpPolicies.Survivors | src/control_tower/scp_policies.py:196-197 | the policies kept by cleanup include no customer-managed policy with the prefix |
| ScpPolicies.SurvivorsExactly | src/control_tower/scp_policies.py:196-197 | a policy survives cleanup iff it was present and is AWS-managed or lacks the prefix |
| ScpPolicies.ManagedSurvive | src/control_tower/scp_policies.py:197 | AWS-managed policies are never cleaned up |
| ScpPolicies.DetachAll | src/control_tower/scp_policies.py:284-303 | detaching never fails; it removes exactly the pairs of this policy whose target was listed before any listing failure and whose detach call succeeds, and keeps the rest |
| ScpPolicies.DetachAllClears | src/control_tower/scp_policies.py:284-303 | without faults, no target stays attached to the policy |
| ScpPolicies.DetachBeforeListingFailure | src/control_tower/scp_policies.py:290-303 | when the target listing fails on a later page, a target from an earlier page is still detached and a target the listing never reached stays attached |
| ScpPolicies.RemoveId | src/control_tower/scp_policies.py:202 | after deletion no policy carries the deleted ID |
| ScpPolicies.Delete | src/control_tower/scp_policies.py:202 | a delete call fails iff the remote refuses, and then changes nothing; otherwise it removes the policy, and a store with unique IDs below the next one stays so |
| ScpPolicies.CleanupLoop | src/control_tower/scp_policies.py:196-209 | a completed pass counts exactly the matching policies; an abort points to a matching policy whose delete was refused; the store keeps unique IDs below the next one |
| ScpPolicies.Cleanup | src/control_tower/scp_policies.py:180-212 | a successful cleanup returns the number of prefixed customer-managed policies, only when the listing succeeded; every failure carries the cleanup-failure prefix; whatever happens, a store with unique IDs below the next one stays so |
| ScpPolicies.CleanupLeavesSurvivors | src/control_tower/scp_policies.py:180-212 | after a successful cleanup the organization holds exactly the survivors, in their original order |
| ScpPolicies.RemoveIdUnique | src/control_tower/scp_policies.py:202 | deleting a policy never makes two remaining policies share an ID |
| ScpPolicies.RemoveIdKeepsWellFormed | src/control_tower/scp_policies.py:202 | after a deletion the remaining IDs are still unique and below the next one |
| ScpPolicies.DeployThenCleanup | src/control_tower/scp_policies.py:76-87 | deploying a tier's policies, whatever the faults, and then cleaning up keeps the store's IDs unique and below the next one, so a successful cleanup leaves exactly the survivors of the deployed store |
| ScpPolicies.CleanupLoopLeavesSurvivors | src/control_tower/scp_policies.py:196-209 | the cleanup loop, resumed partway, leaves the processed prefix plus the survivors of the rest |
| ScpPolicies.ValidatedHaveFields | src/control_tower/scp_policies.py:96-131 | a policy list that validates has the fields deployment reads |
| Orchestrator.PrerequisitesPhase | src/control_tower/orchestrator.py:174-197 | prerequisites pass iff the report arrives and every entry passes; a non-dictionary entry fails with Python's attribute error, failing entries are listed as bullets, and every error carries the prerequisites prefix |
| Orchestrator.ManifestPhase | src/control_tower/orchestrator.py:199-207 | passes the generated manifest through unchanged, and wraps a generation error |
| Orchestrator.DeployPhase | src/control_tower/orchestrator.py:209-233 | deployment succeeds iff the tagged create call succeeds and the wait reports completion, and returns the operation ID and ARN; a create failure is reported with its own message |
| Orchestrator.ScpPhase | src/control_tower/orchestrator.py:235-254 | with no target OUs nothing is deployed and the step still succeeds; otherwise it succeeds iff the tier deployment does, and then records the policies |
| Orchestrator.ValidationPhase | src/control_tower/orchestrator.py:256-276 | passes iff the details arrive, the status is ACTIVE and the drift status is a dictionary; a non-active status is reported by value |
| Orchestrator.AuditAccount | src/control_tower/deployer.py:356-372 | an audit account is captured iff the details hold a manifest dictionary with a valid security-roles account, and it is a 12-digit ID |
| Orchestrator.Guidance | src/control_tower/orchestrator.py:302-323 | guidance offers to monitor the operation iff an operation ID is recorded, to delete the landing zone iff an ARN is recorded, and to clean up exactly the deployed policies |
| Orchestrator.Fail | src/control_tower/orchestrator.py:136-147 | a failure appends the message to the errors, raises the wrapped message, and offers rollback guidance exactly when Control Tower was already deployed |
| Orchestrator.OrchestrateIsCoherent | src/control_tower/orchestrator.py:61-147 | every run ends with completed steps in stage order, each completion flag agreeing with the steps recorded, and success iff validation completed |
| Orchestrator.FailIsCoherent | src/control_tower/orchestrator.py:136-147 | failing from any consistent intermediate state keeps the state consistent |
| Orchestrator.SucceedIsCoherent | src/control_tower/orchestrator.py:116-134 | the success path records the last step and the audit account, keeping the state consistent |
| Orchestrator.FinishRunIsCoherent | src/control_tower/orchestrator.py:108-147 | the SCP and validation stages keep the state consistent |
| Orchestrator.FromDeploymentIsCoherent | src/control_tower/orchestrator.py:100-147 | the stages from deployment onward keep the state consistent |
| Orchestrator.FromManifestIsCoherent | src/control_tower/orchestrator.py:94-147 | the stages from manifest generation onward keep the state consistent |
| Orchestrator.FinishRunFlags | src/control_tower/orchestrator.py:108-134 | after deployment, the SCP flag is set iff SCPs are not skipped, targets exist and the tier deploys; validation is flagged iff the run succeeds; earlier flags are unchanged |
| Orchestrator.FlagsFollowPhases | src/control_tower/orchestrator.py:61-134 | each deployment-state flag is set exactly when its stage and every earlier stage passed, and the run raises nothing iff every stage passed |
| Orchestrator.AsShippedDeploysNoPolicies | src/control_tower/orchestrator.py:278-296 | with the target-OU lookup as shipped (no OUs), no policies are ever deployed |
| Orchestrator.LateFailureOffersGuidance | src/control_tower/orchestrator.py:142-145 | a validation failure after deployment raises, records only that error, and offers guidance naming the landing zone and the deployed policies |
| Orchestrator.EarlyFailureOffersNoGuidance | src/control_tower/orchestrator.py:142-145 | a failure before deployment completes offers no guidance and records only the steps that passed |
| Orchestrator.DriftOnlyWarns | src/control_tower/orchestrator.py:268-273 | an active landing zone passes validation whatever its drift status says |
| Orchestrator.GeneratedManifestIsSubmitted | src/control_tower/orchestrator.py:199-217 | a generated manifest is submitted exactly once, unchanged, with the deployment tags |
| Orchestrator.SubmitsWellFormed | src/control_tower/orchestrator.py:209-217 | any manifest that passes the pre-submit check is submitted exactly once with the deployment tags |
| Validation.ExceptionResult | src/core/validator.py:421-432 | a crashed validator is recorded as failed, with the exception text and the fixed remediation steps |
| Validation.ValidateAll | src/core/validator.py:402-436 | results follow validator order; the run stops only after a failed credentials or Organizations check; an exception never stops it; a truncated run is never ready |
| Validation.IsReady | src/core/validator.py:438-450 | ready iff no result failed |
| Validation.OrganizationsClientFailure | src/core/validator.py:194-218 | an access-denied error yields the permissions message, any other code the generic failure message |
| Validation.CheckOrganizations | src/core/validator.py:122-218 | passes iff the organization exists with all features and the caller is its management account, with a specific message for each failure and the organization details on success |
| Validation.CheckControlTower | src/core/validator.py:228-298 | fails iff the listing is denied (with the permission steps) or raises something other than a service error (with the "Control Tower validation failed: " message and the availability and IAM steps); warns iff a landing zone already exists (reporting its ARN and status); passes otherwise |
| Validation.ControlTowerBlocksIff | src/core/validator.py:268-297 | the Control Tower check alone blocks readiness exactly when access is denied or a non-service exception is raised |
| Validation.OtherServiceErrorsAlike | src/core/validator.py:268-286 | every service error other than AccessDenied gives the same passing result, whatever its code or message |
| Validation.StructureIssuesResult | src/core/validator.py:335-363 | an invalid structure fails with the joined issues and a remediation list headed by the fix-issues line; its details are the whole structure report, which reads back from them unchanged |
| Validation.ReportRoundTrip | src/prerequisites/organizations.py:378-421 | the report dictionary (validity, issues, organization record, root, Security and Sandbox OUs) determines the report: reading it back gives the report |
| Validation.CheckStructureAsWritten | src/core/validator.py:308-377 | as written, the check passes only when the structure is valid AND both the Security and Sandbox OUs exist |
| Validation.MissingSandboxFailsAsWritten | src/core/validator.py:320-326 | an all-features organization with a Security OU and no Sandbox OU is valid, yet the check as written reports it failed |
| Validation.CheckStructure | src/core/validator.py:308-377 | the corrected check passes iff the structure is valid, reporting absent OUs as null IDs |
| Validation.MissingSandboxPassesIntended | src/prerequisites/organizations.py:372-421 | every readable all-features organization passes the corrected check, whichever OUs exist |
| AccountValidator.FindLogArchive | src/prerequisites/validators/account_validator.py:77-85 | finds the first account whose lower-cased name contains both "log" and "archive", or proves there is none |
| AccountValidator.FindAudit | src/prerequisites/validators/account_validator.py:87-95 | finds the first account whose name contains "audit" in any case, or proves there is none |
| AccountValidator.FirstAccount | src/prerequisites/validators/account_validator.py:77-95 | the account returned is the first one satisfying the test, and there is one iff some account does |
| AccountValidator.RemediationSteps | src/prerequisites/validators/account_validator.py:97-115 | three log-archive steps when that account is missing, then three audit steps when that one is, and nothing when neither is |
| AccountValidator.MissingIssues | src/prerequisites/validators/account_validator.py:44-48 | lists one issue per missing account and nothing else |
| AccountValidator.CheckAccounts | src/prerequisites/validators/account_validator.py:33-75 | passes iff both accounts are found (reporting them); otherwise fails listing the missing accounts with their steps; a listing error fails with its message |
| AccountValidator.OnlyLogArchiveMissing | src/prerequisites/validators/account_validator.py:33-75 | with an audit account but no log-archive account, the check fails with exactly the log-archive steps |
| IamRoles.Lookup | src/prerequisites/iam_roles.py:26-39 | finds the required-role entry for a name iff that name is one of the required roles |
| IamRoles.RoleExists | src/prerequisites/iam_roles.py:76-92 | a role exists iff the lookup succeeds, is absent iff the error is no-such-entity, and any other error is reported with the role name |
| IamRoles.GetRoleDetails | src/prerequisites/iam_roles.py:94-110 | details are returned iff the role exists; an absent role gives none; other errors propagate |
| IamRoles.AnyStatementTrusts | src/prerequisites/iam_roles.py:132-139 | trusted iff some statement's principal is a dictionary whose service is exactly the expected one, provided the statements before it are dictionaries; not trusted iff every statement is a dictionary and none does |
| IamRoles.TrustPolicyValid | src/prerequisites/iam_roles.py:112-139 | an absent role has no valid trust, a lookup error propagates, an existing required role is judged by its policy statements, and an existing role outside the table whose policy reads is accepted without looking at its statements |
| IamRoles.TrustInDocument | src/prerequisites/iam_roles.py:125-139 | a required role is judged by whether any of its statements trusts the role's service; a role outside the table is accepted exactly when its details and its policy are dictionaries, whatever its statements hold; details or a policy that are not dictionaries fail |
| IamRoles.MissingOf | src/prerequisites/iam_roles.py:169-182 | lists exactly the roles whose status says absent, and is empty iff all are present |
| IamRoles.ExistingCount | src/prerequisites/iam_roles.py:163-178 | present and missing roles add up to the total |
| IamRoles.StatusesOf | src/prerequisites/iam_roles.py:156-184 | one status per required role, in order, agreeing with existence and trust lookups; succeeds iff every lookup it needs succeeds |
| IamRoles.GetRolesSummary | src/prerequisites/iam_roles.py:156-184 | the summary covers the three required roles, existing plus missing equals total, and the missing list is derived from the statuses |
| IamRoles.GetMissingRoles | src/prerequisites/iam_roles.py:141-154 | lists exactly the required roles that do not exist, and fails iff some existence check fails |
| IamRoles.SummaryMissingAgrees | src/prerequisites/iam_roles.py:141-184 | the summary's missing list and the standalone missing-role list are the same |
| IamValidator.TrustIssues | src/prerequisites/validators/iam_validator.py:53-57 | lists exactly the present roles with invalid trust, and is empty iff there are none |
| IamValidator.RoleLines | src/prerequisites/validators/iam_validator.py:96-99 | one described line per missing role, in order |
| IamValidator.RemediationSteps | src/prerequisites/validators/iam_validator.py:90-107 | a header, one line per missing role, then the fixed footer |
| IamValidator.CheckIamRoles | src/prerequisites/validators/iam_validator.py:31-88 | fails iff the summary cannot be read; warns for missing roles (they are created automatically), then for trust issues; passes iff neither |
| IamValidator.PassesIffAllHealthy | src/prerequisites/validators/iam_validator.py:31-88 | a summary passes iff every role is present with valid trust |
| IamValidator.StatusesHealthyIff | src/prerequisites/iam_roles.py:156-184 | the statuses read back say all healthy iff every role exists with a valid trust policy |
| IamValidator.PassesIffRolesHealthy | src/prerequisites/validators/iam_validator.py:31-88 | the IAM check passes iff every required role exists and trusts its service |
| Organizations.GetOrganizationInfo | src/prerequisites/organizations.py:272-286 | returns the organization unchanged, or fails with the info prefix |
| Organizations.GetRootId | src/prerequisites/organizations.py:350-370 | returns the first root, fails distinctly when there is none, and wraps listing errors |
| Organizations.ListOus | src/prerequisites/organizations.py:288-307 | returns the listing unchanged, or fails with the listing prefix |
| Organizations.FindAccountBy | src/prerequisites/organizations.py:145-193 | the name and the e-mail lookups page through the accounts and return the ID of the first one, in listing order, whose name (or e-mail) matches ignoring case; none iff no page received holds a match, so a failure while paging yields none only when no earlier page matched |
| Organizations.SearchPages | src/prerequisites/organizations.py:158-163 | searching page by page and stopping at the first page with a match finds exactly what one search of all pages laid end to end finds |
| Organizations.MatchBeforeFailureFound | src/prerequisites/organizations.py:158-168 | a match on a page already received is returned even when the request for a later page raises a client error |
| Organizations.EnableFailure | src/prerequisites/organizations.py:258-270 | maps concurrent modification and handshake violations to their messages and anything else to the generic failure |
| Organizations.EnableAllFeatures | src/prerequisites/organizations.py:235-270 | enabling is requested iff the organization lacks all features; succeeds iff it already had them or enabling succeeded |
| Organizations.CreateOrganizationalUnit | src/prerequisites/organizations.py:309-348 | creation is attempted iff the listing works and the name is not taken; a taken name or a duplicate reply gives the duplicate-OU error; a success returns the created OU |
| Organizations.LastNamed | src/prerequisites/organizations.py:403-404 | the OU chosen for a name is the last one carrying it, and one is chosen iff the name occurs |
| Organizations.ValidateOrganizationStructure | src/prerequisites/organizations.py:372-421 | valid iff the structure is readable and has all features; reports the root and whichever Security and Sandbox OUs exist; a missing OU is an issue without making the structure invalid |
| Accounts.PatternHasEmailShape | src/prerequisites/accounts.py:73-75 | anything the address pattern matches has exactly one at-sign, a non-empty part before it, and a last dot after it followed by two or more letters and nothing else |
| Accounts.AcceptedHasEmailShape | src/prerequisites/accounts.py:73-75 | every accepted address has that shape, after at most one final newline is dropped |
| Accounts.AssembledAddressAccepted | src/prerequisites/accounts.py:73-75 | conversely, a non-empty local part, an at-sign, a non-empty host, a dot and two or more letters, each drawn from the pattern's classes, are accepted |
| Accounts.AddressWithoutAtRejected | src/prerequisites/accounts.py:59-81 | a string without an at-sign is never accepted |
| Accounts.ListAccounts | src/prerequisites/accounts.py:253-264 | returns the listing unchanged, or fails with the listing prefix |
| Accounts.FindAccountByEmail | src/prerequisites/accounts.py:266-279 | finds the first account whose email matches ignoring case, none iff none does |
| Accounts.CheckEmailAvailability | src/prerequisites/accounts.py:83-104 | an address is available iff no account uses it, and counts as available when the listing fails |
| Accounts.ValidateEmailAddress | src/prerequisites/accounts.py:59-81 | succeeds iff the address has the right form and is available, with distinct errors for each failure |
| Accounts.CreationVerdict | src/prerequisites/accounts.py:151-193 | a poll past the deadline times out, a success returns the account ID, and only a still-running status leaves it undecided |
| Accounts.WaitForAccountCreation | src/prerequisites/accounts.py:151-193 | returns the verdict of the first deciding poll, after sleeping once per undecided poll |
| Accounts.CreateAccountFailure | src/prerequisites/accounts.py:138-149 | each error code maps to its own message, always as an account-creation error |
| Accounts.CreateAccount | src/prerequisites/accounts.py:106-149 | the create call is made iff the address validates; the result is the validation error, the mapped create error, or the waited outcome paired with the request ID |
| SecurityConfig.TierPoliciesNest | src/core/security_config.py:33-50 | every tier's policy list is non-empty and lies between the basic and strict lists |
| SecurityConfig.Lookup | src/core/security_config.py:121-130 | an override is found iff an entry for the OU exists, and it is that entry's tier |
| SecurityConfig.Put | src/core/security_config.py:132-149 | after setting, the OU reads back the new tier and every other OU reads as before |
| SecurityConfig.PutKeepsKeysUnique | src/core/security_config.py:132-149 | setting an override never creates a second entry for one OU |
| SecurityConfig.GetSecurityTier | src/core/security_config.py:86-92 | the configured tier, or the default when none is set |
| SecurityConfig.SetSecurityTier | src/core/security_config.py:94-107 | succeeds iff the tier is known, then reads back as the tier and leaves overrides and exceptions unchanged |
| SecurityConfig.GetTierPolicies | src/core/security_config.py:109-119 | the requested (or current) tier's policies, empty iff that tier is unknown |
| SecurityConfig.GetOuOverride | src/core/security_config.py:121-130 | an override is reported iff one is stored for the OU, and the tier reported is the one stored for it |
| SecurityConfig.SetOuOverride | src/core/security_config.py:132-149 | succeeds iff the tier is known, then the OU reads back the tier, others are unchanged and OUs stay unique |
| SecurityConfig.EffectiveTier | src/core/security_config.py:176-186 | the OU's non-empty override wins, otherwise the global tier |
| SecurityConfig.AddAccountException | src/core/security_config.py:151-164 | the exception is present afterwards, nothing earlier is lost, and at most one entry is added |
| SecurityConfig.AddAccountExceptionIdempotent | src/core/security_config.py:158-163 | adding the same exception twice is the same as adding it once, and keeps entries distinct |
| SecurityConfig.OverrideErrors | src/core/security_config.py:201-204 | no error iff every override names a known tier |
| SecurityConfig.ValidateConfiguration | src/core/security_config.py:188-206 | no errors iff the global tier and all override tiers are known, reporting the global tier first |
| SecurityConfig.SettersPreserveValidity | src/core/security_config.py:94-149 | both setters keep a valid configuration valid |
| SecurityConfig.OverrideBecomesEffective | src/core/security_config.py:132-186 | a new override becomes that OU's effective tier and changes no other OU's |
| SecurityConfig.MigrateLegacyTier | src/core/security_config.py:217-235 | migration succeeds iff the legacy tier is known, and then it is the configured tier |
| Config.Get | src/core/config.py:151-169 | a dotted path reads the nested value, or the default as soon as a step is missing or not a dictionary |
| Config.ShortPaths | src/core/config.py:151-169 | one- and two-segment paths read the obvious entries |
| Config.SetNested | src/core/config.py:134-149 | a value set at a path reads back at that path |
| Config.SetReadsBack | src/core/config.py:134-149 | setting at a key path and reading the same path returns the value |
| Config.SetLeavesOtherPaths | src/core/config.py:134-149 | setting at one path leaves every path that diverges from it unchanged |
| Config.ApplyEnvironmentOverrides | src/core/config.py:122-132 | the region and profile variables, when present, read back from the settings, and no variables leave them unchanged |
| Config.OverridesReadBack | src/core/config.py:122-132 | applying the profile after the region keeps the region |
| Config.ValidateConfiguration | src/core/config.py:90-120 | succeeds only with a non-empty home region, with a distinct error for each missing piece; only the governed-region list changes, so that it contains the home region |
| Config.ValidationIdempotent | src/core/config.py:90-120 | validating a validated configuration changes nothing |
| Config.RegionOverrideIsValidated | src/core/config.py:122-132 | an empty region override makes loading fail; otherwise the override becomes the home region and is governed |
| Config.GetGovernedRegions | src/core/config.py:187-196 | the configured list when truthy, otherwise the home region alone |
| Config.GovernedContainsHome | src/core/config.py:187-196 | after validation the governed regions always include the home region |
| Config.GetScpTier | src/core/config.py:198-204 | the configured tier, or standard when none is set |
| PostDeployment.BaselinePlan | src/post_deployment/orchestrator.py:42-102 | the baseline issues eight calls: Config, GuardDuty, then Security Hub |
| PostDeployment.RunUntilFailure | src/post_deployment/orchestrator.py:42-102 | runs the calls in order, stopping at the first failure, and reports which answers arrived |
| PostDeployment.OrchestrateSecurityBaseline | src/post_deployment/orchestrator.py:42-102 | calls made are a prefix of the plan; the run succeeds iff every call succeeds and the hub configuration is a dictionary; a later service succeeds only if the earlier ones did; a failure is raised with the orchestration prefix |
| PostDeployment.ServiceCompletesIffItsCallsReturn | src/post_deployment/orchestrator.py:42-102 | Config and GuardDuty succeed iff every call up to and including their own succeeds |
| PostDeployment.WithOverall | src/post_deployment/orchestrator.py:104-128 | adds an overall flag that is true iff every individual check is, and keeps the checks |
| PostDeployment.ValidateServiceHealth | src/post_deployment/orchestrator.py:104-128 | overall health holds iff every check of every service passes |
| PostDeployment.CountIsFullIffAllHealthy | src/post_deployment/orchestrator.py:130-166 | all three services count as healthy iff each is healthy |
| PostDeployment.GetDeploymentStatus | src/post_deployment/orchestrator.py:130-166 | healthy plus failed services is three, the healthy count is the number of healthy services, and deployment is complete iff all are healthy |
| DocValidator.LandingZonePart | src/documentation/validator.py:36-102 | the landing zone passes iff it reads as a dictionary with ACTIVE status, with a remediation step exactly when it does not |
| DocValidator.ValidateControlTowerDeployment | src/documentation/validator.py:36-102 | passes iff the client works and the landing zone is ACTIVE; lists the OUs when readable and adds a step when they are not; a client failure gives a single failure step |
| DocValidator.ServicePart | src/documentation/validator.py:122-174 | a service is active iff its answer arrives and is truthy, errors are reported with the service prefix, and a missing service adds its step |
| DocValidator.ValidateSecurityBaseline | src/documentation/validator.py:104-197 | passes iff Config, GuardDuty and Security Hub are all active, with no steps on a pass and at least one step whenever Config or GuardDuty is not active or Security Hub errors |
| DocValidator.SilentFailureIsMissingHub | src/documentation/validator.py:160-184 | the baseline fails with no remediation step exactly when Config and GuardDuty are active and Security Hub is merely missing |
| DocValidator.EnrollAccounts | src/documentation/validator.py:226-244 | every account is recorded as enrolled, in order |
| DocValidator.ValidateAccountEnrollment | src/documentation/validator.py:199-273 | passes iff the listing and the client work, then every account is enrolled and compliant; each failure gives its error step |
| DocValidator.CountIsMultiplicity | src/documentation/validator.py:300-307 | counting a status equals its multiplicity among the results |
| DocValidator.CountBounds | src/documentation/validator.py:300-307 | a count is zero iff no result has the status, and full iff all do |
| DocValidator.Report | src/documentation/validator.py:275-319 | three checks; passed and failed counts are the multiplicities; overall passes iff none failed; remediation is required iff overall fails |
| DocValidator.DecidedReport | src/documentation/validator.py:275-319 | with decided checks, passed plus failed is the total, and overall passes iff all three pass |
| DocValidator.PassOrFailCountsAll | src/documentation/validator.py:300-309 | decided statuses are each counted once as passed or failed |
| DocValidator.GenerateValidationReport | src/documentation/validator.py:275-319 | the report carries the three checks and counts add up; the enrollment check passes iff the account listing and the client both work and is never unknown; the overall status is pass iff all three passed |

## Behaviour modelled as coded

Where the tool's documentation and its code disagree, the model follows the code:

- `resolve_account_ids` matches account names exactly, not ignoring case (`Manifest.ResolveAccountIds`).
- In `deploy_scp_tier`, the first failed attachment aborts the whole tier. Attachment failures are not treated as per-policy warnings (`ScpPolicies.DeployTier`).
- `deploy_scp_tier` with no target OUs still creates or updates every policy. Only the orchestrator skips the tier when there are no targets (`Orchestrator.ScpPhase`).
- In `cleanup_policies`, a refused delete aborts the cleanup. It does not return the count removed so far (`ScpPolicies.Cleanup`).
- The orchestrator never records the landing zone ARN in its deployment state. It records the SCP step as completed even when no target OU existed and nothing was deployed (`Orchestrator.ScpPhase`).
- In `validate_all`, an exception raised by the credentials or Organizations validator does not stop the run. Only a returned FAILED result does (`Validation.ValidateAll`).

## Left out

- Reading and writing files (the SCP tier JSON files, the YAML configuration, saving the security configuration) is left out. The parsed contents are inputs: `ScpPolicies.DeployTier` takes a `load` function, and `Config` takes the parsed dictionary.
- Printing, timestamps, the clock, `time.sleep` and `KeyboardInterrupt` are left out. Polling loops take a trace of ticks, each holding the elapsed time and whether the sleep was interrupted.
- The remote AWS clients (Organizations, Control Tower, IAM, STS, Config, GuardDuty, Security Hub) are left out. The model takes their answers as inputs, and the service managers of the post-deployment package are reduced to the answers their calls return.
- The JSON serialization of an SCP document is left out. `ScpPolicies.CheckPolicy` takes the serialized length as a function parameter.
- Exception messages that Python builds itself (a `TypeError` from `in`, an attribute error from `.get`) are modelled by their shape, not character for character.
- The landing zone ARN is left as an input. `_deploy_control_tower` returns a placeholder ARN built from the operation ID. `Orchestrator.DeployPhase` takes that string as an input. Building that ARN at src/control_tower/orchestrator.py:227 also reads `self.config.aws.home_region`, before :229 sets `control_tower_deployed`. With the dictionary-backed `Configuration` that read raises after the landing zone exists, so the run fails without rollback guidance; as shipped this path is not reached, because manifest generation fails first (see `Manifest.GenerateManifest` below).
- `_get_target_ous_for_scp` always returns an empty list. It is the constant `TargetOus`, and `Orchestrator.AsShippedDeploysNoPolicies` states the consequence.
- `_validate_prerequisites` calls a `validate_all_prerequisites` method that `PrerequisitesValidator` does not define (that class has `validate_all`). The orchestrator model takes the report entries as an input and models the checks on them.
- The Control Tower deployer defines `get_landing_zone_details` twice. The second definition wins. The orchestrator model takes the details it returns as an input. `get_landing_zone_status` is only seen through the status values in the polling trace.
- Every modelled run starts from the initial deployment state. The source sets `deployment_state` only in the constructor (src/control_tower/orchestrator.py:51-59), so a second `orchestrate_deployment` on the same instance starts with the flags of the first; repeated runs on one instance are not modelled.
- The orchestrator's own `get_deployment_status`, and the fresh orchestrator that the CLI builds for it, are not modelled.
- These operations are outside the deployment path and are not modelled: `create_organization`, `wait_for_organization_ready`, `organization_exists`, `validate_account_in_security_ou`, `move_account_to_ou`, `get_account_status`, `attach_policies_to_ou`, `list_existing_policies` and `CredentialsValidator`. Credentials appear only as the first validator's outcome.
- The interactive prompts, the safety confirmations, the command-line entry point and the diagram and documentation generators are left out.
- The AWS client wrapper is left out, and the model assumes every client can be obtained. As shipped, `get_client` at src/core/aws_client.py:77 requires a region, but the Control Tower deployer, the manifest generator, the SCP manager, the documentation validator and the post-deployment managers call it with the service name only, which raises `TypeError`. `create_landing_zone` catches only service errors, so that `TypeError` would escape unmapped (`Deployer.CreateLandingZone` describes the run once a client is at hand).
- The model assumes the deployment orchestrator can be constructed. As shipped, src/control_tower/orchestrator.py:48 passes the security configuration to `SCPPolicyManager`, whose constructor (src/control_tower/scp_policies.py:34) takes only the client manager, so the constructor raises `TypeError` before any phase runs.
- Text: `Lower`, `IsDigit` and `IsDigits` handle ASCII only, while Python's `lower()` and `isdigit()` also fold and accept other Unicode letters and digits. The lookups and checks built on them share this limit: `Organizations.FindAccountBy`, `Accounts.FindAccountByEmail`, `AccountValidator.FindLogArchive`, `AccountValidator.FindAudit`, `Manifest.OrganizationStructureKeys`, `Manifest.CheckAccountBlock` and `Deployer.ExtractAuditAccount`.
- SecurityConfig: the loaded configuration is a typed `SecurityData`, whose keys may be absent and whose OU overrides are a list of pairs. A configuration whose `ou_overrides` is not a dictionary, on which `.get` raises an attribute error, cannot be represented.
- DocValidator: the account listing is a list of typed records, each with an ID and a name. A listed account without an `Id` or `Name` key, which raises `KeyError` at src/documentation/validator.py:232-244 after the total count is set but before every account is recorded as enrolled, is not modelled.
- ScpPolicies.DetachAll: the call log records the listing of a policy's targets but not the detach call made for each target, because the attached targets are a set here and the order the service lists them in is not modelled.
- Manifest.GenerateManifest: the model reads the configuration through `Settings` fields. As shipped, `Configuration` (src/core/config.py:20-42) keeps its values in a dictionary and has no `accounts`, `aws` or `organization` attribute and no `__getattr__`, so `self.config.accounts` at src/control_tower/manifest.py:157 raises an attribute error, which src/control_tower/manifest.py:77-78 reports as "Failed to generate manifest: ...". An additional OU without a `name` key, which raises `KeyError` at src/control_tower/manifest.py:174, cannot be represented because `Settings` holds OU names only. `Manifest.GenerateManifestSucceedsIff` is stated for settings that can be read.
- Json.Render: strings, integers, booleans and None render as Python's `str()` does, but a list renders as `[...]` and a dictionary as `{...}` instead of Python's listing of the items. Messages that quote such a value differ from the source's text: the region and account-ID format errors of `Manifest.ValidateManifest`, the validation-error lines and the inactive-status message of the orchestrator, and the description handed to the SCP service.
- ScpPolicies.PolicyNames: a configuration whose `name` is a list or a dictionary gets a placeholder name, so two such configurations share one policy name here where Python's names differ. For names that are strings, numbers, booleans or None the names are Python's. The deployment lemmas over names (`ScpPolicies.DeployEstablishes`, `ScpPolicies.RedeployIsFixpoint`) inherit this.
- Config.SetLeavesOtherPaths: the configuration is a tree here. A YAML file using anchors and aliases loads into shared objects, so the in-place writes at src/core/config.py:119-120 and :146-149 also show up under every other path aliasing the same object. The frame of `Config.ValidateConfiguration` (only the governed-region list changes) holds for tree-shaped configurations only.
- ScpPolicies.CleanupLoop: the text of the per-policy messages is left out. The contract states only the count and which policy's delete aborted the run.
- Validation.ValidateAll: the credentials check is an input outcome like the others. Its internals are not modelled.

## Findings

| source | as written | input that shows it | evidently intended | confidence | as-written member | corrected member |
|---|---|---|---|---|---|---|
| src/core/validator.py:320-326 | when the structure is valid, the details read `results.get('security_ou', {}).get('Id')`. The key exists but holds `None` when the OU is absent, so `.get` is called on `None`, and the broad exception handler turns that into a FAILED result | an organization with all features enabled, a Security OU and no Sandbox OU. `validate_organization_structure` reports it valid, with a "Sandbox OU not found" issue | a valid structure passes, and an absent OU shows up as an empty ID | not executed | Validation.CheckStructureAsWritten, Validation.MissingSandboxFailsAsWritten | Validation.CheckStructure, Validation.MissingSandboxPassesIntended |

=== FILE: account_validator.dfy ===
/**
 * The account-structure checker: finds the Log Archive and Audit accounts
 * by name and reports the missing ones with remediation steps.
 */
module AccountValidator {
  import opened Results
  import opened Json
  import opened Text
  import opened Remote
  import Accounts
  import Organizations
  import opened Validation

  /** A lower-cased name that marks a Log Archive account: it mentions both "log" and "archive". */
  predicate IsLogArchiveName(name: string) {
    Contains(Lower(name), "log") && Contains(Lower(name), "archive")
  }

  /** A lower-cased name that marks an Audit account. */
  predicate IsAuditName(name: string) {
    Contains(Lower(name), "audit")
  }

  /** The first listed account satisfying `p`, if any. */
  function FirstAccount(accounts: seq<Account>, p: Account -> bool): (r: Option<Account>)
    ensures r.Some? <==> exists i :: 0 <= i < |accounts| && p(accounts[i])
    ensures r.Some? ==>
      (exists i :: 0 <= i < |accounts| && accounts[i] == r.value && p(accounts[i])
        && forall j :: 0 <= j < i ==> !p(accounts[j]))
  {
    var i := Organizations.FirstWith(accounts, p);
    if i < |accounts| then Some(accounts[i]) else None
  }

  /** _check_log_archive_account: the first account whose name marks it as the Log Archive account. */
  function FindLogArchive(accounts: seq<Account>): (r: Option<Account>)
    ensures r.Some? <==> exists i :: 0 <= i < |accounts| && IsLogArchiveName(accounts[i].name)
    ensures r.Some? ==>
      (exists i :: 0 <= i < |accounts| && accounts[i] == r.value && IsLogArchiveName(accounts[i].name)
        && forall j :: 0 <= j < i ==> !IsLogArchiveName(accounts[j].name))
  {
    FirstAccount(accounts, (a: Account) => IsLogArchiveName(a.name))
  }

  /** _check_audit_account: the first account whose name marks it as the Audit account. */
  function FindAudit(accounts: seq<Account>): (r: Option<Account>)
    ensures r.Some? <==> exists i :: 0 <= i < |accounts| && IsAuditName(accounts[i].name)
    ensures r.Some? ==>
      (exists i :: 0 <= i < |accounts| && accounts[i] == r.value && IsAuditName(accounts[i].name)
        && forall j :: 0 <= j < i ==> !IsAuditName(accounts[j].name))
  {
    FirstAccount(accounts, (a: Account) => IsAuditName(a.name))
  }

  const LogArchiveMissing := "Log Archive account not found"
  const AuditMissing := "Audit account not found"

  const LogArchiveSteps: seq<string> := [
    "Create Log Archive account:",
    "  1. Use AccountManager.create_account('Log Archive', 'log-archive@yourdomain.com')",
    "  2. Move account to Security OU after creation"]

  const AuditSteps: seq<string> := [
    "Create Audit account:",
    "  1. Use AccountManager.create_account('Audit', 'audit@yourdomain.com')",
    "  2. Move account to Security OU after creation"]

  /** The remediation steps: a three-line section per missing account, Log Archive first. */
  function RemediationSteps(issues: seq<string>): (r: seq<string>)
    ensures |r| == (if LogArchiveMissing in issues then 3 else 0) + (if AuditMissing in issues then 3 else 0)
    ensures LogArchiveMissing in issues ==> r[..3] == LogArchiveSteps
    ensures AuditMissing in issues ==> r[|r| - 3..] == AuditSteps
    ensures r == [] <==> LogArchiveMissing !in issues && AuditMissing !in issues
  {
    (if LogArchiveMissing in issues then LogArchiveSteps else [])
    + (if AuditMissing in issues then AuditSteps else [])
  }

  /** An account listing entry as the dictionary the checker reports. */
  function AccountJson(a: Account): Json {
    JObj(map["Id" := JStr(a.id), "Name" := JStr(a.name), "Email" := JStr(a.email)])
  }

  /** The missing-account issues, Log Archive first. */
  function MissingIssues(log: Option<Account>, audit: Option<Account>): (issues: seq<string>)
    ensures (LogArchiveMissing in issues) <==> log.None?
    ensures (AuditMissing in issues) <==> audit.None?
    ensures |issues| == (if log.None? then 1 else 0) + (if audit.None? then 1 else 0)
  {
    var both := [LogArchiveMissing, AuditMissing];
    assert both[0] != both[1] by { assert both[0][0] != both[1][0]; }
    (if log.None? then [LogArchiveMissing] else []) + (if audit.None? then [AuditMissing] else [])
  }

  /**
   * AccountStructureValidator.validate over the two listings its two
   * checks read. FAILED exactly when an account is missing or a listing
   * fails; PASSED carries both accounts.
   */
  function CheckAccounts(logListing: Result<seq<Account>, ClientError>, auditListing: Result<seq<Account>, ClientError>): (r: ValidationResult)
    ensures r.validatorName == AccountsName
    ensures r.status == Passed || r.status == Failed
    ensures (logListing.Ok? && auditListing.Ok?) ==>
      var log := FindLogArchive(logListing.value);
      var audit := FindAudit(auditListing.value);
      (r.status == Passed <==> log.Some? && audit.Some?)
      && (r.status == Failed ==>
            r.message == "Required accounts missing"
            && r.details == map["missing_accounts" := StringList(MissingIssues(log, audit))]
            && r.remediation == RemediationSteps(MissingIssues(log, audit)))
      && (r.status == Passed ==>
            r.details == map["log_archive_account" := AccountJson(log.value), "audit_account" := AccountJson(audit.value)])
    ensures logListing.Err? ==>
      var text := Accounts.ListAccounts(logListing).error.message;
      r.status == Failed && r.message == "Account validation failed: " + text && r.details == map["error" := JStr(text)]
    ensures logListing.Ok? && auditListing.Err? ==>
      var text := Accounts.ListAccounts(auditListing).error.message;
      r.status == Failed && r.message == "Account validation failed: " + text && r.details == map["error" := JStr(text)]
  {
    match Accounts.ListAccounts(logListing)
    case Err(f) => ValidationResult(AccountsName, Failed, "Account validation failed: " + f.message, [], map["error" := JStr(f.message)])
    case Ok(logAccounts) =>
      match Accounts.ListAccounts(auditListing)
      case Err(f) => ValidationResult(AccountsName, Failed, "Account validation failed: " + f.message, [], map["error" := JStr(f.message)])
      case Ok(auditAccounts) =>
        var log := FindLogArchive(logAccounts);
        var audit := FindAudit(auditAccounts);
        var issues := MissingIssues(log, audit);
        if issues != [] then
          ValidationResult(AccountsName, Failed, "Required accounts missing", RemediationSteps(issues),
            map["missing_accounts" := StringList(issues)])
        else
          ValidationResult(AccountsName, Passed, "Account structure validated successfully", [],
            map["log_archive_account" := AccountJson(log.value), "audit_account" := AccountJson(audit.value)])
  }

  /** With only the Audit account present, the remediation is exactly the Log Archive section. */
  lemma OnlyLogArchiveMissing(accounts: seq<Account>)
    requires forall i :: 0 <= i < |accounts| ==> !IsLogArchiveName(accounts[i].name)
    requires exists i :: 0 <= i < |accounts| && IsAuditName(accounts[i].name)
    ensures CheckAccounts(Ok(accounts), Ok(accounts)).status == Failed
    ensures CheckAccounts(Ok(accounts), Ok(accounts)).remediation == LogArchiveSteps
  {
    var issues := MissingIssues(FindLogArchive(accounts), FindAudit(accounts));
    assert issues == [LogArchiveMissing];
  }
}

=== FILE: accounts.dfy ===
/**
 * Creating the Log Archive and Audit accounts: the e-mail format and
 * availability checks, the create call and its error mapping, the wait
 * for the creation request to settle, and account listing and lookup.
 * Listing, create and status answers are parameters; the clock is a
 * sequence of readings.
 */
module Accounts {
  import opened Results
  import opened Text
  import opened Remote

  /** AccountCreationError and its subclasses InvalidEmailError and EmailInUseError. */
  datatype AccountErrorKind = AccountCreationError | InvalidEmailError | EmailInUseError

  datatype AccountFailure = AccountFailure(kind: AccountErrorKind, message: string)

  // ---------------------------------------------------------------------------
  // E-mail format
  // ---------------------------------------------------------------------------

  predicate AsciiLetter(c: char) {
    ('a' <= c <= 'z') || ('A' <= c <= 'Z')
  }

  predicate AsciiAlnum(c: char) {
    AsciiLetter(c) || ('0' <= c <= '9')
  }

  /** The class `[a-zA-Z0-9._%+-]` of the address's local part. */
  predicate LocalChar(c: char) {
    AsciiAlnum(c) || c == '.' || c == '_' || c == '%' || c == '+' || c == '-'
  }

  /** The class `[a-zA-Z0-9.-]` of the domain before its last dot. */
  predicate DomainChar(c: char) {
    AsciiAlnum(c) || c == '.' || c == '-'
  }

  predicate AllLocal(s: string) {
    forall i :: 0 <= i < |s| ==> LocalChar(s[i])
  }

  predicate AllDomain(s: string) {
    forall i :: 0 <= i < |s| ==> DomainChar(s[i])
  }

  predicate AllLetters(s: string) {
    forall i :: 0 <= i < |s| ==> AsciiLetter(s[i])
  }

  /** `d` is `[a-zA-Z0-9.-]+\.[a-zA-Z]{2,}`: a dot with a non-empty domain before it and two or more letters after it. */
  predicate DomainMatches(d: string) {
    exists j :: 0 < j < |d| - 2 && d[j] == '.' && AllDomain(d[..j]) && AllLetters(d[j + 1..])
  }

  /** `s` matches the whole pattern `[a-zA-Z0-9._%+-]+@[a-zA-Z0-9.-]+\.[a-zA-Z]{2,}`. */
  predicate MatchesEmailPattern(s: string) {
    exists k :: 0 < k < |s| && s[k] == '@' && AllLocal(s[..k]) && DomainMatches(s[k + 1..])
  }

  /**
   * `re.match` with the pattern anchored by `^` and `$`. Python's `$` also
   * matches just before a final newline, so one trailing newline is
   * accepted.
   */
  predicate IsEmailFormat(email: string) {
    MatchesEmailPattern(email)
    || (|email| > 0 && email[|email| - 1] == '\n' && MatchesEmailPattern(email[..|email| - 1]))
  }

  /** How many times `c` occurs in `t`. */
  function Occurrences(t: string, c: char): nat {
    if t == [] then 0 else (if t[0] == c then 1 else 0) + Occurrences(t[1..], c)
  }

  lemma {:induction false} OccurrencesAppend(a: string, b: string, c: char)
    ensures Occurrences(a + b, c) == Occurrences(a, c) + Occurrences(b, c)
  {
    if a == [] {
      assert a + b == b;
    } else {
      assert (a + b)[1..] == a[1..] + b;
      OccurrencesAppend(a[1..], b, c);
    }
  }

  lemma {:induction false} OccurrencesNone(t: string, c: char)
    requires forall i :: 0 <= i < |t| ==> t[i] != c
    ensures Occurrences(t, c) == 0
  {
    if t != [] {
      OccurrencesNone(t[1..], c);
    }
  }

  /** Everything after position `j` is a letter. */
  predicate LettersAfter(t: string, j: int) {
    forall i :: 0 <= i < |t| && j < i ==> AsciiLetter(t[i])
  }

  /**
   * The shape every accepted address has: exactly one at sign, with a
   * non-empty local part before it, and a last dot after it that is
   * followed by two or more letters and nothing else.
   */
  predicate EmailShape(t: string) {
    && Occurrences(t, '@') == 1
    && exists k :: 0 < k < |t| && t[k] == '@'
         && (exists j :: k + 1 < j < |t| - 2 && t[j] == '.' && LettersAfter(t, j))
  }

  /** The domain part of a match holds no at sign. */
  lemma DomainHasNoAt(d: string, j: int)
    requires 0 <= j < |d| && d[j] == '.' && AllDomain(d[..j]) && AllLetters(d[j + 1..])
    ensures forall m :: 0 <= m < |d| ==> d[m] != '@'
  {
    forall m | 0 <= m < |d| ensures d[m] != '@' {
      if m < j {
        assert DomainChar(d[..j][m]);
      } else if m > j {
        assert AsciiLetter(d[j + 1..][m - j - 1]);
      }
    }
  }

  /** An at sign between two parts that hold none is the only one. */
  lemma SingleAt(local: string, domain: string)
    requires forall i :: 0 <= i < |local| ==> local[i] != '@'
    requires forall m :: 0 <= m < |domain| ==> domain[m] != '@'
    ensures Occurrences(local + "@" + domain, '@') == 1
  {
    OccurrencesAppend(local + "@", domain, '@');
    OccurrencesAppend(local, "@", '@');
    OccurrencesNone(local, '@');
    OccurrencesNone(domain, '@');
  }

  /** Letters after the dot at `j` of the domain `d` are letters after the dot's place in `s`. */
  lemma LettersAfterDot(s: string, k: int, d: string, j: int)
    requires 0 <= k < |s| && d == s[k + 1..] && 0 <= j < |d| && AllLetters(d[j + 1..])
    ensures LettersAfter(s, k + 1 + j)
  {
    forall i | k + 1 + j < i < |s| ensures AsciiLetter(s[i]) {
      assert s[i] == d[i - k - 1] == d[j + 1..][i - k - 1 - j - 1];
    }
  }

  /** A match split at the at sign `k` and at the dot `j` of its domain has the shape of an address. */
  lemma ShapeOfMatch(s: string, k: int, j: int)
    requires 0 < k < |s| && s[k] == '@' && AllLocal(s[..k])
    requires 0 < j < |s[k + 1..]| - 2 && s[k + 1..][j] == '.'
    requires AllDomain(s[k + 1..][..j]) && AllLetters(s[k + 1..][j + 1..])
    ensures EmailShape(s)
  {
    var local, d := s[..k], s[k + 1..];
    DomainHasNoAt(d, j);
    assert forall i :: 0 <= i < |local| ==> LocalChar(local[i]);
    assert s == local + "@" + d;
    SingleAt(local, d);
    var dot := k + 1 + j;
    LettersAfterDot(s, k, d, j);
    assert s[dot] == d[j];
    assert k + 1 < dot < |s| - 2 && s[dot] == '.' && LettersAfter(s, dot);
  }

  /** Whatever the pattern matches has the shape of an address. */
  lemma PatternHasEmailShape(s: string)
    requires MatchesEmailPattern(s)
    ensures EmailShape(s)
  {
    var k :| 0 < k < |s| && s[k] == '@' && AllLocal(s[..k]) && DomainMatches(s[k + 1..]);
    var d := s[k + 1..];
    var j :| 0 < j < |d| - 2 && d[j] == '.' && AllDomain(d[..j]) && AllLetters(d[j + 1..]);
    ShapeOfMatch(s, k, j);
  }

  /** An accepted address has the shape of an address, after at most one final newline is dropped. */
  lemma AcceptedHasEmailShape(email: string)
    requires IsEmailFormat(email)
    ensures EmailShape(email) || (|email| > 0 && email[|email| - 1] == '\n' && EmailShape(email[..|email| - 1]))
  {
    if MatchesEmailPattern(email) {
      PatternHasEmailShape(email);
    } else {
      PatternHasEmailShape(email[..|email| - 1]);
    }
  }

  /** Conversely, a local part, a host and a top-level domain drawn from the pattern's classes make an accepted address. */
  lemma AssembledAddressAccepted(local: string, host: string, tld: string)
    requires |local| > 0 && AllLocal(local)
    requires |host| > 0 && AllDomain(host)
    requires |tld| >= 2 && AllLetters(tld)
    ensures IsEmailFormat(local + "@" + host + "." + tld)
  {
    var s := local + "@" + host + "." + tld;
    var k := |local|;
    var d := host + "." + tld;
    assert s[..k] == local;
    assert s[k + 1..] == d;
    assert d[..|host|] == host;
    assert d[|host| + 1..] == tld;
    assert d[|host|] == '.';
    assert DomainMatches(d);
  }

  /** An address without an at sign is rejected. */
  lemma AddressWithoutAtRejected(s: string)
    requires forall i :: 0 <= i < |s| ==> s[i] != '@'
    ensures !IsEmailFormat(s)
  {
    if |s| > 0 && s[|s| - 1] == '\n' {
      var t := s[..|s| - 1];
      assert forall i :: 0 <= i < |t| ==> t[i] == s[i];
    }
  }

  // ---------------------------------------------------------------------------
  // Listing, lookup and availability
  // ---------------------------------------------------------------------------

  /** list_accounts: the listing, or an AccountCreationError for a ClientError. */
  function ListAccounts(listing: Result<seq<Account>, ClientError>): (r: Result<seq<Account>, AccountFailure>)
    ensures r.Ok? <==> listing.Ok?
    ensures r.Ok? ==> r.value == listing.value
    ensures r.Err? ==> r.error.kind == AccountCreationError && StartsWith(r.error.message, "Failed to list accounts: ")
  {
    match listing
    case Ok(accounts) => Ok(accounts)
    case Err(e) => Err(AccountFailure(AccountCreationError, "Failed to list accounts: " + Describe(e, "ListAccounts")))
  }

  /** Some listed account's e-mail equals `email` ignoring case. */
  predicate EmailTaken(accounts: seq<Account>, email: string) {
    exists i :: 0 <= i < |accounts| && Lower(accounts[i].email) == Lower(email)
  }

  /** Index of the first account whose e-mail equals `email` ignoring case, or the length. */
  function FirstWithEmail(accounts: seq<Account>, email: string): (i: nat)
    ensures i <= |accounts|
    ensures i < |accounts| ==> Lower(accounts[i].email) == Lower(email)
    ensures forall j :: 0 <= j < i ==> Lower(accounts[j].email) != Lower(email)
  {
    if accounts == [] then 0
    else if Lower(accounts[0].email) == Lower(email) then 0
    else 1 + FirstWithEmail(accounts[1..], email)
  }

  /**
   * find_account_by_email: the first account whose e-mail equals `email`
   * ignoring case, None when there is none; a listing failure raises.
   */
  function FindAccountByEmail(listing: Result<seq<Account>, ClientError>, email: string): (r: Result<Option<Account>, AccountFailure>)
    ensures r.Ok? <==> listing.Ok?
    ensures r.Ok? ==> (r.value.Some? <==> EmailTaken(listing.value, email))
    ensures r.Ok? && r.value.Some? ==>
      (exists i :: 0 <= i < |listing.value| && listing.value[i] == r.value.value
        && Lower(listing.value[i].email) == Lower(email)
        && forall j :: 0 <= j < i ==> Lower(listing.value[j].email) != Lower(email))
  {
    var accounts :- ListAccounts(listing);
    var i := FirstWithEmail(accounts, email);
    if i < |accounts| then Ok(Some(accounts[i])) else Ok(None)
  }

  /**
   * check_email_availability: available unless some account already
   * uses the address (ignoring case); a listing failure counts as
   * available.
   */
  function CheckEmailAvailability(listing: Result<seq<Account>, ClientError>, email: string): (r: bool)
    ensures listing.Err? ==> r
    ensures listing.Ok? ==> (r <==> !EmailTaken(listing.value, email))
  {
    match listing
    case Err(_) => true
    case Ok(accounts) => FirstWithEmail(accounts, email) == |accounts|
  }

  /**
   * validate_email_address: the format is checked first, availability
   * only for a well-formed address.
   */
  function ValidateEmailAddress(email: string, listing: Result<seq<Account>, ClientError>): (r: Result<bool, AccountFailure>)
    ensures r.Ok? <==> IsEmailFormat(email) && CheckEmailAvailability(listing, email)
    ensures r.Ok? ==> r.value
    ensures !IsEmailFormat(email) ==> r == Err(AccountFailure(InvalidEmailError, "Invalid email format: " + email))
    ensures IsEmailFormat(email) && !CheckEmailAvailability(listing, email) ==>
      r == Err(AccountFailure(EmailInUseError, "Email address already in use: " + email))
  {
    if !IsEmailFormat(email) then Err(AccountFailure(InvalidEmailError, "Invalid email format: " + email))
    else if !CheckEmailAvailability(listing, email) then
      Err(AccountFailure(EmailInUseError, "Email address already in use: " + email))
    else Ok(true)
  }

  // ---------------------------------------------------------------------------
  // Waiting for the creation request
  // ---------------------------------------------------------------------------

  const DefaultCreationTimeoutSeconds: nat := 900

  /** One DescribeCreateAccountStatus answer. */
  datatype StatusAnswer =
    | CreateStatus(state: string, accountId: string, failureReason: Option<string>)
    | StatusError(error: ClientError)

  /**
   * One turn of the wait loop: the seconds elapsed when the loop condition
   * is read, and the status answer the turn gets if it polls.
   */
  datatype CreationTick = CreationTick(elapsed: nat, answer: StatusAnswer)

  function TimedOut(timeout: nat): AccountFailure {
    AccountFailure(AccountCreationError, "Account creation timed out after " + NatToString(timeout) + " seconds")
  }

  /** The turn polls: the clock was still below the timeout when read. */
  predicate Polls(t: CreationTick, timeout: nat) {
    t.elapsed < timeout
  }

  /**
   * What one turn decides: the timeout once the clock has reached it,
   * otherwise the account id, the failure reason (default "Unknown") or
   * the wrapped ClientError; None for a request still in progress, after
   * which the loop sleeps.
   */
  function CreationVerdict(t: CreationTick, timeout: nat): (v: Option<Result<string, AccountFailure>>)
    ensures !Polls(t, timeout) ==> v == Some(Err(TimedOut(timeout)))
    ensures v.Some? && v.value.Ok? ==>
      (Polls(t, timeout) && t.answer.CreateStatus? && t.answer.state == "SUCCEEDED"
       && v.value.value == t.answer.accountId)
    ensures v.None? <==>
      (Polls(t, timeout) && t.answer.CreateStatus?
       && t.answer.state != "SUCCEEDED" && t.answer.state != "FAILED")
    ensures v.Some? && v.value.Err? ==> v.value.error.kind == AccountCreationError
  {
    if !Polls(t, timeout) then Some(Err(TimedOut(timeout)))
    else match t.answer
      case StatusError(e) =>
        Some(Err(AccountFailure(AccountCreationError,
          "Failed to check account creation status: " + Describe(e, "DescribeCreateAccountStatus"))))
      case CreateStatus(state, accountId, reason) =>
        if state == "SUCCEEDED" then Some(Ok(accountId))
        else if state == "FAILED" then
          Some(Err(AccountFailure(AccountCreationError, "Account creation failed: " + reason.GetOr("Unknown"))))
        else None
  }

  /** Some turn of the trace decides the wait. */
  predicate CreationDecided(trace: seq<CreationTick>, timeout: nat) {
    exists k :: 0 <= k < |trace| && CreationVerdict(trace[k], timeout).Some?
  }

  /** Reference definition of the wait's answer: the verdict of the first deciding turn. */
  function FirstCreationVerdict(trace: seq<CreationTick>, timeout: nat): Result<string, AccountFailure>
    requires CreationDecided(trace, timeout)
    decreases |trace|
  {
    var v := CreationVerdict(trace[0], timeout);
    if v.Some? then v.value
    else
      assert CreationDecided(trace[1..], timeout) by {
        var k :| 0 <= k < |trace| && CreationVerdict(trace[k], timeout).Some?;
        assert k > 0;
        assert trace[1..][k - 1] == trace[k];
      }
      FirstCreationVerdict(trace[1..], timeout)
  }

  /**
   * _wait_for_account_creation over a trace of turns: polls while the
   * clock is below the timeout, sleeping after each in-progress answer.
   * Its answer is the first deciding turn's verdict.
   */
  method WaitForAccountCreation(timeout: nat, trace: seq<CreationTick>)
    returns (r: Result<string, AccountFailure>, polls: nat, sleeps: nat)
    requires CreationDecided(trace, timeout)
    ensures r == FirstCreationVerdict(trace, timeout)
    ensures 1 <= sleeps + 1 <= |trace|
    ensures forall j :: 0 <= j < sleeps ==> CreationVerdict(trace[j], timeout).None?
    ensures CreationVerdict(trace[sleeps], timeout) == Some(r)
    ensures polls == (if Polls(trace[sleeps], timeout) then sleeps + 1 else sleeps)
    ensures r.Err? ==> r.error.kind == AccountCreationError
  {
    var i := 0;
    while CreationVerdict(trace[i], timeout).None?
      invariant 0 <= i < |trace|
      invariant forall j :: 0 <= j < i ==> CreationVerdict(trace[j], timeout).None?
      invariant exists k :: i <= k < |trace| && CreationVerdict(trace[k], timeout).Some?
      invariant FirstCreationVerdict(trace[i..], timeout) == FirstCreationVerdict(trace, timeout)
      decreases |trace| - i
    {
      assert trace[i..][1..] == trace[i + 1..];
      i := i + 1;
    }
    r := CreationVerdict(trace[i], timeout).value;
    sleeps := i;
    polls := if Polls(trace[i], timeout) then i + 1 else i;
  }

  // ---------------------------------------------------------------------------
  // Creating an account
  // ---------------------------------------------------------------------------

  /** The AccountCreationError create_account raises for a ClientError of the create call. */
  function CreateAccountFailure(e: ClientError): (f: AccountFailure)
    ensures f.kind == AccountCreationError
    ensures e.code == "ConstraintViolationException" ==>
      f.message == "Account creation constraint violation: " + Describe(e, "CreateAccount")
    ensures e.code == "ServiceException" ==>
      f.message == "AWS service error during account creation: " + Describe(e, "CreateAccount")
    ensures e.code != "ConstraintViolationException" && e.code != "ServiceException" ==>
      f.message == "Account creation failed: " + Describe(e, "CreateAccount")
  {
    var text := Describe(e, "CreateAccount");
    if e.code == "ConstraintViolationException" then
      AccountFailure(AccountCreationError, "Account creation constraint violation: " + text)
    else if e.code == "ServiceException" then
      AccountFailure(AccountCreationError, "AWS service error during account creation: " + text)
    else AccountFailure(AccountCreationError, "Account creation failed: " + text)
  }

  /**
   * create_account: validates the address (its errors propagate as they
   * are), calls CreateAccount, then waits for the request. `create` is the
   * request id or the ClientError of the create call.
   */
  method CreateAccount(
    email: string,
    listing: Result<seq<Account>, ClientError>,
    create: Result<string, ClientError>,
    trace: seq<CreationTick>)
    returns (r: Result<(string, string), AccountFailure>, createCalled: bool)
    requires ValidateEmailAddress(email, listing).Ok? && create.Ok? ==>
      CreationDecided(trace, DefaultCreationTimeoutSeconds)
    ensures createCalled <==> ValidateEmailAddress(email, listing).Ok?
    ensures !createCalled ==> r == Err(ValidateEmailAddress(email, listing).error)
    ensures createCalled && create.Err? ==> r == Err(CreateAccountFailure(create.error))
    ensures createCalled && create.Ok? ==>
      var waited := FirstCreationVerdict(trace, DefaultCreationTimeoutSeconds);
      (r.Ok? <==> waited.Ok?)
      && (r.Ok? ==> r.value == (waited.value, create.value))
      && (r.Err? ==> r.error == waited.error)
    ensures r.Err? && r.error.kind != AccountCreationError ==> !createCalled
  {
    var valid := ValidateEmailAddress(email, listing);
    if valid.Err? {
      return Err(valid.error), false;
    }
    createCalled := true;
    if create.Err? {
      return Err(CreateAccountFailure(create.error)), true;
    }
    var waited, _, _ := WaitForAccountCreation(DefaultCreationTimeoutSeconds, trace);
    if waited.Ok? {
      r := Ok((waited.value, create.value));
    } else {
      r := Err(waited.error);
    }
  }
}

=== FILE: config.dfy ===
/**
 * The deployment settings: a parsed YAML mapping read through dotted
 * paths, with the environment overrides written in before the one
 * structural check, which also puts the home region into the governed
 * regions.
 */
module Config {
  import opened Results
  import opened Json
  import Text

  /** The loaded configuration: the top-level mapping of the YAML document. */
  type Settings = map<string, Json>

  /** The two ways construction fails: the settings are invalid, or Python raises a TypeError on a value of the wrong shape. */
  datatype ErrorKind = ConfigurationError | TypeError

  datatype Failure = Failure(kind: ErrorKind, message: string)

  // ---------------------------------------------------------------------
  // Dotted paths
  // ---------------------------------------------------------------------

  /** Walking `keys` down from `v`: the value there, or None when a key is missing or a value on the way is not a dictionary. */
  function Walk(v: Json, keys: seq<string>): Option<Json> {
    if keys == [] then Some(v)
    else if v.JObj? && keys[0] in v.fields then Walk(v.fields[keys[0]], keys[1..])
    else None
  }

  /**
   * get: the value at the dotted path, or the default when a segment is
   * missing (KeyError) or a value on the way cannot be indexed by a
   * string (TypeError).
   */
  function Get(c: Settings, path: string, default: Json): (r: Json)
    ensures Walk(JObj(c), Text.Split(path, '.')).Some? ==> r == Walk(JObj(c), Text.Split(path, '.')).value
    ensures Walk(JObj(c), Text.Split(path, '.')).None? ==> r == default
  {
    GetKeys(c, Text.Split(path, '.'), default)
  }

  /** get over an already split path. */
  function GetKeys(c: Settings, keys: seq<string>, default: Json): Json {
    match Walk(JObj(c), keys)
    case Some(v) => v
    case None => default
  }

  /** A one- and a two-segment path read directly. */
  lemma ShortPaths(c: Settings, a: string, b: string, default: Json)
    ensures GetKeys(c, [a], default) == (if a in c then c[a] else default)
    ensures GetKeys(c, [a, b], default) ==
      (if a in c && c[a].JObj? && b in c[a].fields then c[a].fields[b] else default)
  {
    assert [a][1..] == [] && [a, b][1..] == [b] && [b][1..] == [];
    if a in c {
      assert Walk(JObj(c), [a]) == Walk(c[a], []);
      assert Walk(JObj(c), [a, b]) == Walk(c[a], [b]);
      if c[a].JObj? && b in c[a].fields {
        assert Walk(c[a], [b]) == Walk(c[a].fields[b], []);
      }
    }
  }

  /**
   * Setting `value` at `keys` below `v` (the loop of _set_nested_value):
   * each missing intermediate key gets an empty dictionary; an
   * intermediate value that is not a dictionary makes the assignment
   * raise a TypeError.
   */
  function SetIn(v: Json, keys: seq<string>, value: Json): (r: Result<Json, Failure>)
    requires keys != []
    ensures r.Ok? ==> r.value.JObj?
    ensures r.Err? ==> r.error.kind == TypeError
    decreases |keys|
  {
    if !v.JObj? then Err(Failure(TypeError, "'" + TypeName(v) + "' object does not support item assignment"))
    else if |keys| == 1 then Ok(JObj(v.fields[keys[0] := value]))
    else
      var child := if keys[0] in v.fields then v.fields[keys[0]] else JObj(map[]);
      var updated :- SetIn(child, keys[1..], value);
      Ok(JObj(v.fields[keys[0] := updated]))
  }

  /** _set_nested_value over an already split path. */
  function SetKeys(c: Settings, keys: seq<string>, value: Json): (r: Result<Settings, Failure>)
    requires keys != []
  {
    var updated :- SetIn(JObj(c), keys, value);
    Ok(updated.fields)
  }

  /** _set_nested_value: the path is split on dots, and the last segment receives the value. */
  function SetNested(c: Settings, path: string, value: Json): (r: Result<Settings, Failure>)
    ensures r.Ok? ==> Get(r.value, path, JNull) == value
  {
    var keys := Text.Split(path, '.');
    SetReadsBack(JObj(c), keys, value);
    SetKeys(c, keys, value)
  }

  /** After a successful set, walking the same keys finds the value. */
  lemma {:induction false} SetReadsBack(v: Json, keys: seq<string>, value: Json)
    requires keys != []
    ensures SetIn(v, keys, value).Ok? ==> Walk(SetIn(v, keys, value).value, keys) == Some(value)
    decreases |keys|
  {
    if v.JObj? && |keys| > 1 {
      var child := if keys[0] in v.fields then v.fields[keys[0]] else JObj(map[]);
      SetReadsBack(child, keys[1..], value);
    }
  }

  /** Setting a path leaves every path that leaves it at some segment as it was. */
  lemma {:induction false} SetLeavesOtherPaths(v: Json, keys: seq<string>, value: Json, other: seq<string>, i: nat)
    requires keys != []
    requires i < |keys| && i < |other| && keys[..i] == other[..i] && keys[i] != other[i]
    ensures SetIn(v, keys, value).Ok? ==> Walk(SetIn(v, keys, value).value, other) == Walk(v, other)
    decreases |keys|
  {
    if v.JObj? && SetIn(v, keys, value).Ok? && i > 0 {
      var child := if keys[0] in v.fields then v.fields[keys[0]] else JObj(map[]);
      assert other[0] == keys[0] by { assert keys[..i][0] == other[..i][0]; }
      assert keys[1..][..i - 1] == keys[..i][1..] && other[1..][..i - 1] == other[..i][1..];
      SetLeavesOtherPaths(child, keys[1..], value, other[1..], i - 1);
      if keys[0] !in v.fields {
        EmptyWalk(other[1..]);
      }
    }
  }

  /** Walking into an empty dictionary finds something only for the empty path. */
  lemma EmptyWalk(keys: seq<string>)
    ensures Walk(JObj(map[]), keys) == (if keys == [] then Some(JObj(map[])) else None)
  {
  }

  // ---------------------------------------------------------------------
  // Construction: overrides, then validation
  // ---------------------------------------------------------------------

  /** The process environment as far as the overrides read it. */
  datatype Environment = Environment(awsRegion: Option<string>, awsProfile: Option<string>)

  /** _apply_environment_overrides: AWS_REGION into aws.home_region, then AWS_PROFILE into aws.profile_name. */
  function ApplyEnvironmentOverrides(c: Settings, env: Environment): (r: Result<Settings, Failure>)
    ensures r.Ok? && env.awsRegion.Some? ==> GetKeys(r.value, ["aws", "home_region"], JNull) == JStr(env.awsRegion.value)
    ensures r.Ok? && env.awsProfile.Some? ==> GetKeys(r.value, ["aws", "profile_name"], JNull) == JStr(env.awsProfile.value)
    ensures env == Environment(None, None) ==> r == Ok(c)
  {
    var withRegion :- if env.awsRegion.Some? then SetKeys(c, ["aws", "home_region"], JStr(env.awsRegion.value)) else Ok(c);
    var withProfile :- if env.awsProfile.Some? then SetKeys(withRegion, ["aws", "profile_name"], JStr(env.awsProfile.value))
                       else Ok(withRegion);
    OverridesReadBack(c, env);
    Ok(withProfile)
  }

  /** The region written first survives the profile written second. */
  lemma OverridesReadBack(c: Settings, env: Environment)
    ensures var withRegion := if env.awsRegion.Some? then SetKeys(c, ["aws", "home_region"], JStr(env.awsRegion.value)) else Ok(c);
      withRegion.Ok? ==>
      var withProfile := if env.awsProfile.Some? then SetKeys(withRegion.value, ["aws", "profile_name"], JStr(env.awsProfile.value))
                         else Ok(withRegion.value);
      withProfile.Ok? ==>
        (env.awsRegion.Some? ==> GetKeys(withProfile.value, ["aws", "home_region"], JNull) == JStr(env.awsRegion.value))
        && (env.awsProfile.Some? ==> GetKeys(withProfile.value, ["aws", "profile_name"], JNull) == JStr(env.awsProfile.value))
  {
    var home: seq<string> := ["aws", "home_region"];
    var profile: seq<string> := ["aws", "profile_name"];
    if env.awsRegion.Some? {
      SetReadsBack(JObj(c), home, JStr(env.awsRegion.value));
    }
    var withRegion := if env.awsRegion.Some? then SetKeys(c, home, JStr(env.awsRegion.value)) else Ok(c);
    if withRegion.Ok? && env.awsProfile.Some? {
      SetReadsBack(JObj(withRegion.value), profile, JStr(env.awsProfile.value));
      assert home[1] != profile[1] by { assert home[1][0] != profile[1][0]; }
      assert home[..1] == profile[..1];
      SetLeavesOtherPaths(JObj(withRegion.value), profile, JStr(env.awsProfile.value), home, 1);
    }
  }

  /**
   * _validate_configuration: an 'aws' section with a non-empty string
   * home_region is required; governed_regions, when present, must be a
   * list and gets the home region inserted at the front if it lacks it.
   * Membership and indexing follow Python on a section that is not a
   * dictionary.
   */
  function ValidateConfiguration(c: Settings): (r: Result<Settings, Failure>)
    ensures r.Ok? ==> "aws" in c && c["aws"].JObj? && "home_region" in c["aws"].fields
                      && c["aws"].fields["home_region"].JStr? && c["aws"].fields["home_region"].s != ""
    ensures "aws" !in c ==> r == Err(Failure(ConfigurationError, "Required configuration section 'aws' is missing"))
    ensures "aws" in c && c["aws"].JObj? && "home_region" !in c["aws"].fields ==>
      r == Err(Failure(ConfigurationError, "Required field 'aws.home_region' is missing"))
    ensures "aws" in c && c["aws"].JObj? && "home_region" in c["aws"].fields
            && !(c["aws"].fields["home_region"].JStr? && c["aws"].fields["home_region"].s != "") ==>
      r == Err(Failure(ConfigurationError, "Field 'aws.home_region' must be a non-empty string"))
    ensures r.Ok? ==> r.value.Keys == c.Keys && forall k :: k in c && k != "aws" ==> r.value[k] == c[k]
    ensures r.Ok? ==> GoverningHome(c, r.value)
  {
    if "aws" !in c then Err(Failure(ConfigurationError, "Required configuration section 'aws' is missing"))
    else
      var aws := c["aws"];
      match PyIn("home_region", aws)
      case Err(e) => Err(Failure(TypeError, e))
      case Ok(present) =>
        if !present then Err(Failure(ConfigurationError, "Required field 'aws.home_region' is missing"))
        else if !aws.JObj? then Err(Failure(TypeError, SubscriptError(aws)))
        else
          var home := aws.fields["home_region"];
          if !(home.JStr? && home.s != "") then
            Err(Failure(ConfigurationError, "Field 'aws.home_region' must be a non-empty string"))
          else if "governed_regions" !in aws.fields then Ok(c)
          else
            var governed := aws.fields["governed_regions"];
            if !governed.JList? then Err(Failure(ConfigurationError, "Field 'aws.governed_regions' must be a list"))
            else if home in governed.items then Ok(c)
            else Ok(c["aws" := JObj(aws.fields["governed_regions" := JList([home] + governed.items)])])
  }

  /** Python's TypeError text for indexing a string or a list with a string. */
  function SubscriptError(v: Json): string {
    if v.JStr? then "string indices must be integers, not 'str'"
    else "list indices must be integers or slices, not str"
  }

  /**
   * The validated aws section: same keys, the same home region, and the
   * governed regions either untouched (the home region already listed)
   * or with the home region inserted at index 0.
   */
  predicate GoverningHome(c: Settings, validated: Settings) {
    && "aws" in c && c["aws"].JObj? && "aws" in validated && validated["aws"].JObj?
    && var before := c["aws"].fields;
    var after := validated["aws"].fields;
    && after.Keys == before.Keys
    && (forall k :: k in before && k != "governed_regions" ==> after[k] == before[k])
    && ("governed_regions" in before ==>
          before["governed_regions"].JList? && after["governed_regions"].JList?
          && "home_region" in before
          && var home := before["home_region"];
          var items := before["governed_regions"].items;
          after["governed_regions"].items == (if home in items then items else [home] + items))
  }

  /** Validation is idempotent: a validated configuration validates to itself. */
  lemma ValidationIdempotent(c: Settings)
    requires ValidateConfiguration(c).Ok?
    ensures ValidateConfiguration(ValidateConfiguration(c).value) == ValidateConfiguration(c)
  {
    var v := ValidateConfiguration(c).value;
    var aws := c["aws"].fields;
    if "governed_regions" in aws {
      var home := aws["home_region"];
      assert home in v["aws"].fields["governed_regions"].items;
    }
  }

  /**
   * Configuration(...) after the file is read: the environment overrides
   * are written first, and only then is the result validated.
   */
  function Load(c: Settings, env: Environment): (r: Result<Settings, Failure>) {
    var overridden :- ApplyEnvironmentOverrides(c, env);
    ValidateConfiguration(overridden)
  }

  /**
   * Because overrides come before validation, an AWS_REGION override is
   * the home region that validation checks and puts into the governed
   * regions, and an empty one is rejected.
   */
  lemma RegionOverrideIsValidated(c: Settings, env: Environment)
    requires env.awsRegion.Some?
    ensures env.awsRegion.value == "" ==> Load(c, env).Err?
    ensures Load(c, env).Ok? ==> GetHomeRegion(Load(c, env).value) == JStr(env.awsRegion.value)
    ensures Load(c, env).Ok? ==> GetGovernedRegions(Load(c, env).value).JList?
                                 && JStr(env.awsRegion.value) in GetGovernedRegions(Load(c, env).value).items
  {
    var o := ApplyEnvironmentOverrides(c, env);
    if o.Ok? {
      var home: seq<string> := ["aws", "home_region"];
      assert GetKeys(o.value, home, JNull) == JStr(env.awsRegion.value);
      assert Walk(JObj(o.value), home) == Some(JStr(env.awsRegion.value));
      var r := ValidateConfiguration(o.value);
      if r.Ok? {
        assert r.value["aws"].fields["home_region"] == o.value["aws"].fields["home_region"];
        ShortPaths(o.value, "aws", "home_region", JNull);
        ShortPaths(r.value, "aws", "home_region", JNull);
        GovernedContainsHome(o.value);
      }
    }
  }

  /** get_home_region. */
  function GetHomeRegion(c: Settings): Json {
    GetKeys(c, ["aws", "home_region"], JNull)
  }

  /** get_governed_regions: the configured list, or just the home region when it is empty or missing. */
  function GetGovernedRegions(c: Settings): (r: Json)
    ensures !Truthy(GetKeys(c, ["aws", "governed_regions"], JList([]))) ==> r == JList([GetHomeRegion(c)])
    ensures Truthy(GetKeys(c, ["aws", "governed_regions"], JList([]))) ==> r == GetKeys(c, ["aws", "governed_regions"], JList([]))
  {
    var regions := GetKeys(c, ["aws", "governed_regions"], JList([]));
    if !Truthy(regions) then JList([GetHomeRegion(c)]) else regions
  }

  /** A validated configuration governs its home region. */
  lemma GovernedContainsHome(c: Settings)
    requires ValidateConfiguration(c).Ok?
    ensures var v := ValidateConfiguration(c).value;
      GetGovernedRegions(v).JList? && GetHomeRegion(v) in GetGovernedRegions(v).items
  {
    var v := ValidateConfiguration(c).value;
    var aws := c["aws"].fields;
    ShortPaths(v, "aws", "home_region", JNull);
    ShortPaths(v, "aws", "governed_regions", JList([]));
    assert GetHomeRegion(v) == aws["home_region"];
    if "governed_regions" in aws {
      var items := v["aws"].fields["governed_regions"].items;
      assert aws["home_region"] in items;
    }
  }

  /** get_scp_tier: the configured tier, "standard" when none is configured. */
  function GetScpTier(c: Settings): (r: Json)
    ensures "scp_tier" !in c ==> r == JStr("standard")
    ensures "scp_tier" in c ==> r == c["scp_tier"]
  {
    ShortPaths(c, "scp_tier", "", JStr("standard"));
    GetKeys(c, ["scp_tier"], JStr("standard"))
  }
}

=== FILE: deployer.dfy ===
/**
 * The landing-zone provisioner: a second, lighter manifest check run
 * just before submission, the submission itself with its defaults and
 * its translation of service error codes, the polling loop that waits
 * for the operation to finish, and the extraction of the audit account
 * from a manifest.
 */
module Deployer {
  import opened Results
  import opened Json
  import opened Remote
  import Text
  import Manifest

  /** The two exception classes the provisioner raises, plus a TypeError it lets escape. */
  datatype ErrorKind = ControlTowerError | DeploymentError | TypeError

  datatype Failure = Failure(kind: ErrorKind, message: string)

  const DefaultVersion: string := "3.3"
  const DefaultTimeoutSeconds: int := 5400
  const PollingIntervalSeconds: nat := 30

  // ---------------------------------------------------------------------
  // The pre-submission check
  // ---------------------------------------------------------------------

  /**
   * `key in v` for a section value, turning Python's TypeError on
   * non-containers into a failure of that kind.
   */
  function HasKey(v: Json, key: string): (r: Result<bool, Failure>)
    ensures r.Ok? <==> PyIn(key, v).Ok?
    ensures r.Ok? ==> r.value == PyIn(key, v).value
    ensures r.Err? ==> r.error.kind == TypeError
  {
    match PyIn(key, v)
    case Ok(b) => Ok(b)
    case Err(msg) => Err(Failure(TypeError, msg))
  }

  /** `v['accountId']` after the membership test passed: only a dictionary can be indexed by a string. */
  function AccountIdField(v: Json): Result<Json, Failure> {
    match v
    case JObj(fields) => if Manifest.AccountIdKey in fields then Ok(fields[Manifest.AccountIdKey]) else Ok(JNull)
    case JList(_) => Err(Failure(TypeError, "list indices must be integers or slices, not str"))
    case _ => Err(Failure(TypeError, "string indices must be integers, not 'str'"))
  }

  /**
   * Both account blocks are dictionaries holding account ids that differ
   * under Python's comparison, where `1` and `True` count as the same id.
   */
  predicate AccountBlocksAcceptable(logging: Json, roles: Json) {
    && logging.JObj? && Manifest.AccountIdKey in logging.fields
    && roles.JObj? && Manifest.AccountIdKey in roles.fields
    && !PyEq(logging.fields[Manifest.AccountIdKey], roles.fields[Manifest.AccountIdKey])
  }

  /** Everything the pre-submission check asks of a manifest. */
  predicate DeployAcceptable(m: Manifest.ManifestDoc) {
    && Manifest.HasSections(m)
    && m[Manifest.GovernedRegionsKey].JList? && |m[Manifest.GovernedRegionsKey].items| > 0
    && PyIn(Manifest.SecurityOu, m[Manifest.OrganizationStructureKey]) == Ok(true)
    && AccountBlocksAcceptable(m[Manifest.CentralizedLoggingKey], m[Manifest.SecurityRolesKey])
  }

  const EmptyRegionsMessage := "governedRegions must be a non-empty list"
  const NoSecurityOuMessage := "organizationStructure must contain 'security' OU"
  const NoLogAccountMessage := "centralizedLogging must contain 'accountId'"
  const NoAuditAccountMessage := "securityRoles must contain 'accountId'"
  const SameAccountMessage := "centralizedLogging and securityRoles must use different account IDs"
  const MissingFieldPrefix := "Missing required field in manifest: "

  /**
   * The provisioner's own manifest check: the four sections in order,
   * a non-empty region list, a 'security' organizational unit, both
   * account ids present and distinct. Region shape and the twelve-digit
   * account format are not checked here.
   */
  function CheckForDeploy(m: Manifest.ManifestDoc): (r: Option<Failure>)
    ensures r.None? <==> DeployAcceptable(m)
    ensures r.Some? ==> r.value.kind != DeploymentError
  {
    match Manifest.FirstMissing(m, Manifest.RequiredFields)
    case Some(f) => Some(Failure(ControlTowerError, MissingFieldPrefix + f))
    case None =>
      Manifest.SectionsPresent(m);
      var regions := m[Manifest.GovernedRegionsKey];
      if !regions.JList? || regions.items == [] then
        Some(Failure(ControlTowerError, EmptyRegionsMessage))
      else
        match HasKey(m[Manifest.OrganizationStructureKey], Manifest.SecurityOu)
        case Err(e) => Some(e)
        case Ok(false) => Some(Failure(ControlTowerError, NoSecurityOuMessage))
        case Ok(true) => CheckAccountBlocks(m[Manifest.CentralizedLoggingKey], m[Manifest.SecurityRolesKey])
  }

  /** The account-block part of the pre-submission check, log archive first. */
  function CheckAccountBlocks(logging: Json, roles: Json): (r: Option<Failure>)
    ensures r.None? <==> AccountBlocksAcceptable(logging, roles)
    ensures r.Some? ==> r.value.kind != DeploymentError
  {
    match HasKey(logging, Manifest.AccountIdKey)
    case Err(e) => Some(e)
    case Ok(false) => Some(Failure(ControlTowerError, NoLogAccountMessage))
    case Ok(true) =>
      match HasKey(roles, Manifest.AccountIdKey)
      case Err(e) => Some(e)
      case Ok(false) => Some(Failure(ControlTowerError, NoAuditAccountMessage))
      case Ok(true) =>
        match AccountIdField(logging)
        case Err(e) => Some(e)
        case Ok(logId) =>
          match AccountIdField(roles)
          case Err(e) => Some(e)
          case Ok(auditId) =>
            if PyEq(logId, auditId) then Some(Failure(ControlTowerError, SameAccountMessage))
            else None
  }

  /** The pre-submission check reports the first missing section, in the same order as the full validator. */
  lemma DeployCheckMissingFieldInOrder(m: Manifest.ManifestDoc, i: nat)
    requires i < |Manifest.RequiredFields|
    requires Manifest.RequiredFields[i] !in m
    requires forall j :: 0 <= j < i ==> Manifest.RequiredFields[j] in m
    ensures CheckForDeploy(m) == Some(Failure(ControlTowerError, MissingFieldPrefix + Manifest.RequiredFields[i]))
  {
    var r := Manifest.FirstMissing(m, Manifest.RequiredFields);
    assert r.Some?;
    var k :| 0 <= k < |Manifest.RequiredFields| && Manifest.RequiredFields[k] == r.value
             && Manifest.RequiredFields[k] !in m
             && forall j :: 0 <= j < k ==> Manifest.RequiredFields[j] in m;
    assert k == i;
  }

  /** Every manifest the full validator accepts also passes the pre-submission check. */
  lemma WellFormedIsDeployable(m: Manifest.ManifestDoc)
    requires Manifest.WellFormed(m)
    ensures CheckForDeploy(m).None?
  {
    assert Manifest.AccountIdOf(m[Manifest.CentralizedLoggingKey]) == m[Manifest.CentralizedLoggingKey].fields[Manifest.AccountIdKey];
    assert Manifest.AccountIdOf(m[Manifest.SecurityRolesKey]) == m[Manifest.SecurityRolesKey].fields[Manifest.AccountIdKey];
    PyEqOnStrings(Manifest.AccountIdOf(m[Manifest.CentralizedLoggingKey]), Manifest.AccountIdOf(m[Manifest.SecurityRolesKey]));
  }

  /**
   * Account ids are compared as Python compares them: a log-archive id of
   * `1` and an audit id of `True` are the same account, and the check
   * stops the submission.
   */
  lemma IntAndBoolIdsClash()
    ensures CheckAccountBlocks(JObj(map[Manifest.AccountIdKey := JInt(1)]), JObj(map[Manifest.AccountIdKey := JBool(true)]))
            == Some(Failure(ControlTowerError, SameAccountMessage))
  {
    OneEqualsTrue();
  }

  /**
   * The pre-submission check is strictly weaker: a manifest whose region
   * code is too short and whose account ids are not twelve digits passes
   * it but fails the full validator.
   */
  lemma DeployCheckIsWeaker()
    ensures var m := map[
              Manifest.GovernedRegionsKey := JList([JStr("x")]),
              Manifest.OrganizationStructureKey := JObj(map[Manifest.SecurityOu := JNull]),
              Manifest.CentralizedLoggingKey := JObj(map[Manifest.AccountIdKey := JStr("1")]),
              Manifest.SecurityRolesKey := JObj(map[Manifest.AccountIdKey := JStr("2")])];
            CheckForDeploy(m).None? && !Manifest.WellFormed(m)
  {
    var m := map[
      Manifest.GovernedRegionsKey := JList([JStr("x")]),
      Manifest.OrganizationStructureKey := JObj(map[Manifest.SecurityOu := JNull]),
      Manifest.CentralizedLoggingKey := JObj(map[Manifest.AccountIdKey := JStr("1")]),
      Manifest.SecurityRolesKey := JObj(map[Manifest.AccountIdKey := JStr("2")])];
    assert JStr("1") != JStr("2");
    assert !Manifest.IsRegionShaped(m[Manifest.GovernedRegionsKey].items[0]);
  }

  // ---------------------------------------------------------------------
  // Submitting the landing zone
  // ---------------------------------------------------------------------

  /** The parameters of the one CreateLandingZone call. */
  datatype CreateRequest = CreateRequest(manifest: Manifest.ManifestDoc, version: string,
                                         tags: Option<map<string, string>>)

  /** The service's answer: the operation to poll and the landing zone's ARN. */
  datatype CreateResponse = CreateResponse(operationId: string, arn: string)

  /** What a submission did: the remote calls it made, and what it returned or raised. */
  datatype Submission = Submission(calls: seq<CreateRequest>, result: Result<string, Failure>)

  /** The message prefix for each service error code on submission. */
  function CreateErrorPrefix(code: string): string {
    if code == "ValidationException" then "Invalid manifest or parameters: "
    else if code == "ConflictException" then "Landing zone already exists or conflicting operation: "
    else if code == "AccessDeniedException" then "Insufficient permissions: "
    else if code == "ServiceQuotaExceededException" then "AWS service limits exceeded: "
    else if code == "ThrottlingException" then "API rate limit exceeded: "
    else "Control Tower deployment failed: "
  }

  /**
   * Translation of a service error raised by the submission: a rejected
   * request is a base ControlTowerError, every other code a
   * DeploymentError; the service's message always follows the prefix.
   */
  function MapCreateError(e: ClientError): (f: Failure)
    ensures f.kind == ControlTowerError <==> e.code == "ValidationException"
    ensures f.kind != TypeError
    ensures f.message == CreateErrorPrefix(e.code) + e.message
  {
    var kind := if e.code == "ValidationException" then ControlTowerError else DeploymentError;
    Failure(kind, CreateErrorPrefix(e.code) + e.message)
  }

  /**
   * create_landing_zone: the version defaults to 3.3, tags are passed
   * only when there are some, and the manifest is checked locally
   * before the single remote call, whose errors are translated.
   */
  function CreateLandingZone(m: Manifest.ManifestDoc, version: Option<string>,
                             tags: Option<map<string, string>>,
                             remote: CreateRequest -> Result<CreateResponse, ClientError>)
    : (s: Submission)
    ensures |s.calls| <= 1
    ensures s.calls == [] <==> CheckForDeploy(m).Some?
    ensures CheckForDeploy(m).Some? ==> s.result == Err(CheckForDeploy(m).value)
    ensures s.calls != [] ==> s.calls[0].manifest == m
    ensures s.calls != [] ==> s.calls[0].version == version.GetOr(DefaultVersion)
    ensures s.calls != [] ==> (s.calls[0].tags.Some? <==> tags.Some? && tags.value != map[])
    ensures s.calls != [] ==> s.calls[0].tags.Some? ==> s.calls[0].tags == tags
    ensures s.calls != [] ==> match remote(s.calls[0])
                              case Ok(resp) => s.result == Ok(resp.operationId)
                              case Err(e) => s.result == Err(MapCreateError(e))
  {
    match CheckForDeploy(m)
    case Some(f) => Submission([], Err(f))
    case None =>
      var sentTags := if tags.Some? && tags.value != map[] then tags else None;
      var request := CreateRequest(m, version.GetOr(DefaultVersion), sentTags);
      match remote(request)
      case Ok(resp) => Submission([request], Ok(resp.operationId))
      case Err(e) => Submission([request], Err(MapCreateError(e)))
  }

  // ---------------------------------------------------------------------
  // Waiting for the operation
  // ---------------------------------------------------------------------

  /** What one status poll produced. */
  datatype PollAnswer =
    | Reported(status: string, statusMessage: Option<string>)
    | PollFailed(message: string)
    | PollInterrupted

  /**
   * One round of the loop: the poll's answer, the whole seconds elapsed
   * since monitoring started as read right after the poll, and whether
   * an interrupt arrives during the sleep that follows.
   */
  datatype Tick = Tick(answer: PollAnswer, elapsed: nat, sleepInterrupted: bool)

  const Interrupted: Failure := Failure(DeploymentError, "Deployment monitoring interrupted")

  /** Python's rendering of the optional status message inside an f-string. */
  function RenderMessage(m: Option<string>): string {
    match m
    case Some(s) => s
    case None => "None"
  }

  function TimeoutFailure(timeout: int, opId: string): Failure {
    Failure(DeploymentError,
            "Deployment timeout after " + Text.IntToString(timeout / 60) + " minutes. Operation ID: " + opId)
  }

  /** A reported status that neither ends the wait nor exceeds the time budget: the loop goes on to sleep. */
  predicate ReachesSleep(t: Tick, timeout: int) {
    t.answer.Reported? && t.answer.status != "SUCCEEDED" && t.answer.status != "FAILED"
    && t.elapsed < timeout
  }

  /**
   * How one round ends the wait, if it does: success or failure as
   * reported, the status call failing, the time budget exhausted after a
   * non-terminal status, or an interrupt during the poll or the sleep.
   */
  function Verdict(t: Tick, timeout: int, opId: string): (v: Option<Result<bool, Failure>>)
    ensures v.None? <==> ReachesSleep(t, timeout) && !t.sleepInterrupted
  {
    match t.answer
    case PollInterrupted => Some(Err(Interrupted))
    case PollFailed(msg) => Some(Err(Failure(ControlTowerError, "Failed to get operation status: " + msg)))
    case Reported(status, msg) =>
      if status == "SUCCEEDED" then Some(Ok(true))
      else if status == "FAILED" then Some(Err(Failure(DeploymentError, "Deployment failed: " + RenderMessage(msg))))
      else if t.elapsed >= timeout then Some(Err(TimeoutFailure(timeout, opId)))
      else if t.sleepInterrupted then Some(Err(Interrupted))
      else None
  }

  /** Some round of the trace ends the wait. */
  predicate Decided(trace: seq<Tick>, timeout: int, opId: string) {
    exists i :: 0 <= i < |trace| && Verdict(trace[i], timeout, opId).Some?
  }

  /**
   * wait_for_deployment_completion over a trace of rounds: polls until a
   * round decides, sleeping once after every round that does not. The
   * timeout defaults to 5400 seconds. The loop only ever returns true.
   */
  method WaitForCompletion(opId: string, timeout: Option<int>, trace: seq<Tick>)
    returns (r: Result<bool, Failure>, polls: nat, sleeps: nat)
    requires Decided(trace, timeout.GetOr(DefaultTimeoutSeconds), opId)
    ensures 1 <= polls <= |trace|
    ensures forall j :: 0 <= j < polls - 1 ==> Verdict(trace[j], timeout.GetOr(DefaultTimeoutSeconds), opId).None?
    ensures Verdict(trace[polls - 1], timeout.GetOr(DefaultTimeoutSeconds), opId) == Some(r)
    ensures sleeps == (if ReachesSleep(trace[polls - 1], timeout.GetOr(DefaultTimeoutSeconds)) then polls else polls - 1)
    ensures r.Ok? ==> r.value
  {
    var limit := timeout.GetOr(DefaultTimeoutSeconds);
    var i := 0;
    sleeps := 0;
    while Verdict(trace[i], limit, opId).None?
      invariant 0 <= i < |trace|
      invariant sleeps == i
      invariant forall j :: 0 <= j < i ==> Verdict(trace[j], limit, opId).None?
      invariant exists k :: i <= k < |trace| && Verdict(trace[k], limit, opId).Some?
      decreases |trace| - i
    {
      sleeps := sleeps + 1;
      i := i + 1;
    }
    polls := i + 1;
    r := Verdict(trace[i], limit, opId).value;
    if ReachesSleep(trace[i], limit) {
      sleeps := sleeps + 1;
    }
  }

  /**
   * In progress twice, then succeeded, well within the budget: three
   * polls, two sleeps, and success.
   */
  method InProgressTwiceThenSucceeded(opId: string) returns (r: Result<bool, Failure>, polls: nat, sleeps: nat)
    ensures r == Ok(true) && polls == 3 && sleeps == 2
  {
    var trace := [Tick(Reported("IN_PROGRESS", None), 0, false),
                  Tick(Reported("IN_PROGRESS", None), 30, false),
                  Tick(Reported("SUCCEEDED", None), 60, false)];
    assert Verdict(trace[2], DefaultTimeoutSeconds, opId).Some?;
    r, polls, sleeps := WaitForCompletion(opId, None, trace);
  }

  /** A non-terminal status read at or after the time budget ends the wait with a timeout naming the operation. */
  lemma TimeoutNamesOperation(t: Tick, timeout: int, opId: string)
    requires t.answer.Reported? && t.answer.status != "SUCCEEDED" && t.answer.status != "FAILED"
    requires t.elapsed >= timeout
    ensures Verdict(t, timeout, opId) == Some(Err(TimeoutFailure(timeout, opId)))
    ensures Text.StartsWith(TimeoutFailure(timeout, opId).message, "Deployment timeout after ")
  {
  }

  // ---------------------------------------------------------------------
  // Reading the audit account back
  // ---------------------------------------------------------------------

  /**
   * extract_audit_account_from_manifest: securityRoles.accountId when it
   * is a string of twelve digits, and None for anything else, including
   * every shape that would make the Python code raise.
   */
  function ExtractAuditAccount(m: Manifest.ManifestDoc): (r: Option<string>)
    ensures r.Some? <==> Manifest.SecurityRolesKey in m && Field(m[Manifest.SecurityRolesKey], Manifest.AccountIdKey).Some?
                         && IsAccountIdValue(Field(m[Manifest.SecurityRolesKey], Manifest.AccountIdKey).value)
    ensures r.Some? ==> JStr(r.value) == Field(m[Manifest.SecurityRolesKey], Manifest.AccountIdKey).value
  {
    if Manifest.SecurityRolesKey !in m then None
    else
      match Field(m[Manifest.SecurityRolesKey], Manifest.AccountIdKey)
      case Some(JStr(s)) => if Text.IsAccountId(s) then Some(s) else None
      case _ => None
  }

  /** On a validated manifest the extracted audit account is exactly the security-roles account id. */
  lemma ExtractFromWellFormed(m: Manifest.ManifestDoc)
    requires Manifest.WellFormed(m)
    ensures ExtractAuditAccount(m).Some?
    ensures JStr(ExtractAuditAccount(m).value) == Manifest.AccountIdOf(m[Manifest.SecurityRolesKey])
  {
  }
}

=== FILE: doc_validator.dfy ===
/**
 * End-to-end validation of a finished deployment: the landing zone, the
 * security baseline and account enrollment are each checked to PASS or
 * FAIL with remediation steps, and a report counts the outcomes.
 */
module DocValidator {
  import opened Results
  import opened Json

  datatype CheckStatus = Pass | Fail | Unknown

  // ---------------------------------------------------------------------
  // Control Tower deployment
  // ---------------------------------------------------------------------

  datatype ControlTowerCheck = ControlTowerCheck(
    status: CheckStatus,
    landingZoneStatus: Option<Json>,
    driftStatus: Option<Json>,
    organizationalUnits: seq<string>,
    remediationSteps: seq<string>)

  const NotActiveStep := "Landing zone not active. Check Control Tower console."

  /**
   * The remote answers the check reads: whether the Control Tower client
   * could be created, the landing-zone response, and the names of the
   * OUs under the first root (an error covers every call on that path).
   */
  datatype ControlTowerView = ControlTowerView(
    client: Result<(), string>,
    landingZone: Result<Json, string>,
    ous: Result<seq<string>, string>)

  /** The landing-zone part: PASS iff the reported status is ACTIVE. */
  function LandingZonePart(landingZone: Result<Json, string>): (r: ControlTowerCheck)
    ensures r.status == Pass <==>
      landingZone.Ok? && landingZone.value.JObj? && Field(landingZone.value, "status") == Some(JStr("ACTIVE"))
    ensures r.status != Unknown && r.organizationalUnits == []
    ensures r.status == Pass <==> r.remediationSteps == []
    ensures |r.remediationSteps| <= 1
  {
    var start := ControlTowerCheck(Unknown, None, None, [], []);
    match landingZone
    case Err(e) => start.(status := Fail, remediationSteps := ["Cannot access Control Tower: " + e])
    case Ok(response) =>
      match (PyGet(response, "status", JStr("UNKNOWN")), PyGet(response, "driftStatus", JStr("UNKNOWN")))
      case (Ok(status), Ok(drift)) =>
        var read := start.(landingZoneStatus := Some(status), driftStatus := Some(drift));
        if status == JStr("ACTIVE") then read.(status := Pass)
        else read.(status := Fail, remediationSteps := [NotActiveStep])
      case (Err(e), _) => start.(status := Fail, remediationSteps := ["Cannot access Control Tower: " + e])
      case (_, Err(e)) => start.(status := Fail, remediationSteps := ["Cannot access Control Tower: " + e])
  }

  /**
   * validate_control_tower_deployment: the landing zone decides PASS or
   * FAIL; failing to list the OUs only adds a remediation step.
   */
  function ValidateControlTowerDeployment(view: ControlTowerView): (r: ControlTowerCheck)
    ensures r.status != Unknown
    ensures r.status == Pass <==>
      view.client.Ok? && view.landingZone.Ok? && view.landingZone.value.JObj?
      && Field(view.landingZone.value, "status") == Some(JStr("ACTIVE"))
    ensures view.client.Ok? && view.ous.Ok? ==> r.organizationalUnits == view.ous.value
    ensures view.client.Ok? && view.ous.Ok? ==> (r.status == Pass <==> r.remediationSteps == [])
    ensures view.client.Ok? && view.ous.Err? ==>
      |r.remediationSteps| == (if r.status == Pass then 1 else 2)
      && Last(r.remediationSteps) == "Cannot validate organizational structure: " + view.ous.error
    ensures view.client.Err? ==> r.remediationSteps == ["Validation failed: " + view.client.error]
  {
    match view.client
    case Err(e) => ControlTowerCheck(Fail, None, None, [], ["Validation failed: " + e])
    case Ok(_) =>
      var lz := LandingZonePart(view.landingZone);
      match view.ous
      case Ok(names) => lz.(organizationalUnits := names)
      case Err(e) => lz.(remediationSteps := lz.remediationSteps + ["Cannot validate organizational structure: " + e])
  }

  function Last(xs: seq<string>): string
    requires |xs| > 0
  {
    xs[|xs| - 1]
  }

  // ---------------------------------------------------------------------
  // Security baseline
  // ---------------------------------------------------------------------

  datatype ServiceState = Active | Missing | ServiceError

  datatype BaselineCheck = BaselineCheck(
    status: CheckStatus,
    configStatus: ServiceState,
    guardDutyStatus: ServiceState,
    securityHubStatus: ServiceState,
    remediationSteps: seq<string>)

  /**
   * The remote answers the check reads: the configuration aggregators, the
   * GuardDuty detector ids, and the Security Hub's HubArn; an error covers
   * the client, the call and a missing response key.
   */
  datatype BaselineView = BaselineView(aggregators: Result<Json, string>, detectors: Result<Json, string>, hubArn: Result<Json, string>)

  /** A present-or-missing service: ACTIVE iff the answer is non-empty, ERROR iff the call failed. */
  function ServicePart(answer: Result<Json, string>, missingStep: Option<string>, errorPrefix: string)
    : (r: (ServiceState, seq<string>))
    ensures r.0 == Active <==> answer.Ok? && Truthy(answer.value)
    ensures r.0 == ServiceError <==> answer.Err?
    ensures r.0 == ServiceError ==> r.1 == [errorPrefix + answer.error]
    ensures r.0 == Missing ==> r.1 == (if missingStep.Some? then [missingStep.value] else [])
    ensures r.0 == Active ==> r.1 == []
  {
    match answer
    case Err(e) => (ServiceError, [errorPrefix + e])
    case Ok(v) =>
      if Truthy(v) then (Active, [])
      else (Missing, if missingStep.Some? then [missingStep.value] else [])
  }

  /**
   * validate_security_baseline: PASS iff Config, GuardDuty and Security
   * Hub are all ACTIVE. A missing hub fails the check without adding a
   * remediation step, unlike the other two services.
   */
  function ValidateSecurityBaseline(view: BaselineView): (r: BaselineCheck)
    ensures r.status != Unknown
    ensures r.status == Pass <==> r.configStatus == Active && r.guardDutyStatus == Active && r.securityHubStatus == Active
    ensures r.status == Pass <==>
      view.aggregators.Ok? && Truthy(view.aggregators.value)
      && view.detectors.Ok? && Truthy(view.detectors.value)
      && view.hubArn.Ok? && Truthy(view.hubArn.value)
    ensures r.status == Pass ==> r.remediationSteps == []
    ensures (r.configStatus != Active || r.guardDutyStatus != Active || r.securityHubStatus == ServiceError)
            ==> r.remediationSteps != []
  {
    var (config, configSteps) := ServicePart(view.aggregators, Some("Config organization aggregator not found"), "Config validation error: ");
    var (guardDuty, guardDutySteps) := ServicePart(view.detectors, Some("GuardDuty detector not found"), "GuardDuty validation error: ");
    var (hub, hubSteps) := ServicePart(view.hubArn, None, "Security Hub validation error: ");
    var status := if config == Active && guardDuty == Active && hub == Active then Pass else Fail;
    BaselineCheck(status, config, guardDuty, hub, configSteps + guardDutySteps + hubSteps)
  }

  /** The one way the baseline fails with nothing to remediate: only the hub is missing. */
  lemma SilentFailureIsMissingHub(view: BaselineView)
    ensures var r := ValidateSecurityBaseline(view);
      r.status == Fail && r.remediationSteps == [] <==>
      r.configStatus == Active && r.guardDutyStatus == Active && r.securityHubStatus == Missing
  {
  }

  // ---------------------------------------------------------------------
  // Account enrollment
  // ---------------------------------------------------------------------

  datatype Account = Account(id: string, name: string)

  datatype EnrollmentState = Enrolled | NotEnrolled

  datatype Enrollment = Enrollment(accountId: string, name: string, state: EnrollmentState)

  datatype Compliance = Compliant | NonCompliant

  datatype EnrollmentCheck = EnrollmentCheck(
    status: CheckStatus,
    enrolledAccounts: seq<Enrollment>,
    totalAccounts: nat,
    complianceStatus: Option<Compliance>,
    remediationSteps: seq<string>)

  /** The remote answers: the organization's accounts, and whether the Control Tower client could be created. */
  datatype EnrollmentView = EnrollmentView(accounts: Result<seq<Account>, string>, client: Result<(), string>)

  /** Every listed account is recorded as enrolled, in listing order. */
  method EnrollAccounts(accounts: seq<Account>) returns (enrolled: seq<Enrollment>, count: nat)
    ensures count == |enrolled| == |accounts|
    ensures forall i :: 0 <= i < |accounts| ==>
      enrolled[i] == Enrollment(accounts[i].id, accounts[i].name, Enrolled)
  {
    enrolled := [];
    count := 0;
    var i := 0;
    while i < |accounts|
      invariant 0 <= i <= |accounts|
      invariant count == |enrolled| == i
      invariant forall j :: 0 <= j < i ==> enrolled[j] == Enrollment(accounts[j].id, accounts[j].name, Enrolled)
    {
      enrolled := enrolled + [Enrollment(accounts[i].id, accounts[i].name, Enrolled)];
      count := count + 1;
      i := i + 1;
    }
  }

  /**
   * validate_account_enrollment: every account is counted as enrolled, so
   * the check passes (COMPLIANT) whenever the accounts can be listed and
   * the Control Tower client created, and fails with the error otherwise.
   */
  method ValidateAccountEnrollment(view: EnrollmentView) returns (r: EnrollmentCheck)
    ensures r.status != Unknown
    ensures r.status == Pass <==> view.accounts.Ok? && view.client.Ok?
    ensures r.status == Pass ==>
      r.complianceStatus == Some(Compliant) && r.totalAccounts == |r.enrolledAccounts| == |view.accounts.value|
      && (forall i :: 0 <= i < |r.enrolledAccounts| ==>
            r.enrolledAccounts[i].state == Enrolled && r.enrolledAccounts[i].accountId == view.accounts.value[i].id)
      && r.remediationSteps == []
    ensures view.accounts.Err? ==>
      r.totalAccounts == 0 && r.remediationSteps == ["Account enrollment validation error: " + view.accounts.error]
    ensures view.accounts.Ok? && view.client.Err? ==>
      r.totalAccounts == |view.accounts.value| && r.enrolledAccounts == []
      && r.remediationSteps == ["Account enrollment validation error: " + view.client.error]
  {
    r := EnrollmentCheck(Unknown, [], 0, None, []);
    match view.accounts
    case Err(e) =>
      r := r.(status := Fail, remediationSteps := ["Account enrollment validation error: " + e]);
    case Ok(accounts) =>
      r := r.(totalAccounts := |accounts|);
      match view.client
      case Err(e) =>
        r := r.(status := Fail, remediationSteps := ["Account enrollment validation error: " + e]);
      case Ok(_) =>
        var enrolled, count := EnrollAccounts(accounts);
        if count == r.totalAccounts {
          r := r.(enrolledAccounts := enrolled, complianceStatus := Some(Compliant), status := Pass);
        } else {
          // The NON_COMPLIANT branch: no account is ever recorded as not
          // enrolled, so the count always matches the total.
          assert false;
        }
  }

  // ---------------------------------------------------------------------
  // The report
  // ---------------------------------------------------------------------

  /** `list.count(s)`. */
  function Count(statuses: seq<CheckStatus>, s: CheckStatus): (n: nat)
    ensures n <= |statuses|
  {
    if statuses == [] then 0
    else (if statuses[0] == s then 1 else 0) + Count(statuses[1..], s)
  }

  /** Counting a status is counting its occurrences in the multiset of statuses. */
  lemma {:induction false} CountIsMultiplicity(statuses: seq<CheckStatus>, s: CheckStatus)
    ensures Count(statuses, s) == multiset(statuses)[s]
  {
    if statuses != [] {
      CountIsMultiplicity(statuses[1..], s);
      assert statuses == [statuses[0]] + statuses[1..];
    }
  }

  /** A status that never occurs is counted zero times, and one that is everywhere is counted fully. */
  lemma {:induction false} CountBounds(statuses: seq<CheckStatus>, s: CheckStatus)
    ensures Count(statuses, s) == 0 <==> forall i :: 0 <= i < |statuses| ==> statuses[i] != s
    ensures Count(statuses, s) == |statuses| <==> forall i :: 0 <= i < |statuses| ==> statuses[i] == s
  {
    if statuses != [] {
      CountBounds(statuses[1..], s);
      assert forall i :: 1 <= i < |statuses| ==> statuses[i] == statuses[1..][i - 1];
    }
  }

  datatype Summary = Summary(totalChecks: nat, passedChecks: nat, failedChecks: nat, remediationRequired: bool)

  datatype ValidationReport = ValidationReport(
    overallStatus: CheckStatus,
    controlTower: ControlTowerCheck,
    securityBaseline: BaselineCheck,
    accountEnrollment: EnrollmentCheck,
    summary: Summary)

  /**
   * generate_validation_report over the three checks' outcomes: the report
   * passes iff no check failed, and remediation is required exactly when
   * one did.
   */
  function Report(ct: ControlTowerCheck, baseline: BaselineCheck, enrollment: EnrollmentCheck): (r: ValidationReport)
    ensures r.summary.totalChecks == 3
    ensures r.summary.passedChecks == multiset([ct.status, baseline.status, enrollment.status])[Pass]
    ensures r.summary.failedChecks == multiset([ct.status, baseline.status, enrollment.status])[Fail]
    ensures r.overallStatus == Pass <==> ct.status != Fail && baseline.status != Fail && enrollment.status != Fail
    ensures r.overallStatus != Unknown
    ensures r.summary.remediationRequired <==> r.overallStatus == Fail
  {
    var statuses := [ct.status, baseline.status, enrollment.status];
    CountIsMultiplicity(statuses, Pass);
    CountIsMultiplicity(statuses, Fail);
    CountBounds(statuses, Fail);
    var passed := Count(statuses, Pass);
    var failed := Count(statuses, Fail);
    ValidationReport(if failed == 0 then Pass else Fail, ct, baseline, enrollment,
                     Summary(3, passed, failed, failed != 0))
  }

  /**
   * The report as produced: since no check is left UNKNOWN, every check
   * counts as passed or failed, and the report passes iff all three do.
   */
  method GenerateValidationReport(ctView: ControlTowerView, baselineView: BaselineView, enrollmentView: EnrollmentView)
    returns (r: ValidationReport)
    ensures r.summary.passedChecks + r.summary.failedChecks == r.summary.totalChecks
    ensures r.overallStatus == Pass <==>
      r.controlTower.status == Pass && r.securityBaseline.status == Pass && r.accountEnrollment.status == Pass
    ensures r.overallStatus == Pass <==> r.summary.passedChecks == 3
    ensures r.controlTower == ValidateControlTowerDeployment(ctView)
    ensures r.securityBaseline == ValidateSecurityBaseline(baselineView)
    ensures r.accountEnrollment.status == Pass <==> enrollmentView.accounts.Ok? && enrollmentView.client.Ok?
    ensures r.accountEnrollment.status != Unknown
    ensures r.overallStatus == Pass <==>
      && ValidateControlTowerDeployment(ctView).status == Pass
      && ValidateSecurityBaseline(baselineView).status == Pass
      && enrollmentView.accounts.Ok? && enrollmentView.client.Ok?
  {
    var ct := ValidateControlTowerDeployment(ctView);
    var baseline := ValidateSecurityBaseline(baselineView);
    var enrollment := ValidateAccountEnrollment(enrollmentView);
    r := Report(ct, baseline, enrollment);
    DecidedReport(ct, baseline, enrollment);
  }

  /** A report over three decided checks counts each of them once and passes iff all three pass. */
  lemma DecidedReport(ct: ControlTowerCheck, baseline: BaselineCheck, enrollment: EnrollmentCheck)
    requires ct.status != Unknown && baseline.status != Unknown && enrollment.status != Unknown
    ensures var r := Report(ct, baseline, enrollment);
      && r.summary.passedChecks + r.summary.failedChecks == r.summary.totalChecks
      && (r.overallStatus == Pass <==> ct.status == Pass && baseline.status == Pass && enrollment.status == Pass)
      && (r.overallStatus == Pass <==> r.summary.passedChecks == 3)
  {
    var statuses := [ct.status, baseline.status, enrollment.status];
    PassOrFailCountsAll(statuses);
    CountBounds(statuses, Pass);
    CountBounds(statuses, Fail);
  }

  /** When no status is UNKNOWN, the PASS and FAIL counts add up to the number of statuses. */
  lemma {:induction false} PassOrFailCountsAll(statuses: seq<CheckStatus>)
    requires forall i :: 0 <= i < |statuses| ==> statuses[i] != Unknown
    ensures Count(statuses, Pass) + Count(statuses, Fail) == |statuses|
  {
    if statuses != [] {
      PassOrFailCountsAll(statuses[1..]);
    }
  }
}

=== FILE: iam_roles.dfy ===
/**
 * The IAM roles Control Tower needs: the fixed role table, existence and
 * trust-policy checks over GetRole answers, the missing-role list and the
 * roles summary the IAM checker reads.
 */
module IamRoles {
  import opened Results
  import opened Json
  import opened Remote

  /** One row of the role table: the role, what it is for, and the service it must trust. */
  datatype RoleSpec = RoleSpec(name: string, description: string, trustService: string)

  /** The roles Control Tower creates, in table order. */
  const AdminRole := RoleSpec("AWSControlTowerAdmin", "Administrative role for Control Tower operations", "controltower.amazonaws.com")
  const StackSetRole := RoleSpec("AWSControlTowerStackSetRole", "CloudFormation StackSet operations role", "cloudformation.amazonaws.com")
  const CloudTrailRole := RoleSpec("AWSControlTowerCloudTrailRole", "CloudTrail logging role", "cloudtrail.amazonaws.com")
  const ControlTowerRoles: seq<RoleSpec> := [AdminRole, StackSetRole, CloudTrailRole]

  /** The role names of a table, in order. */
  function Names(roles: seq<RoleSpec>): (r: seq<string>)
    ensures |r| == |roles|
    ensures forall i :: 0 <= i < |roles| ==> r[i] == roles[i].name
  {
    if roles == [] then [] else [roles[0].name] + Names(roles[1..])
  }

  /** The table row for a role name, if the table has one. */
  function Lookup(roles: seq<RoleSpec>, name: string): (r: Option<RoleSpec>)
    ensures r.Some? <==> name in Names(roles)
    ensures r.Some? ==> r.value in roles && r.value.name == name
  {
    if roles == [] then None
    else if roles[0].name == name then Some(roles[0])
    else Lookup(roles[1..], name)
  }

  /**
   * A GetRole answer for every role name: the role record, or the
   * ClientError the call raised.
   */
  type RoleDirectory = string -> Result<Json, ClientError>

  const NoSuchEntityCode := "NoSuchEntity"
  const GetRoleOperation := "GetRole"
  const CheckRolePrefix := "Failed to check role "
  const RoleDetailsPrefix := "Failed to get role details: "

  /** role_exists: NoSuchEntity means absent; any other error is an IAMRoleError. */
  function RoleExists(getRole: RoleDirectory, name: string): (r: Result<bool, string>)
    ensures r == Ok(true) <==> getRole(name).Ok?
    ensures r == Ok(false) <==> getRole(name).Err? && getRole(name).error.code == NoSuchEntityCode
    ensures r.Err? ==> r.error == CheckRolePrefix + name + ": " + Describe(getRole(name).error, GetRoleOperation)
  {
    match getRole(name)
    case Ok(_) => Ok(true)
    case Err(e) =>
      if e.code == NoSuchEntityCode then Ok(false)
      else Err(CheckRolePrefix + name + ": " + Describe(e, GetRoleOperation))
  }

  /** get_role_details: the role record, None when absent, an IAMRoleError otherwise. */
  function GetRoleDetails(getRole: RoleDirectory, name: string): (r: Result<Option<Json>, string>)
    ensures r.Ok? <==> RoleExists(getRole, name).Ok?
    ensures r.Ok? ==> (r.value.Some? <==> RoleExists(getRole, name) == Ok(true))
    ensures r.Ok? && r.value.Some? ==> r.value.value == getRole(name).value
  {
    match getRole(name)
    case Ok(details) => Ok(Some(details))
    case Err(e) =>
      if e.code == NoSuchEntityCode then Ok(None)
      else Err(RoleDetailsPrefix + Describe(e, GetRoleOperation))
  }

  const PrincipalKey := "Principal"
  const ServiceKey := "Service"

  /** The statement trusts the service: its Principal is a dictionary whose Service is exactly it. */
  predicate Trusts(statement: Json, service: string) {
    statement.JObj? && PrincipalKey in statement.fields
    && statement.fields[PrincipalKey].JObj?
    && ServiceKey in statement.fields[PrincipalKey].fields
    && statement.fields[PrincipalKey].fields[ServiceKey] == JStr(service)
  }

  /**
   * The loop over statements: True at the first statement trusting the
   * service, False when none does, and the AttributeError of a statement
   * that is not a dictionary reached before any match.
   */
  function AnyStatementTrusts(statements: seq<Json>, service: string): (r: Result<bool, string>)
    ensures r == Ok(true) <==>
      (exists i :: 0 <= i < |statements| && Trusts(statements[i], service)
        && forall j :: 0 <= j < i ==> statements[j].JObj?)
    ensures r == Ok(false) <==> forall i :: 0 <= i < |statements| ==> statements[i].JObj? && !Trusts(statements[i], service)
  {
    if statements == [] then Ok(false)
    else
      var s := statements[0];
      match PyGet(s, PrincipalKey, JObj(map[]))
      case Err(e) => Err(e)
      case Ok(principal) =>
        if principal.JObj? && ServiceKey in principal.fields && principal.fields[ServiceKey] == JStr(service) then
          Ok(true)
        else
          var rest := AnyStatementTrusts(statements[1..], service);
          assert rest == Ok(true) ==>
            (exists i :: 0 <= i < |statements| && Trusts(statements[i], service)
              && forall j :: 0 <= j < i ==> statements[j].JObj?) by {
            if rest == Ok(true) {
              var i :| 0 <= i < |statements[1..]| && Trusts(statements[1..][i], service)
                && forall j :: 0 <= j < i ==> statements[1..][j].JObj?;
              assert Trusts(statements[i + 1], service);
              assert forall j :: 0 <= j < i + 1 ==> statements[j].JObj? by {
                forall j | 0 <= j < i + 1 ensures statements[j].JObj? {
                  if j > 0 { assert statements[j] == statements[1..][j - 1]; }
                }
              }
            }
          }
          rest
  }

  /** Python's `for x in v` over a Json value, as far as the trust check can see it. */
  function Statements(v: Json): (r: Result<seq<Json>, string>)
    ensures v.JList? ==> r == Ok(v.items)
  {
    match v
    case JList(items) => Ok(items)
    // Iterating a non-empty dictionary or string yields strings, whose `.get` fails.
    case JObj(fields) => if fields == map[] then Ok([]) else Ok([JStr("")])
    case JStr(s) => if s == "" then Ok([]) else Ok([JStr("")])
    case _ => Err("'" + TypeName(v) + "' object is not iterable")
  }

  const PolicyDocumentKey := "AssumeRolePolicyDocument"
  const StatementKey := "Statement"

  /**
   * validate_role_trust_policy: False for a missing (or empty) role, True
   * for a role outside the table, otherwise whether some statement trusts
   * the role's expected service.
   */
  function TrustPolicyValid(getRole: RoleDirectory, name: string): (r: Result<bool, string>)
    ensures RoleExists(getRole, name) == Ok(false) ==> r == Ok(false)
    ensures RoleExists(getRole, name).Err? ==> r.Err?
    ensures (getRole(name).Ok? && getRole(name).value.JObj? && getRole(name).value.fields != map[]
             && Lookup(ControlTowerRoles, name).Some?) ==>
      var statements := DeclaredStatements(getRole(name).value);
      statements.Some? ==> r == AnyStatementTrusts(statements.value, Lookup(ControlTowerRoles, name).value.trustService)
    ensures (getRole(name).Ok? && PolicyReads(getRole(name).value) && getRole(name).value.fields != map[]
             && Lookup(ControlTowerRoles, name).None?) ==> r == Ok(true)
  {
    var details :- GetRoleDetails(getRole, name);
    if details.None? || !Truthy(details.value) then Ok(false)
    else TrustInDocument(details.value, name)
  }

  /**
   * The statements of a role's trust policy when the role details hold
   * a policy dictionary (or none) whose Statement is a list.
   */
  function DeclaredStatements(details: Json): Option<seq<Json>>
    requires details.JObj?
  {
    var policy := if PolicyDocumentKey in details.fields then details.fields[PolicyDocumentKey] else JObj(map[]);
    if policy.JObj? && StatementKey in policy.fields && policy.fields[StatementKey].JList? then
      Some(policy.fields[StatementKey].items)
    else None
  }

  /**
   * Whether the role details are a dictionary whose trust policy, if
   * present, is a dictionary too: the two `.get` calls then succeed.
   */
  predicate PolicyReads(details: Json)
  {
    details.JObj? && (PolicyDocumentKey in details.fields ==> details.fields[PolicyDocumentKey].JObj?)
  }

  /**
   * The trust check on the details of an existing role. The policy is
   * read before the table lookup, but a role outside the table is
   * accepted before its statements are iterated.
   */
  function TrustInDocument(details: Json, name: string): (r: Result<bool, string>)
    ensures details.JObj? && Lookup(ControlTowerRoles, name).Some? && DeclaredStatements(details).Some? ==>
      r == AnyStatementTrusts(DeclaredStatements(details).value, Lookup(ControlTowerRoles, name).value.trustService)
    ensures Lookup(ControlTowerRoles, name).None? ==> (r == Ok(true) <==> PolicyReads(details))
    ensures !PolicyReads(details) ==> r.Err?
  {
    var policy :- PyGet(details, PolicyDocumentKey, JObj(map[]));
    var statementsValue :- PyGet(policy, StatementKey, JList([]));
    match Lookup(ControlTowerRoles, name)
    case None => Ok(true)
    case Some(spec) =>
      var statements :- Statements(statementsValue);
      AnyStatementTrusts(statements, spec.trustService)
  }

  /** One entry of the summary's role_details. */
  datatype RoleStatus = RoleStatus(name: string, present: bool, trustPolicyValid: bool)

  /** get_roles_summary's dictionary; `details` keeps table order. */
  datatype RolesSummary = RolesSummary(total: nat, existing: nat, missing: seq<string>, details: seq<RoleStatus>)

  /** Some status names `n` as a missing role. */
  predicate MissingListed(details: seq<RoleStatus>, n: string) {
    exists i :: 0 <= i < |details| && details[i].name == n && !details[i].present
  }

  lemma MissingListedCons(details: seq<RoleStatus>, n: string)
    requires details != []
    ensures MissingListed(details, n) <==>
      (details[0].name == n && !details[0].present) || MissingListed(details[1..], n)
  {
    if MissingListed(details[1..], n) {
      var i :| 0 <= i < |details[1..]| && details[1..][i].name == n && !details[1..][i].present;
      assert details[i + 1] == details[1..][i];
    }
    if MissingListed(details, n) && !(details[0].name == n && !details[0].present) {
      var i :| 0 <= i < |details| && details[i].name == n && !details[i].present;
      assert details[1..][i - 1] == details[i];
    }
  }

  /** Missing role names of a list of statuses, in order. */
  function MissingOf(details: seq<RoleStatus>): (r: seq<string>)
    ensures |r| <= |details|
    ensures forall n :: n in r <==> MissingListed(details, n)
    ensures r == [] <==> forall i :: 0 <= i < |details| ==> details[i].present
  {
    if details == [] then []
    else
      var rest := MissingOf(details[1..]);
      assert (forall i :: 0 <= i < |details| ==> details[i].present) <==>
        details[0].present && (forall i :: 0 <= i < |details[1..]| ==> details[1..][i].present) by {
        if details[0].present && forall i :: 0 <= i < |details[1..]| ==> details[1..][i].present {
          forall i | 1 <= i < |details| ensures details[i].present {
            assert details[i] == details[1..][i - 1];
          }
        }
      }
      forall n ensures MissingListed(details, n) <==>
        (details[0].name == n && !details[0].present) || MissingListed(details[1..], n) {
        MissingListedCons(details, n);
      }
      if details[0].present then rest else [details[0].name] + rest
  }

  /** Number of existing roles among the statuses. */
  function ExistingCount(details: seq<RoleStatus>): (n: nat)
    ensures n + |MissingOf(details)| == |details|
  {
    if details == [] then 0
    else (if details[0].present then 1 else 0) + ExistingCount(details[1..])
  }

  /**
   * The statuses of the listed roles, in order, querying existence and,
   * for existing roles only, the trust policy; the first error aborts.
   */
  function StatusesOf(getRole: RoleDirectory, roles: seq<RoleSpec>): (r: Result<seq<RoleStatus>, string>)
    ensures r.Ok? ==> |r.value| == |roles|
    ensures r.Ok? ==> forall i :: 0 <= i < |roles| ==>
      r.value[i].name == roles[i].name
      && RoleExists(getRole, roles[i].name) == Ok(r.value[i].present)
      && (r.value[i].present ==> TrustPolicyValid(getRole, roles[i].name) == Ok(r.value[i].trustPolicyValid))
      && (!r.value[i].present ==> !r.value[i].trustPolicyValid)
    ensures r.Ok? <==> forall i :: 0 <= i < |roles| ==>
      RoleExists(getRole, roles[i].name).Ok?
      && (RoleExists(getRole, roles[i].name) == Ok(true) ==> TrustPolicyValid(getRole, roles[i].name).Ok?)
  {
    if roles == [] then Ok([])
    else
      var name := roles[0].name;
      var rest := StatusesOf(getRole, roles[1..]);
      match RoleExists(getRole, name)
      case Err(e) => Err(e)
      case Ok(present) =>
        if !present then
          (if rest.Err? then Err(rest.error) else Ok([RoleStatus(name, false, false)] + rest.value))
        else match TrustPolicyValid(getRole, name)
          case Err(e) => Err(e)
          case Ok(valid) => if rest.Err? then Err(rest.error) else Ok([RoleStatus(name, true, valid)] + rest.value)
  }

  /** get_roles_summary over the role table. */
  function GetRolesSummary(getRole: RoleDirectory): (r: Result<RolesSummary, string>)
    ensures r.Ok? ==> r.value.total == 3 && r.value.existing + |r.value.missing| == r.value.total
    ensures r.Ok? ==> |r.value.details| == 3
    ensures r.Ok? ==> forall i :: 0 <= i < 3 ==>
      (r.value.details[i].name == ControlTowerRoles[i].name
       && (!r.value.details[i].present ==> !r.value.details[i].trustPolicyValid))
    ensures r.Ok? ==> r.value.missing == MissingOf(r.value.details)
  {
    var details :- StatusesOf(getRole, ControlTowerRoles);
    Ok(RolesSummary(|ControlTowerRoles|, ExistingCount(details), MissingOf(details), details))
  }

  /** Some listed role is `n` and its existence check says False. */
  predicate AbsentRole(getRole: RoleDirectory, roles: seq<RoleSpec>, n: string) {
    exists i :: 0 <= i < |roles| && roles[i].name == n && RoleExists(getRole, n) == Ok(false)
  }

  lemma AbsentRoleCons(getRole: RoleDirectory, roles: seq<RoleSpec>, n: string)
    requires roles != []
    ensures AbsentRole(getRole, roles, n) <==>
      (roles[0].name == n && RoleExists(getRole, n) == Ok(false)) || AbsentRole(getRole, roles[1..], n)
  {
    if AbsentRole(getRole, roles[1..], n) {
      var i :| 0 <= i < |roles[1..]| && roles[1..][i].name == n && RoleExists(getRole, n) == Ok(false);
      assert roles[i + 1] == roles[1..][i];
    }
    if AbsentRole(getRole, roles, n) && !(roles[0].name == n && RoleExists(getRole, n) == Ok(false)) {
      var i :| 0 <= i < |roles| && roles[i].name == n && RoleExists(getRole, n) == Ok(false);
      assert roles[1..][i - 1] == roles[i];
    }
  }

  /** get_missing_roles: the table's roles whose existence check says False, in table order. */
  function GetMissingRoles(getRole: RoleDirectory, roles: seq<RoleSpec>): (r: Result<seq<string>, string>)
    ensures r.Ok? <==> forall i :: 0 <= i < |roles| ==> RoleExists(getRole, roles[i].name).Ok?
    ensures r.Ok? ==> forall n :: n in r.value <==> AbsentRole(getRole, roles, n)
  {
    if roles == [] then Ok([])
    else
      var rest := GetMissingRoles(getRole, roles[1..]);
      match RoleExists(getRole, roles[0].name)
      case Err(e) => Err(e)
      case Ok(present) =>
        if rest.Err? then Err(rest.error)
        else
          forall n ensures AbsentRole(getRole, roles, n) <==>
            (roles[0].name == n && RoleExists(getRole, n) == Ok(false)) || AbsentRole(getRole, roles[1..], n) {
            AbsentRoleCons(getRole, roles, n);
          }
          if present then rest else Ok([roles[0].name] + rest.value)
  }

  /** The summary's missing list is the one get_missing_roles computes. */
  lemma {:induction false} SummaryMissingAgrees(getRole: RoleDirectory, roles: seq<RoleSpec>)
    requires StatusesOf(getRole, roles).Ok?
    ensures GetMissingRoles(getRole, roles).Ok?
    ensures MissingOf(StatusesOf(getRole, roles).value) == GetMissingRoles(getRole, roles).value
  {
    if roles != [] {
      SummaryMissingAgrees(getRole, roles[1..]);
    }
  }
}

=== FILE: iam_validator.dfy ===
/**
 * The IAM-roles checker: a warning for missing roles, then a warning for
 * existing roles with untrusted policies, otherwise a pass; a failure
 * only when reading the roles raised.
 */
module IamValidator {
  import opened Results
  import opened Json
  import opened IamRoles
  import opened Validation

  /** Some status is an existing role whose trust policy is not valid. */
  predicate TrustIssueListed(details: seq<RoleStatus>, n: string) {
    exists i :: 0 <= i < |details| && details[i].name == n && details[i].present && !details[i].trustPolicyValid
  }

  lemma TrustIssueListedCons(details: seq<RoleStatus>, n: string)
    requires details != []
    ensures TrustIssueListed(details, n) <==>
      (details[0].name == n && details[0].present && !details[0].trustPolicyValid) || TrustIssueListed(details[1..], n)
  {
    if TrustIssueListed(details[1..], n) {
      var i :| 0 <= i < |details[1..]| && details[1..][i].name == n && details[1..][i].present
        && !details[1..][i].trustPolicyValid;
      assert details[i + 1] == details[1..][i];
    }
    if TrustIssueListed(details, n) && !(details[0].name == n && details[0].present && !details[0].trustPolicyValid) {
      var i :| 0 <= i < |details| && details[i].name == n && details[i].present && !details[i].trustPolicyValid;
      assert details[1..][i - 1] == details[i];
    }
  }

  /** The existing roles whose trust policy is not valid, in summary order. */
  function TrustIssues(details: seq<RoleStatus>): (r: seq<string>)
    ensures forall n :: n in r <==> TrustIssueListed(details, n)
    ensures r == [] <==> forall i :: 0 <= i < |details| ==> !details[i].present || details[i].trustPolicyValid
  {
    if details == [] then []
    else
      var rest := TrustIssues(details[1..]);
      forall n ensures TrustIssueListed(details, n) <==>
        (details[0].name == n && details[0].present && !details[0].trustPolicyValid) || TrustIssueListed(details[1..], n) {
        TrustIssueListedCons(details, n);
      }
      assert (forall i :: 0 <= i < |details| ==> !details[i].present || details[i].trustPolicyValid) <==>
        (!details[0].present || details[0].trustPolicyValid)
        && (forall i :: 0 <= i < |details[1..]| ==> !details[1..][i].present || details[1..][i].trustPolicyValid) by {
        if forall i :: 0 <= i < |details[1..]| ==> !details[1..][i].present || details[1..][i].trustPolicyValid {
          forall i | 1 <= i < |details| ensures !details[i].present || details[i].trustPolicyValid {
            assert details[i] == details[1..][i - 1];
          }
        }
      }
      if details[0].present && !details[0].trustPolicyValid then [details[0].name] + rest else rest
  }

  /** The role's description from the table, "Control Tower role" for a role outside it. */
  function DescriptionOf(role: string): string {
    match Lookup(ControlTowerRoles, role)
    case Some(spec) => spec.description
    case None => "Control Tower role"
  }

  const RemediationHeader := "Control Tower will create required roles automatically during setup:"
  const RemediationFooter: seq<string> := [
    "",
    "No manual action required - roles are created during Control Tower deployment",
    "Ensure your account has permissions to create IAM roles"]

  /** The remediation line for one missing role: its name and description. */
  function RoleLine(role: string): string {
    "  - " + role + ": " + DescriptionOf(role)
  }

  /** One line per missing role with its description. */
  function RoleLines(missing: seq<string>): (r: seq<string>)
    ensures |r| == |missing|
    ensures forall i :: 0 <= i < |missing| ==> r[i] == RoleLine(missing[i])
  {
    if missing == [] then [] else [RoleLine(missing[0])] + RoleLines(missing[1..])
  }

  /** _get_remediation_steps: a header, one line per missing role, then the fixed closing lines. */
  function RemediationSteps(missing: seq<string>): (r: seq<string>)
    ensures |r| == |missing| + 4
    ensures r[0] == RemediationHeader
    ensures forall i :: 0 <= i < |missing| ==> r[i + 1] == RoleLine(missing[i])
    ensures r[|missing| + 1..] == RemediationFooter
  {
    var lines := RoleLines(missing);
    var r := [RemediationHeader] + lines + RemediationFooter;
    assert forall i :: 0 <= i < |missing| ==> r[i + 1] == lines[i];
    assert r[|missing| + 1..] == RemediationFooter;
    r
  }

  /** The role_details dictionary of the summary. */
  function RoleDetailsJson(details: seq<RoleStatus>): map<string, Json> {
    if details == [] then map[]
    else RoleDetailsJson(details[1..])[details[0].name :=
      JObj(map["exists" := JBool(details[0].present), "trust_policy_valid" := JBool(details[0].trustPolicyValid)])]
  }

  /** The summary as the dictionary get_roles_summary returns. */
  function SummaryFields(s: RolesSummary): map<string, Json> {
    map["total_roles" := JInt(s.total),
        "existing_roles" := JInt(s.existing),
        "missing_roles" := StringList(s.missing),
        "role_details" := JObj(RoleDetailsJson(s.details))]
  }

  /**
   * IAMRolesValidator.validate over the roles summary (or the error
   * reading it raised): missing roles come first, then trust issues.
   */
  function CheckIamRoles(summary: Result<RolesSummary, string>): (r: ValidationResult)
    ensures r.validatorName == IamName
    ensures r.status == Failed <==> summary.Err?
    ensures summary.Err? ==>
      r.message == "IAM roles validation failed: " + summary.error && r.details == map["error" := JStr(summary.error)]
    ensures summary.Ok? && summary.value.missing != [] ==>
      r.status == Warning && r.message == "Control Tower roles will be created automatically"
      && r.details == map["missing_roles" := StringList(summary.value.missing),
                          "existing_roles" := JInt(summary.value.existing),
                          "total_roles" := JInt(summary.value.total)]
      && r.remediation == RemediationSteps(summary.value.missing)
    ensures summary.Ok? && summary.value.missing == [] && TrustIssues(summary.value.details) != [] ==>
      r.status == Warning && r.message == "Some roles have invalid trust policies"
      && r.details == map["roles_with_trust_issues" := StringList(TrustIssues(summary.value.details)),
                          "summary" := JObj(SummaryFields(summary.value))]
    ensures r.status == Passed <==>
      summary.Ok? && summary.value.missing == [] && TrustIssues(summary.value.details) == []
    ensures r.status != Skipped
  {
    match summary
    case Err(e) => ValidationResult(IamName, Failed, "IAM roles validation failed: " + e, [], map["error" := JStr(e)])
    case Ok(s) =>
      if s.missing != [] then
        ValidationResult(IamName, Warning, "Control Tower roles will be created automatically",
          RemediationSteps(s.missing),
          map["missing_roles" := StringList(s.missing), "existing_roles" := JInt(s.existing), "total_roles" := JInt(s.total)])
      else
        var issues := TrustIssues(s.details);
        if issues != [] then
          ValidationResult(IamName, Warning, "Some roles have invalid trust policies",
            ["Review trust policies for roles with issues",
             "Ensure roles trust appropriate AWS services",
             "Control Tower will recreate roles if needed during setup"],
            map["roles_with_trust_issues" := StringList(issues), "summary" := JObj(SummaryFields(s))])
        else
          ValidationResult(IamName, Passed, "IAM roles validation completed successfully", [], SummaryFields(s))
  }

  /** Every listed role exists and trusts its service. */
  predicate Healthy(getRole: RoleDirectory, roles: seq<RoleSpec>) {
    forall i :: 0 <= i < |roles| ==>
      RoleExists(getRole, roles[i].name) == Ok(true) && TrustPolicyValid(getRole, roles[i].name) == Ok(true)
  }

  /** Every status is an existing role with a valid trust policy. */
  predicate AllHealthy(details: seq<RoleStatus>) {
    forall i :: 0 <= i < |details| ==> details[i].present && details[i].trustPolicyValid
  }

  /** The checker passes a readable summary exactly when every listed role is healthy. */
  lemma PassesIffAllHealthy(s: RolesSummary)
    requires s.missing == MissingOf(s.details)
    ensures CheckIamRoles(Ok(s)).status == Passed <==> AllHealthy(s.details)
  {
    if AllHealthy(s.details) {
      assert TrustIssues(s.details) == [];
    }
  }

  /** The statuses read for the roles are all healthy exactly when the roles are. */
  lemma StatusesHealthyIff(getRole: RoleDirectory, roles: seq<RoleSpec>)
    ensures StatusesOf(getRole, roles).Ok? && AllHealthy(StatusesOf(getRole, roles).value) <==> Healthy(getRole, roles)
  {
    var statuses := StatusesOf(getRole, roles);
    if statuses.Ok? {
      var d := statuses.value;
      if AllHealthy(d) {
        forall i | 0 <= i < |roles|
          ensures RoleExists(getRole, roles[i].name) == Ok(true)
          ensures TrustPolicyValid(getRole, roles[i].name) == Ok(true)
        {
          assert d[i].present && d[i].trustPolicyValid;
        }
      }
      if Healthy(getRole, roles) {
        forall i | 0 <= i < |d| ensures d[i].present && d[i].trustPolicyValid {
          assert RoleExists(getRole, roles[i].name) == Ok(d[i].present);
        }
      }
    } else if Healthy(getRole, roles) {
      forall i | 0 <= i < |roles|
        ensures RoleExists(getRole, roles[i].name).Ok?
        ensures RoleExists(getRole, roles[i].name) == Ok(true) ==> TrustPolicyValid(getRole, roles[i].name).Ok?
      {
      }
      assert false;
    }
  }

  /**
   * End to end over the GetRole answers: the checker passes exactly when
   * every required role exists and trusts its expected service.
   */
  lemma PassesIffRolesHealthy(getRole: RoleDirectory)
    ensures CheckIamRoles(GetRolesSummary(getRole)).status == Passed <==> Healthy(getRole, ControlTowerRoles)
  {
    StatusesHealthyIff(getRole, ControlTowerRoles);
    var summary := GetRolesSummary(getRole);
    if summary.Ok? {
      PassesIffAllHealthy(summary.value);
    }
  }
}

=== FILE: json.dfy ===
/**
 * The dynamically typed values the pipeline passes around: parsed YAML
 * configuration, landing-zone manifests and policy documents are all
 * nested dictionaries, lists, strings, numbers, booleans and None.
 */
module Json {
  import opened Results
  import Text

  datatype Json =
    | JNull
    | JBool(b: bool)
    | JInt(i: int)
    | JStr(s: string)
    | JList(items: seq<Json>)
    | JObj(fields: map<string, Json>)

  /** Python's `type(v).__name__`, used in TypeError messages. */
  function TypeName(v: Json): string {
    match v
    case JNull => "NoneType"
    case JBool(_) => "bool"
    case JInt(_) => "int"
    case JStr(_) => "str"
    case JList(_) => "list"
    case JObj(_) => "dict"
  }

  /** Python truthiness: None, False, 0 and empty containers are false. */
  predicate Truthy(v: Json) {
    match v
    case JNull => false
    case JBool(b) => b
    case JInt(i) => i != 0
    case JStr(s) => s != ""
    case JList(items) => items != []
    case JObj(fields) => fields != map[]
  }

  /** The integer a boolean stands for in Python arithmetic and comparison. */
  function BoolAsInt(b: bool): int {
    if b then 1 else 0
  }

  /**
   * Python's `a == b`: a boolean equals the integer it stands for, lists
   * are equal element by element, dictionaries key by key, and values of
   * otherwise different types are never equal.
   */
  predicate PyEq(a: Json, b: Json)
    decreases a
  {
    match (a, b)
    case (JNull, JNull) => true
    case (JBool(x), JBool(y)) => x == y
    case (JBool(x), JInt(j)) => j == BoolAsInt(x)
    case (JInt(i), JBool(y)) => i == BoolAsInt(y)
    case (JInt(i), JInt(j)) => i == j
    case (JStr(s), JStr(t)) => s == t
    case (JList(xs), JList(ys)) =>
      |xs| == |ys| && forall k :: 0 <= k < |xs| ==> PyEq(xs[k], ys[k])
    case (JObj(f), JObj(g)) =>
      f.Keys == g.Keys && forall key :: key in f && key in g ==> PyEq(f[key], g[key])
    case _ => false
  }

  /** Python equality holds between identical values. */
  lemma {:induction false} PyEqReflexive(a: Json)
    ensures PyEq(a, a)
    decreases a
  {
    match a
    case JList(xs) =>
      forall k | 0 <= k < |xs| ensures PyEq(xs[k], xs[k]) {
        PyEqReflexive(xs[k]);
      }
    case JObj(f) =>
      forall key | key in f ensures PyEq(f[key], f[key]) {
        PyEqReflexive(f[key]);
      }
    case _ =>
  }

  /** Python equality is symmetric. */
  lemma {:induction false} PyEqSymmetric(a: Json, b: Json)
    requires PyEq(a, b)
    ensures PyEq(b, a)
    decreases a
  {
    match (a, b)
    case (JList(xs), JList(ys)) =>
      forall k | 0 <= k < |ys| ensures PyEq(ys[k], xs[k]) {
        PyEqSymmetric(xs[k], ys[k]);
      }
    case (JObj(f), JObj(g)) =>
      forall key | key in g && key in f ensures PyEq(g[key], f[key]) {
        PyEqSymmetric(f[key], g[key]);
      }
    case _ =>
  }

  /** Where one side is a string, Python equality is plain equality. */
  lemma PyEqOnStrings(a: Json, b: Json)
    requires a.JStr? || b.JStr?
    ensures PyEq(a, b) <==> a == b
  {
  }

  /** `1 == True` in Python although the two values differ in type. */
  lemma OneEqualsTrue()
    ensures PyEq(JInt(1), JBool(true)) && JInt(1) != JBool(true)
    ensures PyEq(JList([JInt(0)]), JList([JBool(false)]))
  {
    assert PyEq(JInt(0), JBool(false));
  }

  /**
   * Python's `str(v)` as it appears inside error messages. Strings,
   * numbers, booleans and None render exactly; containers render as a
   * placeholder.
   */
  function Render(v: Json): string {
    match v
    case JNull => "None"
    case JBool(b) => if b then "True" else "False"
    case JInt(i) => Text.IntToString(i)
    case JStr(s) => s
    case JList(_) => "[...]"
    case JObj(_) => "{...}"
  }

  /**
   * Python's `key in v` with a string key: dictionary membership, list
   * membership, substring test on a string, and a TypeError for values
   * that are not containers.
   */
  function PyIn(key: string, v: Json): (r: Result<bool, string>)
    ensures r.Err? <==> !(v.JObj? || v.JList? || v.JStr?)
    ensures v.JObj? ==> r == Ok(key in v.fields)
    ensures v.JList? ==> r == Ok(JStr(key) in v.items)
    ensures v.JStr? ==> r == Ok(Text.Contains(v.s, key))
  {
    match v
    case JObj(fields) => Ok(key in fields)
    case JList(items) => Ok(JStr(key) in items)
    case JStr(s) => Ok(Text.Contains(s, key))
    case _ => Err("argument of type '" + TypeName(v) + "' is not iterable")
  }

  /** Python's `v.get(key)` on a dictionary; None for a missing key or a non-dictionary. */
  function Field(v: Json, key: string): Option<Json> {
    if v.JObj? && key in v.fields then Some(v.fields[key]) else None
  }

  /** Python's `v.get(key, default)`: an AttributeError on anything but a dictionary. */
  function PyGet(v: Json, key: string, default: Json): (r: Result<Json, string>)
    ensures r.Ok? <==> v.JObj?
    ensures v.JObj? ==> r.value == (if key in v.fields then v.fields[key] else default)
  {
    if v.JObj? then Ok(if key in v.fields then v.fields[key] else default)
    else Err("'" + TypeName(v) + "' object has no attribute 'get'")
  }

  /** A list of strings as a Json list. */
  function StringList(xs: seq<string>): (r: Json)
    ensures r.JList? && |r.items| == |xs|
    ensures forall i :: 0 <= i < |xs| ==> r.items[i] == JStr(xs[i])
  {
    JList(seq(|xs|, i requires 0 <= i < |xs| => JStr(xs[i])))
  }

  /** `v` is a string of exactly 12 decimal digits. */
  predicate IsAccountIdValue(v: Json) {
    v.JStr? && Text.IsAccountId(v.s)
  }
}

=== FILE: manifest.dfy ===
/**
 * The landing-zone manifest builder: resolves the log-archive and audit
 * account names to account ids, assembles the manifest document and
 * checks it against the structural rules of landing-zone version 3.3
 * before anything is submitted.
 */
module Manifest {
  import opened Results
  import opened Json
  import opened Remote
  import Text

  /** A manifest is a dictionary of top-level sections. */
  type ManifestDoc = map<string, Json>

  /** The organizational unit every landing zone must declare. */
  const SecurityOu := "security"
  /** The key holding an organizational unit's display name. */
  const OuNameKey := "name"

  /** The top-level section names and the key of an account block. */
  const GovernedRegionsKey := "governedRegions"
  const OrganizationStructureKey := "organizationStructure"
  const CentralizedLoggingKey := "centralizedLogging"
  const SecurityRolesKey := "securityRoles"
  const AccountIdKey := "accountId"

  /** The top-level sections every manifest needs, in the order they are checked. */
  const RequiredFields: seq<string> :=
    [GovernedRegionsKey, OrganizationStructureKey, CentralizedLoggingKey, SecurityRolesKey]

  // ---------------------------------------------------------------------
  // What a valid manifest is
  // ---------------------------------------------------------------------

  /** A region code: a string of at least nine characters ("us-east-1"). */
  predicate IsRegionShaped(v: Json) {
    v.JStr? && |v.s| >= 9
  }

  predicate RegionsWellFormed(v: Json) {
    v.JList? && |v.items| > 0 && forall k :: 0 <= k < |v.items| ==> IsRegionShaped(v.items[k])
  }

  predicate OrganizationWellFormed(v: Json) {
    v.JObj? && SecurityOu in v.fields && v.fields[SecurityOu].JObj?
    && OuNameKey in v.fields[SecurityOu].fields
  }

  /** A section holding an `accountId` of twelve digits. */
  predicate AccountBlockWellFormed(v: Json) {
    v.JObj? && AccountIdKey in v.fields && IsAccountIdValue(v.fields[AccountIdKey])
  }

  /** The account id a section names (meaningful when the section is well formed). */
  function AccountIdOf(v: Json): Json {
    if v.JObj? && AccountIdKey in v.fields then v.fields[AccountIdKey] else JNull
  }

  /** All four required sections are present. */
  predicate HasSections(m: ManifestDoc) {
    GovernedRegionsKey in m && OrganizationStructureKey in m && CentralizedLoggingKey in m && SecurityRolesKey in m
  }

  lemma SectionsPresent(m: ManifestDoc)
    ensures HasSections(m) <==> forall k :: 0 <= k < |RequiredFields| ==> RequiredFields[k] in m
  {
    if HasSections(m) {
      forall k | 0 <= k < |RequiredFields| ensures RequiredFields[k] in m {
        assert k == 0 || k == 1 || k == 2 || k == 3;
      }
    }
    if forall k :: 0 <= k < |RequiredFields| ==> RequiredFields[k] in m {
      assert RequiredFields[0] in m && RequiredFields[1] in m;
      assert RequiredFields[2] in m && RequiredFields[3] in m;
    }
  }

  /**
   * Every rule the manifest validator enforces: all four sections, a
   * non-empty list of region codes, a named security OU, twelve-digit
   * account ids, and different accounts for logging and security roles.
   */
  predicate WellFormed(m: ManifestDoc) {
    && HasSections(m)
    && RegionsWellFormed(m[GovernedRegionsKey])
    && OrganizationWellFormed(m[OrganizationStructureKey])
    && AccountBlockWellFormed(m[CentralizedLoggingKey])
    && AccountBlockWellFormed(m[SecurityRolesKey])
    && AccountIdOf(m[CentralizedLoggingKey]) != AccountIdOf(m[SecurityRolesKey])
  }

  // ---------------------------------------------------------------------
  // The validator, one rule at a time
  // ---------------------------------------------------------------------

  /** The first of `fields` that `m` lacks, if any. */
  function FirstMissing(m: ManifestDoc, fields: seq<string>): (r: Option<string>)
    ensures r.None? <==> forall k :: 0 <= k < |fields| ==> fields[k] in m
    ensures r.Some? ==> exists i :: 0 <= i < |fields| && fields[i] == r.value && fields[i] !in m
                                    && forall j :: 0 <= j < i ==> fields[j] in m
  {
    if fields == [] then None
    else if fields[0] !in m then Some(fields[0])
    else
      var rest := FirstMissing(m, fields[1..]);
      if rest.Some? then
        var i :| 0 <= i < |fields[1..]| && fields[1..][i] == rest.value && fields[1..][i] !in m
                 && forall j :: 0 <= j < i ==> fields[1..][j] in m;
        assert fields[i + 1] == rest.value;
        rest
      else rest
  }

  /** The first element of `regions` that is not a region code, if any. */
  function FirstBadRegion(regions: seq<Json>): (r: Option<Json>)
    ensures r.None? <==> forall k :: 0 <= k < |regions| ==> IsRegionShaped(regions[k])
    ensures r.Some? ==> r.value in regions && !IsRegionShaped(r.value)
  {
    if regions == [] then None
    else if !IsRegionShaped(regions[0]) then Some(regions[0])
    else
      var rest := FirstBadRegion(regions[1..]);
      assert forall k :: 1 <= k < |regions| ==> regions[k] == regions[1..][k - 1];
      rest
  }

  function CheckGovernedRegions(v: Json): (err: Option<string>)
    ensures err.None? <==> RegionsWellFormed(v)
  {
    if !v.JList? then Some("governedRegions must be a list")
    else if v.items == [] then Some("governedRegions cannot be empty")
    else
      match FirstBadRegion(v.items)
      case Some(bad) => Some("Invalid region format: " + Render(bad))
      case None => None
  }

  function CheckOrganizationStructure(v: Json): (err: Option<string>)
    ensures err.None? <==> OrganizationWellFormed(v)
  {
    if !v.JObj? then Some("organizationStructure must be a dictionary")
    else if SecurityOu !in v.fields then Some("organizationStructure must contain 'security' OU")
    else if !v.fields[SecurityOu].JObj? || OuNameKey !in v.fields[SecurityOu].fields then
      Some("Security OU must have a 'name' field")
    else None
  }

  /** The checks shared by `centralizedLogging` and `securityRoles`. */
  function CheckAccountBlock(v: Json, section: string): (err: Option<string>)
    ensures err.None? <==> AccountBlockWellFormed(v)
  {
    if !v.JObj? then Some(section + " must be a dictionary")
    else if AccountIdKey !in v.fields then Some(section + " must contain 'accountId'")
    else if !IsAccountIdValue(v.fields[AccountIdKey]) then
      Some("Invalid account ID format: " + Render(v.fields[AccountIdKey]))
    else None
  }

  /**
   * validate_manifest: the required sections in order, then regions,
   * organization structure, logging, security roles and account
   * uniqueness; the first rule broken is reported.
   */
  function ValidateManifest(m: ManifestDoc): (r: Result<bool, string>)
    ensures r.Ok? <==> WellFormed(m)
    ensures r.Ok? ==> r.value
  {
    match FirstMissing(m, RequiredFields)
    case Some(f) => Err("Missing required field: " + f)
    case None =>
      SectionsPresent(m);
      var regions := CheckGovernedRegions(m[GovernedRegionsKey]);
      var org := CheckOrganizationStructure(m[OrganizationStructureKey]);
      var logging := CheckAccountBlock(m[CentralizedLoggingKey], CentralizedLoggingKey);
      var roles := CheckAccountBlock(m[SecurityRolesKey], SecurityRolesKey);
      if regions.Some? then Err(regions.value)
      else if org.Some? then Err(org.value)
      else if logging.Some? then Err(logging.value)
      else if roles.Some? then Err(roles.value)
      else if AccountIdOf(m[CentralizedLoggingKey]) == AccountIdOf(m[SecurityRolesKey]) then
        Err("centralizedLogging and securityRoles must use different account IDs")
      else Ok(true)
  }

  /**
   * A missing section is reported by name, and it is the first missing
   * one in the order governedRegions, organizationStructure,
   * centralizedLogging, securityRoles.
   */
  lemma MissingFieldReportedInOrder(m: ManifestDoc, i: nat)
    requires i < |RequiredFields|
    requires RequiredFields[i] !in m
    requires forall j :: 0 <= j < i ==> RequiredFields[j] in m
    ensures ValidateManifest(m) == Err("Missing required field: " + RequiredFields[i])
  {
    var r := FirstMissing(m, RequiredFields);
    assert r.Some?;
    var k :| 0 <= k < |RequiredFields| && RequiredFields[k] == r.value && RequiredFields[k] !in m
             && forall j :: 0 <= j < k ==> RequiredFields[j] in m;
    assert k == i;
  }

  /** An empty region list is rejected with its own message once all sections are present. */
  lemma EmptyRegionsRejected(m: ManifestDoc)
    requires HasSections(m)
    requires m[GovernedRegionsKey] == JList([])
    ensures ValidateManifest(m) == Err("governedRegions cannot be empty")
  {
    SectionsPresent(m);
  }

  /** Logging and security roles sharing one account id is rejected, all else being valid. */
  lemma SharedAccountRejected(m: ManifestDoc)
    requires HasSections(m)
    requires RegionsWellFormed(m[GovernedRegionsKey])
    requires OrganizationWellFormed(m[OrganizationStructureKey])
    requires AccountBlockWellFormed(m[CentralizedLoggingKey])
    requires AccountBlockWellFormed(m[SecurityRolesKey])
    requires AccountIdOf(m[CentralizedLoggingKey]) == AccountIdOf(m[SecurityRolesKey])
    ensures ValidateManifest(m) == Err("centralizedLogging and securityRoles must use different account IDs")
  {
    SectionsPresent(m);
    assert CheckGovernedRegions(m[GovernedRegionsKey]).None?;
  }

  // ---------------------------------------------------------------------
  // Account-id resolution
  // ---------------------------------------------------------------------

  /** Some account in the listing carries exactly the name `n`. */
  predicate HasAccountNamed(accounts: seq<Account>, n: string) {
    exists k :: 0 <= k < |accounts| && accounts[k].name == n
  }

  /** `id` belongs to the last account in the listing named `n`. */
  predicate IsLastIdFor(accounts: seq<Account>, n: string, id: string) {
    exists k :: 0 <= k < |accounts| && accounts[k].name == n && accounts[k].id == id
                && forall j :: k < j < |accounts| ==> accounts[j].name != n
  }

  /**
   * The id recorded for each requested name while walking the account
   * listing in order; a later account with the same name overwrites an
   * earlier one.
   */
  function CollectIds(accounts: seq<Account>, names: seq<string>): (r: map<string, string>)
    ensures forall n :: n in r <==> n in names && HasAccountNamed(accounts, n)
    ensures forall n :: n in r ==> IsLastIdFor(accounts, n, r[n])
  {
    if accounts == [] then map[]
    else
      var init := accounts[..|accounts| - 1];
      var last := accounts[|accounts| - 1];
      assert accounts == init + [last];
      var m := CollectIds(init, names);
      var r := if last.name in names then m[last.name := last.id] else m;
      NamedAfterAppend(init, last);
      forall n | n in r ensures IsLastIdFor(accounts, n, r[n]) {
        if n == last.name {
          LastIsLastId(init, last);
        } else {
          LastIdAfterAppend(init, last, n, m[n]);
        }
      }
      r
  }

  /** Appending an account adds exactly its name to the names present. */
  lemma NamedAfterAppend(init: seq<Account>, last: Account)
    ensures forall n :: HasAccountNamed(init + [last], n) <==> HasAccountNamed(init, n) || n == last.name
  {
    var accounts := init + [last];
    forall n | HasAccountNamed(init, n) ensures HasAccountNamed(accounts, n) {
      var k :| 0 <= k < |init| && init[k].name == n;
      assert accounts[k] == init[k];
    }
    forall n | HasAccountNamed(accounts, n) && n != last.name ensures HasAccountNamed(init, n) {
      var k :| 0 <= k < |accounts| && accounts[k].name == n;
      assert k < |init| && init[k] == accounts[k];
    }
    assert accounts[|accounts| - 1] == last;
  }

  /** The appended account is the last one carrying its name. */
  lemma LastIsLastId(init: seq<Account>, last: Account)
    ensures IsLastIdFor(init + [last], last.name, last.id)
  {
    assert (init + [last])[|init|] == last;
  }

  /** Appending an account with another name keeps the last id of every other name. */
  lemma LastIdAfterAppend(init: seq<Account>, last: Account, n: string, id: string)
    requires n != last.name && IsLastIdFor(init, n, id)
    ensures IsLastIdFor(init + [last], n, id)
  {
    var accounts := init + [last];
    var k :| 0 <= k < |init| && init[k].name == n && init[k].id == id
             && forall j :: k < j < |init| ==> init[j].name != n;
    assert accounts[k] == init[k];
    forall j | k < j < |accounts| ensures accounts[j].name != n {
      if j < |init| { assert accounts[j] == init[j]; }
    }
  }

  /**
   * The requested names absent from `found`, without repeats. The source
   * joins a Python set, whose order follows string hashing and varies from
   * run to run; the model fixes one order, that of each name's last request.
   */
  function MissingNames(names: seq<string>, found: set<string>): (r: seq<string>)
    ensures forall n :: n in r <==> n in names && n !in found
    ensures forall i, j :: 0 <= i < j < |r| ==> r[i] != r[j]
  {
    if names == [] then []
    else
      var rest := MissingNames(names[1..], found);
      if names[0] in found || names[0] in rest then rest else [names[0]] + rest
  }

  /**
   * resolve_account_ids: maps every requested name to the id of the
   * account carrying exactly that name. A listing failure or any name
   * without an account is an error.
   */
  function ResolveAccountIds(names: seq<string>, listing: Result<seq<Account>, ClientError>)
    : (r: Result<map<string, string>, string>)
    ensures listing.Err? ==> r == Err("Failed to resolve account IDs: " + listing.error.message)
    ensures listing.Ok? ==> (r.Ok? <==> forall n :: n in names ==> HasAccountNamed(listing.value, n))
    ensures r.Ok? ==> forall n :: n in r.value <==> n in names
    ensures r.Ok? ==> forall n :: n in r.value ==> IsLastIdFor(listing.value, n, r.value[n])
    ensures listing.Ok? && r.Err? ==>
      var missing := MissingNames(names, CollectIds(listing.value, names).Keys);
      && r.error == "Could not find accounts: " + Text.Join(missing, ", ")
      && (forall n :: n in missing <==> n in names && !HasAccountNamed(listing.value, n))
  {
    match listing
    case Err(e) => Err("Failed to resolve account IDs: " + e.message)
    case Ok(accounts) =>
      var found := CollectIds(accounts, names);
      var missing := MissingNames(names, found.Keys);
      if missing != [] then
        assert missing[0] in names && missing[0] !in found.Keys;
        Err("Could not find accounts: " + Text.Join(missing, ", "))
      else
        assert forall n :: n in names ==> n in found.Keys;
        Ok(found)
  }

  // ---------------------------------------------------------------------
  // Building the manifest
  // ---------------------------------------------------------------------

  /** The configuration values the manifest is built from. */
  datatype Settings = Settings(
    governedRegions: seq<string>,
    securityOuName: string,
    additionalOuNames: seq<string>,
    logArchiveName: string,
    auditName: string,
    cloudtrailEnabled: bool,
    retentionDays: Option<int>,
    kmsKeyArn: Option<string>,
    identityCenterEnabled: bool)

  function NamedOu(name: string): Json {
    JObj(map[OuNameKey := JStr(name)])
  }

  /** Some additional OU lower-cases to `key`. */
  predicate LowerNameIn(additional: seq<string>, key: string) {
    exists k :: 0 <= k < |additional| && Text.Lower(additional[k]) == key
  }

  /**
   * _build_organization_structure: the security OU under the key
   * SecurityOu, then each additional OU under its lower-cased name (an
   * additional OU that lower-cases to SecurityOu replaces the entry).
   */
  function BuildOrganizationStructure(securityOuName: string, additional: seq<string>): (r: Json)
    ensures OrganizationWellFormed(r)
  {
    if additional == [] then JObj(map[SecurityOu := NamedOu(securityOuName)])
    else
      var prev := BuildOrganizationStructure(securityOuName, additional[..|additional| - 1]);
      JObj(prev.fields[Text.Lower(additional[|additional| - 1]) := NamedOu(additional[|additional| - 1])])
  }

  /**
   * The organization structure has exactly the security OU and the
   * lower-cased additional OUs as keys, and the security entry keeps the
   * configured name unless an additional OU took its key.
   */
  lemma {:induction false} OrganizationStructureKeys(securityOuName: string, additional: seq<string>)
    ensures var r := BuildOrganizationStructure(securityOuName, additional);
      && (forall key :: key in r.fields <==> key == SecurityOu || LowerNameIn(additional, key))
      && (!LowerNameIn(additional, SecurityOu) ==> r.fields[SecurityOu] == NamedOu(securityOuName))
  {
    if additional != [] {
      var init := additional[..|additional| - 1];
      var last := additional[|additional| - 1];
      OrganizationStructureKeys(securityOuName, init);
      LowerNameInSnoc(init, last);
      assert init + [last] == additional;
    }
  }

  /** Every additional OU's entry names one of the OUs that lower-case to its key. */
  lemma {:induction false} OrganizationStructureNames(securityOuName: string, additional: seq<string>)
    ensures var r := BuildOrganizationStructure(securityOuName, additional);
      forall key :: key in r.fields && LowerNameIn(additional, key) ==>
        exists a :: a in additional && Text.Lower(a) == key && r.fields[key] == NamedOu(a)
  {
    if additional != [] {
      var init := additional[..|additional| - 1];
      var last := additional[|additional| - 1];
      OrganizationStructureNames(securityOuName, init);
      LowerNameInSnoc(init, last);
      var prev := BuildOrganizationStructure(securityOuName, init);
      var r := BuildOrganizationStructure(securityOuName, additional);
      assert r.fields == prev.fields[Text.Lower(last) := NamedOu(last)];
      forall key | key in r.fields && LowerNameIn(additional, key)
        ensures exists a :: a in additional && Text.Lower(a) == key && r.fields[key] == NamedOu(a)
      {
        if key == Text.Lower(last) {
          assert additional[|additional| - 1] == last;
        } else {
          assert init + [last] == additional;
          var a :| a in init && Text.Lower(a) == key && prev.fields[key] == NamedOu(a);
          assert a in additional;
        }
      }
    }
  }

  lemma LowerNameInSnoc(init: seq<string>, last: string)
    ensures forall key :: LowerNameIn(init + [last], key) <==> LowerNameIn(init, key) || key == Text.Lower(last)
  {
    var all := init + [last];
    forall key ensures LowerNameIn(all, key) <==> LowerNameIn(init, key) || key == Text.Lower(last) {
      if LowerNameIn(all, key) {
        var k :| 0 <= k < |all| && Text.Lower(all[k]) == key;
        if k < |init| { assert init[k] == all[k]; }
      }
      if LowerNameIn(init, key) {
        var k :| 0 <= k < |init| && Text.Lower(init[k]) == key;
        assert all[k] == init[k];
      }
      assert all[|all| - 1] == last;
    }
  }

  /** Python truthiness of an optional string setting. */
  predicate IsSet(v: Option<string>) {
    v.Some? && v.value != ""
  }

  function RetentionBlock(days: int): Json {
    JObj(map["retentionDays" := JInt(days)])
  }

  /**
   * _build_centralized_logging: the log-archive account and CloudTrail
   * flag, plus a `configurations` block holding the bucket retention
   * and KMS key when either is configured.
   */
  function BuildCentralizedLogging(logAccountId: string, enabled: bool,
                                   retentionDays: Option<int>, kmsKeyArn: Option<string>): (r: Json)
    ensures r.JObj? && AccountIdKey in r.fields && "enabled" in r.fields
    ensures r.fields[AccountIdKey] == JStr(logAccountId) && r.fields["enabled"] == JBool(enabled)
    ensures "configurations" in r.fields <==> retentionDays.Some? || IsSet(kmsKeyArn)
    ensures "configurations" in r.fields ==> r.fields["configurations"].JObj?
    ensures retentionDays.Some? ==>
              && Field(Field(r, "configurations").GetOr(JNull), "loggingBucket") == Some(RetentionBlock(retentionDays.value))
              && Field(Field(r, "configurations").GetOr(JNull), "accessLoggingBucket") == Some(RetentionBlock(retentionDays.value))
    ensures IsSet(kmsKeyArn) ==>
              Field(Field(r, "configurations").GetOr(JNull), "kmsKeyArn") == Some(JStr(kmsKeyArn.value))
    ensures AccountBlockWellFormed(r) <==> Text.IsAccountId(logAccountId)
  {
    var base := map[AccountIdKey := JStr(logAccountId), "enabled" := JBool(enabled)];
    var retention: map<string, Json> :=
      if retentionDays.Some? then
        map["loggingBucket" := RetentionBlock(retentionDays.value),
            "accessLoggingBucket" := RetentionBlock(retentionDays.value)]
      else map[];
    var configurations := if IsSet(kmsKeyArn) then retention["kmsKeyArn" := JStr(kmsKeyArn.value)] else retention;
    assert retentionDays.Some? ==> "loggingBucket" in configurations;
    assert IsSet(kmsKeyArn) ==> "kmsKeyArn" in configurations;
    if configurations != map[] then JObj(base["configurations" := JObj(configurations)])
    else JObj(base)
  }

  /** _build_security_roles: the audit account. */
  function BuildSecurityRoles(auditAccountId: string): (r: Json)
    ensures AccountIdOf(r) == JStr(auditAccountId)
    ensures AccountBlockWellFormed(r) <==> Text.IsAccountId(auditAccountId)
  {
    JObj(map[AccountIdKey := JStr(auditAccountId)])
  }

  function RegionList(regions: seq<string>): (r: Json)
    ensures r.JList? && |r.items| == |regions|
    ensures forall k :: 0 <= k < |regions| ==> r.items[k] == JStr(regions[k])
  {
    JList(seq(|regions|, k requires 0 <= k < |regions| => JStr(regions[k])))
  }

  /** The document generate_manifest assembles from resolved account ids. */
  function Assemble(s: Settings, logId: string, auditId: string): ManifestDoc {
    var core := map[
      GovernedRegionsKey := RegionList(s.governedRegions),
      OrganizationStructureKey := BuildOrganizationStructure(s.securityOuName, s.additionalOuNames),
      CentralizedLoggingKey := BuildCentralizedLogging(logId, s.cloudtrailEnabled, s.retentionDays, s.kmsKeyArn),
      SecurityRolesKey := BuildSecurityRoles(auditId)];
    if s.identityCenterEnabled then core["accessManagement" := JObj(map["enabled" := JBool(true)])]
    else core
  }

  lemma AssembleKeys(s: Settings, logId: string, auditId: string)
    ensures "accessManagement" in Assemble(s, logId, auditId) <==> s.identityCenterEnabled
  {
  }

  /** The conditions on settings and resolved ids under which the assembled manifest is valid. */
  predicate AcceptableInputs(s: Settings, logId: string, auditId: string) {
    && |s.governedRegions| > 0
    && (forall k :: 0 <= k < |s.governedRegions| ==> |s.governedRegions[k]| >= 9)
    && Text.IsAccountId(logId)
    && Text.IsAccountId(auditId)
    && logId != auditId
  }

  /**
   * generate_manifest: resolve both account names, assemble the
   * document, validate it; every failure is reported as
   * "Failed to generate manifest: ...".
   */
  function GenerateManifest(s: Settings, listing: Result<seq<Account>, ClientError>)
    : (r: Result<ManifestDoc, string>)
    ensures r.Ok? ==> WellFormed(r.value)
    ensures r.Ok? ==> ("accessManagement" in r.value <==> s.identityCenterEnabled)
    ensures r.Err? ==> Text.StartsWith(r.error, "Failed to generate manifest: ")
  {
    match ResolveAccountIds([s.logArchiveName, s.auditName], listing)
    case Err(e) =>
      Text.PrefixedStartsWith("Failed to generate manifest: ", e);
      Err("Failed to generate manifest: " + e)
    case Ok(ids) =>
      assert s.logArchiveName in ids && s.auditName in ids;
      var m := Assemble(s, ids[s.logArchiveName], ids[s.auditName]);
      AssembleKeys(s, ids[s.logArchiveName], ids[s.auditName]);
      match ValidateManifest(m)
      case Err(e) =>
        Text.PrefixedStartsWith("Failed to generate manifest: ", e);
        Err("Failed to generate manifest: " + e)
      case Ok(_) => Ok(m)
  }

  /**
   * generate_manifest succeeds exactly when both account names resolve
   * and the settings and resolved ids are acceptable, and then returns
   * the assembled document.
   */
  lemma GenerateManifestSucceedsIff(s: Settings, listing: Result<seq<Account>, ClientError>)
    ensures var ids := ResolveAccountIds([s.logArchiveName, s.auditName], listing);
            GenerateManifest(s, listing).Ok? <==>
              ids.Ok? && AcceptableInputs(s, ids.value[s.logArchiveName], ids.value[s.auditName])
    ensures var ids := ResolveAccountIds([s.logArchiveName, s.auditName], listing);
            GenerateManifest(s, listing).Ok? ==>
              GenerateManifest(s, listing).value == Assemble(s, ids.value[s.logArchiveName], ids.value[s.auditName])
  {
    var ids := ResolveAccountIds([s.logArchiveName, s.auditName], listing);
    if ids.Ok? {
      assert s.logArchiveName in ids.value && s.auditName in ids.value;
      AssembledValidIff(s, ids.value[s.logArchiveName], ids.value[s.auditName]);
    }
  }

  /** The assembled manifest passes validation exactly when the inputs are acceptable. */
  lemma AssembledValidIff(s: Settings, logId: string, auditId: string)
    ensures WellFormed(Assemble(s, logId, auditId)) <==> AcceptableInputs(s, logId, auditId)
  {
    var m := Assemble(s, logId, auditId);
    var regions := RegionList(s.governedRegions);
    assert m[GovernedRegionsKey] == regions;
    assert RegionsWellFormed(regions) <==>
           |s.governedRegions| > 0 && forall k :: 0 <= k < |s.governedRegions| ==> |s.governedRegions[k]| >= 9 by {
      assert forall k :: 0 <= k < |s.governedRegions| ==> (IsRegionShaped(regions.items[k]) <==> |s.governedRegions[k]| >= 9);
    }
    assert AccountIdOf(m[CentralizedLoggingKey]) == JStr(logId);
    assert AccountIdOf(m[SecurityRolesKey]) == JStr(auditId);
  }
}

=== FILE: orchestrator.dfy ===
/**
 * The deployment orchestrator: prerequisites, manifest, landing zone,
 * service control policies and post-deployment validation, run in that
 * order by a fresh orchestrator. Each phase that succeeds records a step
 * and sets its flag; the first phase that fails appends its message to
 * the errors, offers rollback guidance once the landing zone has been
 * deployed, and ends the run with a wrapped error.
 */
module Orchestrator {
  import opened Results
  import opened Json
  import opened Text
  import opened Remote
  import Manifest
  import Deployer

  // ---------------------------------------------------------------------
  // State and results
  // ---------------------------------------------------------------------

  /** The orchestrator's deployment_state dictionary. */
  datatype DeploymentState = DeploymentState(
    prerequisitesValidated: bool,
    manifestGenerated: bool,
    controlTowerDeployed: bool,
    scpPoliciesDeployed: bool,
    deploymentValidated: bool,
    auditAccountId: Option<string>,
    landingZoneArn: Option<string>)

  const InitialState := DeploymentState(false, false, false, false, false, None, None)

  /** The entries of steps_completed, in the order the run performs them. */
  datatype Step =
    | PrerequisitesValidation
    | ManifestGeneration
    | ControlTowerDeployment
    | ScpPolicyDeployment
    | PostDeploymentValidation

  /** The name a step is recorded under. */
  function StepName(s: Step): string {
    match s
    case PrerequisitesValidation => "prerequisites_validation"
    case ManifestGeneration => "manifest_generation"
    case ControlTowerDeployment => "control_tower_deployment"
    case ScpPolicyDeployment => "scp_policy_deployment"
    case PostDeploymentValidation => "post_deployment_validation"
  }

  /** The position of a step in the fixed order. */
  function Rank(s: Step): nat {
    match s
    case PrerequisitesValidation => 0
    case ManifestGeneration => 1
    case ControlTowerDeployment => 2
    case ScpPolicyDeployment => 3
    case PostDeploymentValidation => 4
  }

  datatype RunStatus = RunSucceeded | RunFailed

  /** The deployment_results dictionary the run fills in. */
  datatype DeploymentResults = DeploymentResults(
    status: RunStatus,
    stepsCompleted: seq<Step>,
    landingZoneArn: Option<string>,
    operationId: Option<string>,
    deployedPolicies: map<string, nat>,
    errors: seq<string>)

  const InitialResults := DeploymentResults(RunFailed, [], None, None, map[], [])

  /**
   * The numbered items of the rollback guidance that depend on the run:
   * the operation to monitor, the landing zone to delete and the policies
   * to clean up, each present only when the results hold a truthy value.
   */
  datatype RollbackGuidance = RollbackGuidance(
    monitorOperation: Option<string>,
    deleteLandingZone: Option<string>,
    cleanupPolicies: set<string>)

  /** What one run leaves behind: the state, the results, the guidance offered and the error raised. */
  datatype Orchestration = Orchestration(
    state: DeploymentState,
    results: DeploymentResults,
    guidance: Option<RollbackGuidance>,
    raised: Option<string>)

  /** The landing zone as get_landing_zone_details reports it, reduced to the fields the run reads. */
  datatype LandingZone = LandingZone(status: Json, manifest: Json, driftStatus: Json)

  /**
   * What the run depends on outside itself. The prerequisite entries are
   * the values of the validator's result dictionary (or the error reading
   * them raised); `manifest` is what manifest generation returned or the
   * text of its error; `create` answers the one CreateLandingZone call,
   * `wait` is how waiting for that operation ended and `arn` is the
   * landing zone's ARN reported with it; `scp` is what
   * deploying the tier to `targets` returned or the text of its error; the
   * landing zone is read twice, once to validate and once for the audit
   * account.
   */
  datatype Inputs = Inputs(
    skipPrerequisites: bool,
    skipScpDeployment: bool,
    prerequisites: Result<seq<Json>, string>,
    manifest: Result<Manifest.ManifestDoc, string>,
    version: Option<string>,
    create: Deployer.CreateRequest -> Result<Deployer.CreateResponse, ClientError>,
    wait: Result<bool, Deployer.Failure>,
    arn: string,
    targets: seq<string>,
    scp: Result<map<string, nat>, string>,
    details: Result<LandingZone, string>,
    detailsAgain: Result<LandingZone, string>)

  // ---------------------------------------------------------------------
  // Step 1: prerequisites
  // ---------------------------------------------------------------------

  /** A prerequisite entry is met: a dictionary whose is_valid (default False) is truthy. */
  predicate EntryPasses(e: Json) {
    e.JObj? && "is_valid" in e.fields && Truthy(e.fields["is_valid"])
  }

  /** Index of the first entry that is not a dictionary, or the length when every entry is one. */
  function FirstNonDict(xs: seq<Json>): (i: nat)
    ensures i <= |xs|
    ensures i < |xs| ==> !xs[i].JObj?
    ensures forall j :: 0 <= j < i ==> xs[j].JObj?
  {
    if xs == [] then 0
    else if !xs[0].JObj? then 0
    else 1 + FirstNonDict(xs[1..])
  }

  /** The bullet reported for a failed entry: its message, or "Unknown validation error". */
  function Bullet(e: Json): string
    requires e.JObj?
  {
    "- " + (if "message" in e.fields then Render(e.fields["message"]) else "Unknown validation error")
  }

  /** The bullets of the failed entries, in order. */
  function FailureBullets(xs: seq<Json>): (r: seq<string>)
    requires forall i :: 0 <= i < |xs| ==> xs[i].JObj?
    ensures r == [] <==> forall i :: 0 <= i < |xs| ==> EntryPasses(xs[i])
    ensures |r| <= |xs|
  {
    if xs == [] then []
    else
      var rest := FailureBullets(xs[1..]);
      assert (forall i :: 0 <= i < |xs| ==> EntryPasses(xs[i])) <==>
        EntryPasses(xs[0]) && (forall i :: 0 <= i < |xs[1..]| ==> EntryPasses(xs[1..][i])) by {
        if EntryPasses(xs[0]) && (forall i :: 0 <= i < |xs[1..]| ==> EntryPasses(xs[1..][i])) {
          forall i | 1 <= i < |xs| ensures EntryPasses(xs[i]) {
            assert xs[i] == xs[1..][i - 1];
          }
        }
      }
      if EntryPasses(xs[0]) then rest else [Bullet(xs[0])] + rest
  }

  const PrerequisitesPrefix := "Prerequisites validation failed: "

  /**
   * _validate_prerequisites: the entries' is_valid flags are all read
   * first (a non-dictionary entry raises AttributeError there); the
   * failed ones are listed under a heading; and every error, the
   * method's own included, is wrapped once more in the same prefix.
   */
  function PrerequisitesPhase(entries: Result<seq<Json>, string>): (r: Result<(), string>)
    ensures r.Ok? <==> entries.Ok? && forall i :: 0 <= i < |entries.value| ==> EntryPasses(entries.value[i])
    ensures r.Err? ==> StartsWith(r.error, PrerequisitesPrefix)
    ensures entries.Err? ==> r.error == PrerequisitesPrefix + entries.error
    ensures entries.Ok? && FirstNonDict(entries.value) < |entries.value| ==>
      r.error == PrerequisitesPrefix + "'" + TypeName(entries.value[FirstNonDict(entries.value)])
                 + "' object has no attribute 'get'"
    ensures entries.Ok? && FirstNonDict(entries.value) == |entries.value| && r.Err? ==>
      r.error == PrerequisitesPrefix + "Prerequisites validation failed:\n" + Join(FailureBullets(entries.value), "\n")
  {
    match entries
    case Err(e) => Err(PrerequisitesPrefix + e)
    case Ok(xs) =>
      var k := FirstNonDict(xs);
      if k < |xs| then
        Err(PrerequisitesPrefix + "'" + TypeName(xs[k]) + "' object has no attribute 'get'")
      else
        var bullets := FailureBullets(xs);
        if bullets != [] then
          Err(PrerequisitesPrefix + "Prerequisites validation failed:\n" + Join(bullets, "\n"))
        else Ok(())
  }

  // ---------------------------------------------------------------------
  // Steps 2 and 3: manifest and landing zone
  // ---------------------------------------------------------------------

  /** _generate_manifest: the generator's error, wrapped. */
  function ManifestPhase(manifest: Result<Manifest.ManifestDoc, string>): (r: Result<Manifest.ManifestDoc, string>)
    ensures r.Ok? <==> manifest.Ok?
    ensures r.Ok? ==> r.value == manifest.value
    ensures r.Err? ==> r.error == "Manifest generation failed: " + manifest.error
  {
    match manifest
    case Ok(m) => Ok(m)
    case Err(e) => Err("Manifest generation failed: " + e)
  }

  /** The tags the orchestrator always submits with the landing zone. */
  const DeployTags: map<string, string> := map["CreatedBy" := "ControlTowerAutomation", "Environment" := "Production"]

  const DeployPrefix := "Control Tower deployment failed: "

  /**
   * _deploy_control_tower: submit the manifest with the fixed tags, wait
   * for the operation, and report the operation id with the landing
   * zone's ARN; any failure, including a wait that returns false, is
   * wrapped.
   */
  function DeployPhase(m: Manifest.ManifestDoc, version: Option<string>,
                       create: Deployer.CreateRequest -> Result<Deployer.CreateResponse, ClientError>,
                       wait: Result<bool, Deployer.Failure>, arn: string)
    : (r: Result<(string, string), string>)
    ensures r.Ok? <==> Deployer.CreateLandingZone(m, version, Some(DeployTags), create).result.Ok? && wait == Ok(true)
    ensures r.Ok? ==> r.value == (Deployer.CreateLandingZone(m, version, Some(DeployTags), create).result.value,
                                  arn)
    ensures r.Err? ==> StartsWith(r.error, DeployPrefix)
    ensures Deployer.CreateLandingZone(m, version, Some(DeployTags), create).result.Err? ==>
      r == Err(DeployPrefix + Deployer.CreateLandingZone(m, version, Some(DeployTags), create).result.error.message)
  {
    match Deployer.CreateLandingZone(m, version, Some(DeployTags), create).result
    case Err(f) => Err(DeployPrefix + f.message)
    case Ok(operationId) =>
      match wait
      case Err(f) => Err(DeployPrefix + f.message)
      case Ok(success) =>
        if !success then Err(DeployPrefix + "Control Tower deployment failed")
        else Ok((operationId, arn))
  }

  // ---------------------------------------------------------------------
  // Step 4: service control policies
  // ---------------------------------------------------------------------

  /** _get_target_ous_for_scp: the resolution of OU ids is not implemented, so no OU is ever targeted. */
  const TargetOus: seq<string> := []

  /**
   * _deploy_scp_policies: with no target OUs nothing is deployed and the
   * flag stays unset; otherwise the tier's policies or its error, wrapped.
   * The second component says whether the flag is set.
   */
  function ScpPhase(targets: seq<string>, scp: Result<map<string, nat>, string>): (r: Result<(map<string, nat>, bool), string>)
    ensures targets == [] ==> r == Ok((map[], false))
    ensures targets != [] ==> (r.Ok? <==> scp.Ok?)
    ensures targets != [] && scp.Ok? ==> r.value == (scp.value, true)
    ensures targets != [] && scp.Err? ==> r.error == "SCP policy deployment failed: " + scp.error
  {
    if targets == [] then Ok((map[], false))
    else
      match scp
      case Ok(p) => Ok((p, true))
      case Err(e) => Err("SCP policy deployment failed: " + e)
  }

  // ---------------------------------------------------------------------
  // Step 5: post-deployment validation and the audit account
  // ---------------------------------------------------------------------

  const ValidationPrefix := "Deployment validation failed: "

  /**
   * _validate_deployment: the landing zone must be ACTIVE; its drift
   * status is read with `.get`, which raises on a non-dictionary, and a
   * DRIFTED status only warns.
   */
  function ValidationPhase(details: Result<LandingZone, string>): (r: Result<(), string>)
    ensures r.Ok? <==> details.Ok? && details.value.status == JStr("ACTIVE") && details.value.driftStatus.JObj?
    ensures r.Err? ==> StartsWith(r.error, ValidationPrefix)
    ensures details.Ok? && details.value.status != JStr("ACTIVE") ==>
      r.error == ValidationPrefix + "Landing zone is not active. Status: " + Render(details.value.status)
  {
    match details
    case Err(e) => Err(ValidationPrefix + e)
    case Ok(lz) =>
      if lz.status != JStr("ACTIVE") then
        Err(ValidationPrefix + "Landing zone is not active. Status: " + Render(lz.status))
      else
        match PyGet(lz.driftStatus, "status", JNull)
        case Err(e) => Err(ValidationPrefix + e)
        case Ok(_) => Ok(())
  }

  /**
   * get_audit_account_id_from_landing_zone: the audit account of the
   * landing zone's manifest, and None when the landing zone cannot be
   * read or its manifest is not a dictionary.
   */
  function AuditAccount(details: Result<LandingZone, string>): (r: Option<string>)
    ensures r.Some? ==> IsAccountId(r.value)
    ensures r.Some? <==> details.Ok? && details.value.manifest.JObj?
                         && Deployer.ExtractAuditAccount(details.value.manifest.fields).Some?
  {
    if details.Ok? && details.value.manifest.JObj? then
      Deployer.ExtractAuditAccount(details.value.manifest.fields)
    else None
  }

  // ---------------------------------------------------------------------
  // The run
  // ---------------------------------------------------------------------

  /** The steps are recorded in strictly increasing order of the fixed sequence. */
  predicate StepsOrdered(steps: seq<Step>) {
    forall i, j :: 0 <= i < j < |steps| ==> Rank(steps[i]) < Rank(steps[j])
  }

  /** Every recorded step comes before `s` in the fixed order. */
  predicate AllBefore(steps: seq<Step>, s: Step) {
    forall i :: 0 <= i < |steps| ==> Rank(steps[i]) < Rank(s)
  }

  /** _provide_rollback_guidance: one item per truthy value among the results. */
  function Guidance(r: DeploymentResults): (g: RollbackGuidance)
    ensures g.monitorOperation.Some? <==> r.operationId.Some? && r.operationId.value != ""
    ensures g.deleteLandingZone.Some? <==> r.landingZoneArn.Some? && r.landingZoneArn.value != ""
    ensures g.monitorOperation.Some? ==> g.monitorOperation == r.operationId
    ensures g.deleteLandingZone.Some? ==> g.deleteLandingZone == r.landingZoneArn
    ensures g.cleanupPolicies == r.deployedPolicies.Keys
  {
    RollbackGuidance(
      if r.operationId.Some? && r.operationId.value != "" then r.operationId else None,
      if r.landingZoneArn.Some? && r.landingZoneArn.value != "" then r.landingZoneArn else None,
      r.deployedPolicies.Keys)
  }

  /** The except branch: record the error, offer guidance once deployed, and raise the wrapped message. */
  function Fail(s: DeploymentState, r: DeploymentResults, message: string): (o: Orchestration)
    ensures o.state == s
    ensures o.results.errors == r.errors + [message]
    ensures o.guidance.Some? <==> s.controlTowerDeployed
    ensures o.results == r.(errors := r.errors + [message])
    ensures o.guidance.Some? ==> o.guidance.value == Guidance(o.results)
    ensures o.raised == Some("Deployment orchestration failed: " + message)
  {
    var failed := r.(errors := r.errors + [message]);
    Orchestration(s, failed, if s.controlTowerDeployed then Some(Guidance(failed)) else None,
                  Some("Deployment orchestration failed: " + message))
  }

  /** Step 4 on a deployed landing zone: the state and results after it, or the error it raised. */
  function AfterScp(run: Inputs, s: DeploymentState, r: DeploymentResults)
    : Result<(DeploymentState, DeploymentResults), string>
  {
    if run.skipScpDeployment then Ok((s, r))
    else
      match ScpPhase(run.targets, run.scp)
      case Err(e) => Err(e)
      case Ok((policies, deployed)) =>
        Ok((s.(scpPoliciesDeployed := deployed),
            r.(deployedPolicies := policies, stepsCompleted := r.stepsCompleted + [ScpPolicyDeployment])))
  }

  /** The end of a successful run: validated, the audit account captured when found, SUCCESS. */
  function Succeed(s: DeploymentState, r: DeploymentResults, audit: Option<string>): Orchestration {
    Orchestration(
      s.(deploymentValidated := true, auditAccountId := if audit.Some? then audit else s.auditAccountId),
      r.(stepsCompleted := r.stepsCompleted + [PostDeploymentValidation], status := RunSucceeded),
      None, None)
  }

  /** The last two phases, once the landing zone is deployed. */
  function FinishRun(run: Inputs, s: DeploymentState, r: DeploymentResults): Orchestration {
    match AfterScp(run, s, r)
    case Err(e) => Fail(s, r, e)
    case Ok((s4, r4)) =>
      match ValidationPhase(run.details)
      case Err(e) => Fail(s4, r4, e)
      case Ok(_) => Succeed(s4, r4, AuditAccount(run.detailsAgain))
  }

  /** Step 3 and what follows, once the manifest is generated. */
  function FromDeployment(run: Inputs, s: DeploymentState, r: DeploymentResults, m: Manifest.ManifestDoc): Orchestration {
    match DeployPhase(m, run.version, run.create, run.wait, run.arn)
    case Err(e) => Fail(s, r, e)
    case Ok((operationId, arn)) =>
      FinishRun(run, s.(controlTowerDeployed := true),
                r.(operationId := Some(operationId), landingZoneArn := Some(arn),
                   stepsCompleted := r.stepsCompleted + [ControlTowerDeployment]))
  }

  /** Step 2 and what follows, once the prerequisites are met or skipped. */
  function FromManifest(run: Inputs, s: DeploymentState, r: DeploymentResults): Orchestration {
    match ManifestPhase(run.manifest)
    case Err(e) => Fail(s, r, e)
    case Ok(m) =>
      FromDeployment(run, s.(manifestGenerated := true), r.(stepsCompleted := r.stepsCompleted + [ManifestGeneration]), m)
  }

  /** orchestrate_deployment on a fresh orchestrator. */
  function Orchestrate(run: Inputs): Orchestration {
    var prereq := if run.skipPrerequisites then Ok(()) else PrerequisitesPhase(run.prerequisites);
    match prereq
    case Err(e) => Fail(InitialState, InitialResults, e)
    case Ok(_) =>
      FromManifest(run, InitialState.(prerequisitesValidated := !run.skipPrerequisites),
                   InitialResults.(stepsCompleted := if run.skipPrerequisites then [] else [PrerequisitesValidation]))
  }

  // ---------------------------------------------------------------------
  // The bookkeeping stays coherent
  // ---------------------------------------------------------------------

  /** Each flag is set exactly when its step is recorded (the SCP flag only implies its step). */
  predicate FlagsMatchSteps(s: DeploymentState, r: DeploymentResults) {
    && (s.prerequisitesValidated <==> PrerequisitesValidation in r.stepsCompleted)
    && (s.manifestGenerated <==> ManifestGeneration in r.stepsCompleted)
    && (s.controlTowerDeployed <==> ControlTowerDeployment in r.stepsCompleted)
    && (s.deploymentValidated <==> PostDeploymentValidation in r.stepsCompleted)
    && (s.scpPoliciesDeployed ==> ScpPolicyDeployment in r.stepsCompleted)
    && (r.deployedPolicies != map[] ==> ScpPolicyDeployment in r.stepsCompleted)
  }

  /** A later flag is only set when the landing-zone flag, and so the manifest flag, is. */
  predicate FlagsChained(s: DeploymentState) {
    && (s.deploymentValidated ==> s.controlTowerDeployed)
    && (s.scpPoliciesDeployed ==> s.controlTowerDeployed)
    && (s.controlTowerDeployed ==> s.manifestGenerated)
  }

  /** The operation id is recorded exactly when the landing zone is deployed, together with its ARN. */
  predicate DeploymentRecorded(s: DeploymentState, r: DeploymentResults, arn: string) {
    && (s.controlTowerDeployed <==> r.operationId.Some?)
    && (r.operationId.Some? ==> r.landingZoneArn == Some(arn))
    && (r.operationId.None? ==> r.landingZoneArn.None?)
  }

  /** The bookkeeping of a run still in progress. */
  predicate InProgress(s: DeploymentState, r: DeploymentResults, arn: string) {
    && StepsOrdered(r.stepsCompleted)
    && FlagsMatchSteps(s, r)
    && FlagsChained(s)
    && DeploymentRecorded(s, r, arn)
    && !s.deploymentValidated
    && s.auditAccountId.None?
    && s.landingZoneArn.None?
    && r.status == RunFailed
    && r.errors == []
  }

  /**
   * A finished run: success and a raised error exclude each other and
   * agree with the status and the last flag; a failure leaves exactly one
   * error, the one raised; guidance is offered exactly for failures after
   * the landing zone was deployed; the audit account is only captured by
   * a validated run; the landing-zone ARN of the state is never set.
   */
  predicate Coherent(o: Orchestration, arn: string) {
    && StepsOrdered(o.results.stepsCompleted)
    && FlagsMatchSteps(o.state, o.results)
    && FlagsChained(o.state)
    && DeploymentRecorded(o.state, o.results, arn)
    && (o.raised.None? <==> o.results.status == RunSucceeded)
    && (o.raised.None? <==> o.state.deploymentValidated)
    && (o.raised.None? ==> o.results.errors == [])
    && (o.raised.Some? ==> |o.results.errors| == 1
                           && o.raised.value == "Deployment orchestration failed: " + o.results.errors[0])
    && (o.guidance.Some? <==> o.raised.Some? && o.state.controlTowerDeployed)
    && (o.guidance.Some? ==> o.guidance.value == Guidance(o.results))
    && (o.state.auditAccountId.Some? ==> o.state.deploymentValidated && IsAccountId(o.state.auditAccountId.value))
    && o.state.landingZoneArn.None?
  }

  /** Appending a step that comes after every recorded one keeps the order. */
  lemma AppendKeepsOrder(steps: seq<Step>, s: Step)
    requires StepsOrdered(steps) && AllBefore(steps, s)
    ensures StepsOrdered(steps + [s])
    ensures s in steps + [s]
    ensures forall t :: t in steps ==> t in steps + [s]
  {
    var all := steps + [s];
    forall i, j | 0 <= i < j < |all| ensures Rank(all[i]) < Rank(all[j]) {
      if j < |steps| {
        assert all[i] == steps[i] && all[j] == steps[j];
      } else {
        assert all[i] == steps[i];
      }
    }
  }

  /** Failing from a run in progress leaves a coherent record. */
  lemma FailIsCoherent(s: DeploymentState, r: DeploymentResults, message: string, arn: string)
    requires InProgress(s, r, arn)
    ensures Coherent(Fail(s, r, message), arn)
  {
    var o := Fail(s, r, message);
    assert o.results.errors == [message];
  }

  /** Step 4 keeps a run in progress and leaves only the last step to record. */
  lemma AfterScpInProgress(run: Inputs, s: DeploymentState, r: DeploymentResults)
    requires InProgress(s, r, run.arn) && s.controlTowerDeployed
    requires AllBefore(r.stepsCompleted, ScpPolicyDeployment)
    ensures AfterScp(run, s, r).Ok? ==>
      var (s4, r4) := AfterScp(run, s, r).value;
      InProgress(s4, r4, run.arn) && s4.controlTowerDeployed && AllBefore(r4.stepsCompleted, PostDeploymentValidation)
  {
    if !run.skipScpDeployment && ScpPhase(run.targets, run.scp).Ok? {
      AppendKeepsOrder(r.stepsCompleted, ScpPolicyDeployment);
      var r4 := AfterScp(run, s, r).value.1;
      forall i | 0 <= i < |r4.stepsCompleted| ensures Rank(r4.stepsCompleted[i]) < Rank(PostDeploymentValidation) {
        if i < |r.stepsCompleted| {
          assert r4.stepsCompleted[i] == r.stepsCompleted[i];
        }
      }
    }
  }

  /** A validated run in progress ends coherent. */
  lemma SucceedIsCoherent(s: DeploymentState, r: DeploymentResults, audit: Option<string>, arn: string)
    requires InProgress(s, r, arn) && s.controlTowerDeployed
    requires AllBefore(r.stepsCompleted, PostDeploymentValidation)
    requires audit.Some? ==> IsAccountId(audit.value)
    ensures Coherent(Succeed(s, r, audit), arn)
  {
    AppendKeepsOrder(r.stepsCompleted, PostDeploymentValidation);
  }

  /** The last two phases leave a coherent record. */
  lemma FinishRunIsCoherent(run: Inputs, s: DeploymentState, r: DeploymentResults)
    requires InProgress(s, r, run.arn) && s.controlTowerDeployed
    requires AllBefore(r.stepsCompleted, ScpPolicyDeployment)
    ensures Coherent(FinishRun(run, s, r), run.arn)
  {
    AfterScpInProgress(run, s, r);
    match AfterScp(run, s, r)
    case Err(e) => FailIsCoherent(s, r, e, run.arn);
    case Ok((s4, r4)) =>
      match ValidationPhase(run.details)
      case Err(e) => FailIsCoherent(s4, r4, e, run.arn);
      case Ok(_) => SucceedIsCoherent(s4, r4, AuditAccount(run.detailsAgain), run.arn);
  }

  /** Step 3 and what follows leave a coherent record. */
  lemma FromDeploymentIsCoherent(run: Inputs, s: DeploymentState, r: DeploymentResults, m: Manifest.ManifestDoc)
    requires InProgress(s, r, run.arn) && s.manifestGenerated && !s.controlTowerDeployed
    requires AllBefore(r.stepsCompleted, ControlTowerDeployment)
    ensures Coherent(FromDeployment(run, s, r, m), run.arn)
  {
    match DeployPhase(m, run.version, run.create, run.wait, run.arn)
    case Err(e) => FailIsCoherent(s, r, e, run.arn);
    case Ok((operationId, arn)) =>
      var s3 := s.(controlTowerDeployed := true);
      var r3 := r.(operationId := Some(operationId), landingZoneArn := Some(arn),
                   stepsCompleted := r.stepsCompleted + [ControlTowerDeployment]);
      AppendKeepsOrder(r.stepsCompleted, ControlTowerDeployment);
      forall i | 0 <= i < |r3.stepsCompleted| ensures Rank(r3.stepsCompleted[i]) < Rank(ScpPolicyDeployment) {
        if i < |r.stepsCompleted| {
          assert r3.stepsCompleted[i] == r.stepsCompleted[i];
        }
      }
      FinishRunIsCoherent(run, s3, r3);
  }

  /** Step 2 and what follows leave a coherent record. */
  lemma FromManifestIsCoherent(run: Inputs, s: DeploymentState, r: DeploymentResults)
    requires InProgress(s, r, run.arn) && !s.manifestGenerated && !s.controlTowerDeployed && !s.scpPoliciesDeployed
    requires AllBefore(r.stepsCompleted, ManifestGeneration)
    ensures Coherent(FromManifest(run, s, r), run.arn)
  {
    match ManifestPhase(run.manifest)
    case Err(e) => FailIsCoherent(s, r, e, run.arn);
    case Ok(m) =>
      var r2 := r.(stepsCompleted := r.stepsCompleted + [ManifestGeneration]);
      AppendKeepsOrder(r.stepsCompleted, ManifestGeneration);
      forall i | 0 <= i < |r2.stepsCompleted| ensures Rank(r2.stepsCompleted[i]) < Rank(ControlTowerDeployment) {
        if i < |r.stepsCompleted| {
          assert r2.stepsCompleted[i] == r.stepsCompleted[i];
        }
      }
      FromDeploymentIsCoherent(run, s.(manifestGenerated := true), r2, m);
  }

  /**
   * Every run, whatever the phases answer, leaves a coherent record: the
   * steps in the fixed order, each flag matching its step, success exactly
   * when no error was raised, and rollback guidance exactly for failures
   * after the landing zone was deployed.
   */
  lemma OrchestrateIsCoherent(run: Inputs)
    ensures Coherent(Orchestrate(run), run.arn)
  {
    assert InProgress(InitialState, InitialResults, run.arn);
    var prereq := if run.skipPrerequisites then Ok(()) else PrerequisitesPhase(run.prerequisites);
    match prereq
    case Err(e) => FailIsCoherent(InitialState, InitialResults, e, run.arn);
    case Ok(_) =>
      var s1 := InitialState.(prerequisitesValidated := !run.skipPrerequisites);
      var r1 := InitialResults.(stepsCompleted := if run.skipPrerequisites then [] else [PrerequisitesValidation]);
      assert InProgress(s1, r1, run.arn);
      FromManifestIsCoherent(run, s1, r1);
  }

  // ---------------------------------------------------------------------
  // The flags against the phases
  // ---------------------------------------------------------------------

  /** The prerequisites are skipped or met. */
  predicate PrerequisitesPass(run: Inputs) {
    run.skipPrerequisites || PrerequisitesPhase(run.prerequisites).Ok?
  }

  /** The run reaches the landing-zone phase with a generated manifest. */
  predicate ManifestPasses(run: Inputs) {
    PrerequisitesPass(run) && run.manifest.Ok?
  }

  /** The landing zone is submitted and its operation succeeds. */
  predicate DeploymentPasses(run: Inputs) {
    ManifestPasses(run) && DeployPhase(run.manifest.value, run.version, run.create, run.wait, run.arn).Ok?
  }

  /** The SCP phase is skipped, has no target, or deploys the tier. */
  predicate ScpPasses(run: Inputs) {
    run.skipScpDeployment || run.targets == [] || run.scp.Ok?
  }

  /** Every phase passes. */
  predicate AllPass(run: Inputs) {
    DeploymentPasses(run) && ScpPasses(run) && ValidationPhase(run.details).Ok?
  }

  /** After the landing zone is deployed, the last two flags follow their phases. */
  lemma FinishRunFlags(run: Inputs, s: DeploymentState, r: DeploymentResults)
    requires !s.scpPoliciesDeployed && !s.deploymentValidated
    ensures FinishRun(run, s, r).state.scpPoliciesDeployed <==>
      !run.skipScpDeployment && run.targets != [] && run.scp.Ok?
    ensures FinishRun(run, s, r).state.deploymentValidated <==> ScpPasses(run) && ValidationPhase(run.details).Ok?
    ensures FinishRun(run, s, r).raised.None? <==> ScpPasses(run) && ValidationPhase(run.details).Ok?
    ensures (FinishRun(run, s, r).state.prerequisitesValidated, FinishRun(run, s, r).state.manifestGenerated,
             FinishRun(run, s, r).state.controlTowerDeployed)
         == (s.prerequisitesValidated, s.manifestGenerated, s.controlTowerDeployed)
  {
  }

  /**
   * Each flag is set exactly when its phase and every earlier one passed:
   * a failing phase leaves its own flag and every later flag unset, and
   * the run raises exactly when some phase fails.
   */
  lemma FlagsFollowPhases(run: Inputs)
    ensures Orchestrate(run).state.prerequisitesValidated <==>
      !run.skipPrerequisites && PrerequisitesPhase(run.prerequisites).Ok?
    ensures Orchestrate(run).state.manifestGenerated <==> ManifestPasses(run)
    ensures Orchestrate(run).state.controlTowerDeployed <==> DeploymentPasses(run)
    ensures Orchestrate(run).state.scpPoliciesDeployed <==>
      DeploymentPasses(run) && !run.skipScpDeployment && run.targets != [] && run.scp.Ok?
    ensures Orchestrate(run).state.deploymentValidated <==> AllPass(run)
    ensures Orchestrate(run).raised.None? <==> AllPass(run)
  {
    var prereq := if run.skipPrerequisites then Ok(()) else PrerequisitesPhase(run.prerequisites);
    if prereq.Ok? {
      var s1 := InitialState.(prerequisitesValidated := !run.skipPrerequisites);
      var r1 := InitialResults.(stepsCompleted := if run.skipPrerequisites then [] else [PrerequisitesValidation]);
      if run.manifest.Ok? {
        var m := run.manifest.value;
        var s2 := s1.(manifestGenerated := true);
        var r2 := r1.(stepsCompleted := r1.stepsCompleted + [ManifestGeneration]);
        assert Orchestrate(run) == FromDeployment(run, s2, r2, m);
        var d := DeployPhase(m, run.version, run.create, run.wait, run.arn);
        if d.Ok? {
          var s3 := s2.(controlTowerDeployed := true);
          var r3 := r2.(operationId := Some(d.value.0), landingZoneArn := Some(d.value.1),
                        stepsCompleted := r2.stepsCompleted + [ControlTowerDeployment]);
          assert Orchestrate(run) == FinishRun(run, s3, r3);
          FinishRunFlags(run, s3, r3);
        }
      }
    }
  }

  /**
   * As the orchestrator ships, the SCP phase has no target OU: a run that
   * reaches it records the step but deploys nothing and leaves the flag
   * unset.
   */
  lemma AsShippedDeploysNoPolicies(run: Inputs)
    requires run.targets == TargetOus
    ensures !Orchestrate(run).state.scpPoliciesDeployed
    ensures Orchestrate(run).results.deployedPolicies == map[]
  {
    FlagsFollowPhases(run);
    var prereq := if run.skipPrerequisites then Ok(()) else PrerequisitesPhase(run.prerequisites);
    if prereq.Ok? && run.manifest.Ok? {
      var s1 := InitialState.(prerequisitesValidated := !run.skipPrerequisites);
      var r1 := InitialResults.(stepsCompleted := if run.skipPrerequisites then [] else [PrerequisitesValidation]);
      var m := run.manifest.value;
      var s2 := s1.(manifestGenerated := true);
      var r2 := r1.(stepsCompleted := r1.stepsCompleted + [ManifestGeneration]);
      assert Orchestrate(run) == FromDeployment(run, s2, r2, m);
      var d := DeployPhase(m, run.version, run.create, run.wait, run.arn);
      if d.Ok? {
        var s3 := s2.(controlTowerDeployed := true);
        var r3 := r2.(operationId := Some(d.value.0), landingZoneArn := Some(d.value.1),
                      stepsCompleted := r2.stepsCompleted + [ControlTowerDeployment]);
        assert Orchestrate(run) == FinishRun(run, s3, r3);
        assert AfterScp(run, s3, r3).Ok?;
      }
    }
  }

  /**
   * A validation failure after a successful deployment raises with
   * guidance that names the operation to monitor, the landing zone to
   * delete and the policies deployed.
   */
  lemma LateFailureOffersGuidance(run: Inputs)
    requires DeploymentPasses(run) && ScpPasses(run) && ValidationPhase(run.details).Err?
    ensures Orchestrate(run).raised.Some?
    ensures Orchestrate(run).guidance.Some?
    ensures Orchestrate(run).guidance.value.deleteLandingZone == (if run.arn != "" then Some(run.arn) else None)
    ensures Orchestrate(run).guidance.value.cleanupPolicies == Orchestrate(run).results.deployedPolicies.Keys
    ensures Orchestrate(run).results.errors == [ValidationPhase(run.details).error]
  {
    FlagsFollowPhases(run);
    OrchestrateIsCoherent(run);
  }

  /**
   * A failure before the landing zone is deployed raises without
   * guidance, and the steps recorded are those of the phases that passed.
   */
  lemma EarlyFailureOffersNoGuidance(run: Inputs)
    requires !DeploymentPasses(run)
    ensures Orchestrate(run).raised.Some?
    ensures Orchestrate(run).guidance.None?
    ensures Orchestrate(run).results.stepsCompleted ==
      (if !run.skipPrerequisites && PrerequisitesPhase(run.prerequisites).Ok? then [PrerequisitesValidation] else [])
      + (if ManifestPasses(run) then [ManifestGeneration] else [])
  {
    FlagsFollowPhases(run);
    OrchestrateIsCoherent(run);
  }

  /**
   * _validate_deployment only warns about drift: with the landing zone
   * ACTIVE, any dictionary as the drift status, DRIFTED included, passes.
   */
  lemma DriftOnlyWarns(lz: LandingZone, drift: map<string, Json>)
    requires lz.status == JStr("ACTIVE")
    ensures ValidationPhase(Ok(lz.(driftStatus := JObj(drift)))).Ok?
    ensures ValidationPhase(Ok(lz.(driftStatus := JObj(map["status" := JStr("DRIFTED")])))).Ok?
  {
  }

  /**
   * A manifest produced by the generator always passes the provisioner's
   * own check, so the landing-zone phase makes its one CreateLandingZone
   * call with that manifest, the requested version (3.3 by default) and
   * the orchestrator's tags.
   */
  lemma GeneratedManifestIsSubmitted(run: Inputs, generated: Result<Manifest.ManifestDoc, string>,
                                     settings: Manifest.Settings, listing: Result<seq<Account>, ClientError>)
    requires generated == Manifest.GenerateManifest(settings, listing) && generated.Ok?
    ensures Deployer.CreateLandingZone(generated.value, run.version, Some(DeployTags), run.create).calls ==
      [Deployer.CreateRequest(generated.value, run.version.GetOr(Deployer.DefaultVersion), Some(DeployTags))]
  {
    var m := generated.value;
    assert Manifest.WellFormed(m);
    Deployer.WellFormedIsDeployable(m);
    assert "CreatedBy" in DeployTags;
    SubmitsWellFormed(m, run.version, run.create);
  }

  /** A well-formed manifest is submitted once with the orchestrator's tags. */
  lemma SubmitsWellFormed(m: Manifest.ManifestDoc, version: Option<string>,
                          create: Deployer.CreateRequest -> Result<Deployer.CreateResponse, ClientError>)
    requires Deployer.CheckForDeploy(m).None?
    ensures Deployer.CreateLandingZone(m, version, Some(DeployTags), create).calls ==
      [Deployer.CreateRequest(m, version.GetOr(Deployer.DefaultVersion), Some(DeployTags))]
  {
    assert "CreatedBy" in DeployTags;
  }
}

=== FILE: organizations.dfy ===
/**
 * AWS Organizations prerequisites: feature-set enablement, organizational
 * unit creation with a duplicate pre-check, root lookup, account lookup by
 * name or e-mail, and the structure report the prerequisite validator
 * consumes. Every API answer is a parameter.
 */
module Organizations {
  import opened Results
  import opened Text
  import opened Remote

  /** The `Organization` record of DescribeOrganization. */
  datatype OrgInfo = OrgInfo(id: string, featureSet: string, masterAccountId: string)

  /** OrganizationsError and its subclass DuplicateOUError. */
  datatype OrgErrorKind = OrganizationsError | DuplicateOUError

  datatype OrgFailure = OrgFailure(kind: OrgErrorKind, message: string)

  const AllFeatures := "ALL"

  // ---------------------------------------------------------------------------
  // Lookups
  // ---------------------------------------------------------------------------

  /** Wraps a DescribeOrganization answer; a ClientError becomes an OrganizationsError message. */
  function GetOrganizationInfo(describe: Result<OrgInfo, ClientError>): (r: Result<OrgInfo, string>)
    ensures r.Ok? <==> describe.Ok?
    ensures r.Ok? ==> r.value == describe.value
    ensures r.Err? ==> StartsWith(r.error, "Failed to get organization info: ")
  {
    match describe
    case Ok(info) => Ok(info)
    case Err(e) => Err("Failed to get organization info: " + Describe(e, "DescribeOrganization"))
  }

  /** The first root of a ListRoots answer; an empty list is an error of its own. */
  function GetRootId(roots: Result<seq<string>, ClientError>): (r: Result<string, string>)
    ensures r.Ok? <==> roots.Ok? && roots.value != []
    ensures r.Ok? ==> r.value == roots.value[0]
    ensures roots == Ok([]) ==> r == Err("No roots found in organization")
    ensures roots.Err? ==> StartsWith(r.error, "Failed to get root ID: ")
  {
    match roots
    case Err(e) => Err("Failed to get root ID: " + Describe(e, "ListRoots"))
    case Ok(rs) => if rs == [] then Err("No roots found in organization") else Ok(rs[0])
  }

  /** Wraps a ListOrganizationalUnitsForParent answer. */
  function ListOus(listing: Result<seq<OrganizationalUnit>, ClientError>): (r: Result<seq<OrganizationalUnit>, string>)
    ensures r.Ok? <==> listing.Ok?
    ensures r.Ok? ==> r.value == listing.value
    ensures r.Err? ==> StartsWith(r.error, "Failed to list OUs: ")
  {
    match listing
    case Ok(ous) => Ok(ous)
    case Err(e) => Err("Failed to list OUs: " + Describe(e, "ListOrganizationalUnitsForParent"))
  }

  /** Case-insensitive equality of two names, as `a.lower() == b.lower()`. */
  predicate SameIgnoringCase(a: string, b: string) {
    Lower(a) == Lower(b)
  }

  /**
   * What the `list_accounts` paginator delivered: the pages received, in
   * order, and the ClientError raised while fetching the next one, if any.
   * A failure before the first page is `pages == []` with a failure.
   */
  datatype AccountListing = AccountListing(pages: seq<seq<Account>>, failure: Option<ClientError>)

  /** The accounts of all received pages, in listing order. */
  function Flatten(pages: seq<seq<Account>>): (all: seq<Account>)
    ensures |all| == 0 <==> forall k :: 0 <= k < |pages| ==> pages[k] == []
  {
    if pages == [] then [] else pages[0] + Flatten(pages[1..])
  }

  /** The id of the first account satisfying `p` in one flat list. */
  function FirstMatchId(accounts: seq<Account>, p: Account -> bool): Option<string> {
    var i := FirstWith(accounts, p);
    if i < |accounts| then Some(accounts[i].id) else None
  }

  /**
   * Page-by-page search that returns as soon as a page holds a match, so
   * later pages are never requested. It finds what a search of all pages
   * laid end to end finds.
   */
  function SearchPages(pages: seq<seq<Account>>, p: Account -> bool): (r: Option<string>)
    ensures r == FirstMatchId(Flatten(pages), p)
  {
    if pages == [] then None
    else
      var i := FirstWith(pages[0], p);
      FirstWithAppend(pages[0], Flatten(pages[1..]), p);
      if i < |pages[0]| then Some(pages[0][i].id) else SearchPages(pages[1..], p)
  }

  /** The first match in `a + b` is the first in `a`, or else the first in `b` shifted past `a`. */
  lemma {:induction false} FirstWithAppend(a: seq<Account>, b: seq<Account>, p: Account -> bool)
    ensures FirstWith(a + b, p) == (if FirstWith(a, p) < |a| then FirstWith(a, p) else |a| + FirstWith(b, p))
  {
    if a == [] {
      assert a + b == b;
    } else {
      assert (a + b)[0] == a[0];
      assert (a + b)[1..] == a[1..] + b;
      FirstWithAppend(a[1..], b, p);
    }
  }

  /**
   * The id of the first listed account whose `field` equals `value`
   * ignoring case, searching the pages in order; None when no received
   * page holds one. A ClientError while paging ends the search with None,
   * but only once every page before it has been searched without a match.
   * The name and the e-mail lookups differ only in the field.
   */
  function FindAccountBy(listing: AccountListing, field: Account -> string, value: string)
    : (r: Option<string>)
    ensures var all := Flatten(listing.pages);
      r.Some? <==> exists i :: 0 <= i < |all| && SameIgnoringCase(field(all[i]), value)
    ensures var all := Flatten(listing.pages);
      r.Some? ==>
        (exists i :: 0 <= i < |all| && all[i].id == r.value
          && SameIgnoringCase(field(all[i]), value)
          && forall j :: 0 <= j < i ==> !SameIgnoringCase(field(all[j]), value))
    ensures listing.pages == [] ==> r == None
  {
    SearchPages(listing.pages, (a: Account) => SameIgnoringCase(field(a), value))
  }

  /** A match on a received page is found even when a later page request fails. */
  lemma {:induction false} MatchBeforeFailureFound(
    pages: seq<seq<Account>>, e: ClientError, field: Account -> string, value: string, k: nat, i: nat)
    requires k < |pages| && i < |pages[k]|
    requires SameIgnoringCase(field(pages[k][i]), value)
    ensures FindAccountBy(AccountListing(pages, Some(e)), field, value).Some?
  {
    if k == 0 {
      assert Flatten(pages)[i] == pages[0][i];
    } else {
      MatchBeforeFailureFound(pages[1..], e, field, value, k - 1, i);
      var rest := Flatten(pages[1..]);
      var j :| 0 <= j < |rest| && SameIgnoringCase(field(rest[j]), value);
      assert Flatten(pages)[|pages[0]| + j] == rest[j];
    }
  }

  /** find_account_by_name: the lookup on account names. */
  function FindAccountByName(listing: AccountListing, name: string): Option<string> {
    FindAccountBy(listing, (a: Account) => a.name, name)
  }

  /** find_account_by_email: the lookup on e-mail addresses. */
  function FindAccountByEmail(listing: AccountListing, email: string): Option<string> {
    FindAccountBy(listing, (a: Account) => a.email, email)
  }

  /** Index of the first account satisfying `p`, or the length when none does. */
  function FirstWith(accounts: seq<Account>, p: Account -> bool): (i: nat)
    ensures i <= |accounts|
    ensures i < |accounts| ==> p(accounts[i])
    ensures forall j :: 0 <= j < i ==> !p(accounts[j])
  {
    if accounts == [] then 0
    else if p(accounts[0]) then 0
    else 1 + FirstWith(accounts[1..], p)
  }

  // ---------------------------------------------------------------------------
  // Enabling all features
  // ---------------------------------------------------------------------------

  /** What enable_all_features did: whether it called EnableAllFeatures, and its answer. */
  datatype EnableOutcome = EnableOutcome(enableCalled: bool, result: Result<bool, string>)

  const ConcurrentModificationCode := "ConcurrentModificationException"
  const HandshakeViolationCode := "HandshakeConstraintViolationException"
  const BeingModifiedMessage := "Organization is being modified. Please wait and try again."
  const PendingInvitationsMessage := "Cannot enable all features due to pending invitations. Accept or decline all pending invitations first."

  /** The three messages enable_all_features raises for a ClientError. */
  function EnableFailure(e: ClientError, operation: string): (msg: string)
    ensures e.code == ConcurrentModificationCode ==>
      msg == BeingModifiedMessage
    ensures e.code == HandshakeViolationCode ==>
      msg == PendingInvitationsMessage
    ensures e.code != ConcurrentModificationCode && e.code != HandshakeViolationCode ==>
      msg == "Failed to enable all features: " + Describe(e, operation)
  {
    if e.code == ConcurrentModificationCode then
      BeingModifiedMessage
    else if e.code == HandshakeViolationCode then
      PendingInvitationsMessage
    else
      "Failed to enable all features: " + Describe(e, operation)
  }

  /**
   * Reads the feature set and calls EnableAllFeatures only when it is not
   * already ALL. The answer is True or an OrganizationsError.
   */
  function EnableAllFeatures(describe: Result<OrgInfo, ClientError>, enable: Result<(), ClientError>): (r: EnableOutcome)
    ensures r.enableCalled <==> describe.Ok? && describe.value.featureSet != AllFeatures
    ensures r.result.Ok? ==> r.result.value
    ensures r.result.Ok? <==> describe.Ok? && (describe.value.featureSet == AllFeatures || enable.Ok?)
    ensures describe.Err? ==> r.result == Err(EnableFailure(describe.error, "DescribeOrganization"))
    ensures r.enableCalled && enable.Err? ==> r.result == Err(EnableFailure(enable.error, "EnableAllFeatures"))
  {
    match describe
    case Err(e) => EnableOutcome(false, Err(EnableFailure(e, "DescribeOrganization")))
    case Ok(info) =>
      if info.featureSet == AllFeatures then EnableOutcome(false, Ok(true))
      else match enable
        case Ok(_) => EnableOutcome(true, Ok(true))
        case Err(e) => EnableOutcome(true, Err(EnableFailure(e, "EnableAllFeatures")))
  }

  // ---------------------------------------------------------------------------
  // Creating an organizational unit
  // ---------------------------------------------------------------------------

  /** What create_organizational_unit did: whether it called CreateOrganizationalUnit, and its answer. */
  datatype CreateOuOutcome = CreateOuOutcome(createCalled: bool, result: Result<OrganizationalUnit, OrgFailure>)

  function DuplicateOu(name: string): OrgFailure {
    OrgFailure(DuplicateOUError, "Organizational unit '" + name + "' already exists")
  }

  /** Some OU in the listing carries exactly this name (case matters). */
  predicate NameTaken(ous: seq<OrganizationalUnit>, name: string) {
    exists i :: 0 <= i < |ous| && ous[i].name == name
  }

  /**
   * Lists the parent's OUs, refuses a name that is already taken without
   * calling create, then creates; the service's own duplicate code maps to
   * the same DuplicateOUError.
   */
  function CreateOrganizationalUnit(
    listing: Result<seq<OrganizationalUnit>, ClientError>,
    create: Result<OrganizationalUnit, ClientError>,
    name: string): (r: CreateOuOutcome)
    ensures r.createCalled <==> listing.Ok? && !NameTaken(listing.value, name)
    ensures listing.Err? ==> (r.result.Err? && r.result.error.kind == OrganizationsError
      && StartsWith(r.result.error.message, "Failed to list OUs: "))
    ensures listing.Ok? && NameTaken(listing.value, name) ==> r.result == Err(DuplicateOu(name))
    ensures r.createCalled ==> (r.result.Ok? <==> create.Ok?)
    ensures r.createCalled && create.Ok? ==> r.result.value == create.value
    ensures r.createCalled && create.Err? ==>
      (r.result.error.kind == DuplicateOUError <==> create.error.code == "DuplicateOrganizationalUnitException")
    ensures r.result.Err? && r.result.error.kind == DuplicateOUError ==> r.result == Err(DuplicateOu(name))
  {
    match ListOus(listing)
    case Err(msg) => CreateOuOutcome(false, Err(OrgFailure(OrganizationsError, msg)))
    case Ok(ous) =>
      if NameTaken(ous, name) then CreateOuOutcome(false, Err(DuplicateOu(name)))
      else match create
        case Ok(ou) => CreateOuOutcome(true, Ok(ou))
        case Err(e) =>
          if e.code == "DuplicateOrganizationalUnitException" then CreateOuOutcome(true, Err(DuplicateOu(name)))
          else CreateOuOutcome(true, Err(OrgFailure(OrganizationsError,
            "Failed to create OU '" + name + "': " + Describe(e, "CreateOrganizationalUnit"))))
  }

  // ---------------------------------------------------------------------------
  // Structure report
  // ---------------------------------------------------------------------------

  /**
   * The OU a `{ou.Name: ou}` dictionary keeps for `name`: the last listed
   * OU with exactly that name.
   */
  function LastNamed(ous: seq<OrganizationalUnit>, name: string): (r: Option<OrganizationalUnit>)
    ensures r.Some? <==> NameTaken(ous, name)
    ensures r.Some? ==>
      (exists i :: 0 <= i < |ous| && ous[i] == r.value && ous[i].name == name
        && forall j :: i < j < |ous| ==> ous[j].name != name)
  {
    if ous == [] then None
    else
      var rest := LastNamed(ous[1..], name);
      if rest.Some? then
        assert NameTaken(ous, name) by {
          var i :| 0 <= i < |ous[1..]| && ous[1..][i] == rest.value && ous[1..][i].name == name
            && forall j :: i < j < |ous[1..]| ==> ous[1..][j].name != name;
          assert ous[i + 1] == ous[1..][i];
        }
        rest
      else if ous[0].name == name then Some(ous[0])
      else None
  }

  /** The dictionary validate_organization_structure returns. */
  datatype StructureReport = StructureReport(
    valid: bool,
    issues: seq<string>,
    orgInfo: Option<OrgInfo>,
    rootId: Option<string>,
    securityOu: Option<OrganizationalUnit>,
    sandboxOu: Option<OrganizationalUnit>)

  const FeaturesIssue := "Organization does not have all features enabled"
  const SecurityMissing := "Security OU not found"
  const SandboxMissing := "Sandbox OU not found"

  /** Every remote answer the structure check reads succeeded. */
  predicate StructureReadable(
    describe: Result<OrgInfo, ClientError>,
    roots: Result<seq<string>, ClientError>,
    listOus: string -> Result<seq<OrganizationalUnit>, ClientError>)
  {
    describe.Ok? && roots.Ok? && roots.value != [] && listOus(roots.value[0]).Ok?
  }

  /**
   * Reads the organization, its first root and the OUs under that root.
   * A feature set other than ALL, or any OrganizationsError, clears
   * `valid`; a missing Security or Sandbox OU only adds an issue.
   */
  function ValidateOrganizationStructure(
    describe: Result<OrgInfo, ClientError>,
    roots: Result<seq<string>, ClientError>,
    listOus: string -> Result<seq<OrganizationalUnit>, ClientError>): (r: StructureReport)
    ensures r.valid <==> StructureReadable(describe, roots, listOus) && describe.value.featureSet == AllFeatures
    ensures StructureReadable(describe, roots, listOus) ==>
      var ous := listOus(roots.value[0]).value;
      r.rootId == Some(roots.value[0])
      && (r.securityOu.Some? <==> NameTaken(ous, "Security"))
      && (r.sandboxOu.Some? <==> NameTaken(ous, "Sandbox"))
      && (r.securityOu.Some? ==> r.securityOu.value.name == "Security")
      && (r.sandboxOu.Some? ==> r.sandboxOu.value.name == "Sandbox")
    ensures r.valid ==>
      r.issues == (if r.securityOu.None? then [SecurityMissing] else [])
        + (if r.sandboxOu.None? then [SandboxMissing] else [])
    ensures !r.valid ==> r.issues != []
    ensures describe.Err? ==> r.issues == [GetOrganizationInfo(describe).error] && r.orgInfo.None?
    ensures describe.Ok? ==> r.orgInfo == Some(describe.value)
  {
    var base := StructureReport(true, [], None, None, None, None);
    match GetOrganizationInfo(describe)
    case Err(msg) => base.(valid := false, issues := [msg])
    case Ok(info) =>
      var featured := if info.featureSet != AllFeatures then base.(valid := false, issues := [FeaturesIssue]) else base;
      var withInfo := featured.(orgInfo := Some(info));
      match GetRootId(roots)
      case Err(msg) => withInfo.(valid := false, issues := withInfo.issues + [msg])
      case Ok(root) =>
        var withRoot := withInfo.(rootId := Some(root));
        match ListOus(listOus(root))
        case Err(msg) => withRoot.(valid := false, issues := withRoot.issues + [msg])
        case Ok(ous) =>
          var security := LastNamed(ous, "Security");
          var sandbox := LastNamed(ous, "Sandbox");
          withRoot.(
            securityOu := security,
            sandboxOu := sandbox,
            issues := withRoot.issues
              + (if security.None? then [SecurityMissing] else [])
              + (if sandbox.None? then [SandboxMissing] else []))
  }
}

=== FILE: post_deployment.dfy ===
/**
 * The security baseline after the landing zone exists: AWS Config, then
 * GuardDuty, then Security Hub are set up in that order with the audit
 * account as delegated administrator, and their health is summarised.
 */
module PostDeployment {
  import opened Results
  import opened Json

  // ---------------------------------------------------------------------
  // Setting up the baseline
  // ---------------------------------------------------------------------

  /** The security services, in the order they are set up. */
  datatype Service = ConfigService | GuardDuty | SecurityHub

  /** One call the baseline setup makes on a service manager. */
  datatype BaselineCall =
    | EnableDelegatedAdministrator(service: Service, accountId: string)
    | CreateOrganizationAggregator
    | EnableOrganizationGuardDuty
    | SetFindingFrequency(frequency: string)
    | EnableOrganizationSecurityHub
    | EnableFoundationalStandards

  /** The eight calls of orchestrate_security_baseline, in order. */
  function BaselinePlan(auditAccountId: string): (plan: seq<BaselineCall>)
    ensures |plan| == 8
  {
    [EnableDelegatedAdministrator(ConfigService, auditAccountId), CreateOrganizationAggregator,
     EnableDelegatedAdministrator(GuardDuty, auditAccountId), EnableOrganizationGuardDuty, SetFindingFrequency("SIX_HOURS"),
     EnableDelegatedAdministrator(SecurityHub, auditAccountId), EnableOrganizationSecurityHub, EnableFoundationalStandards]
  }

  /** How many calls of the plan belong to the services up to and including `s`. */
  function CallsThrough(s: Service): nat {
    match s
    case ConfigService => 2
    case GuardDuty => 5
    case SecurityHub => 8
  }

  /**
   * Making the calls in order until one raises: the answers of the calls
   * that returned, and the first error, if any.
   */
  function RunUntilFailure(plan: seq<BaselineCall>, answer: BaselineCall -> Result<Json, string>)
    : (r: (seq<Json>, Option<string>))
    ensures |r.0| <= |plan|
    ensures r.1.None? <==> |r.0| == |plan|
    ensures forall i :: 0 <= i < |r.0| ==> answer(plan[i]) == Ok(r.0[i])
    ensures r.1.Some? ==> answer(plan[|r.0|]) == Err(r.1.value)
  {
    if plan == [] then ([], None)
    else
      match answer(plan[0])
      case Err(e) => ([], Some(e))
      case Ok(v) =>
        var (rest, failure) := RunUntilFailure(plan[1..], answer);
        ([v] + rest, failure)
  }

  datatype StepStatus = Pending | Success

  /** One service's entry of the results. */
  datatype ServiceResult = ServiceResult(status: StepStatus, details: Json)

  datatype OverallStatus = InProgress | OverallSuccess | OverallFailed

  /** The results dictionary, with the error recorded on failure. */
  datatype BaselineResults = BaselineResults(
    config: ServiceResult,
    guardDuty: ServiceResult,
    securityHub: ServiceResult,
    overallStatus: OverallStatus,
    error: Option<string>)

  /** What a run did: the calls made, the results, and the error raised. */
  datatype BaselineRun = BaselineRun(calls: seq<BaselineCall>, results: BaselineResults, raised: Option<string>)

  const PendingResult := ServiceResult(Pending, JObj(map[]))

  /** Python's `{**d, 'standards': s}`: a TypeError for anything but a dictionary. */
  function WithStandards(hubConfig: Json, standards: Json): Result<Json, string> {
    if hubConfig.JObj? then Ok(JObj(hubConfig.fields["standards" := standards]))
    else Err("'" + TypeName(hubConfig) + "' object is not a mapping")
  }

  /** The entry of a service once its calls all returned. */
  function Completed(s: Service, answers: seq<Json>): Result<ServiceResult, string>
    requires |answers| >= CallsThrough(s)
  {
    match s
    case ConfigService => Ok(ServiceResult(Success, JObj(map["aggregator" := answers[1]])))
    case GuardDuty => Ok(ServiceResult(Success, answers[3]))
    case SecurityHub =>
      var details :- WithStandards(answers[6], answers[7]);
      Ok(ServiceResult(Success, details))
  }

  /** The entry of a service after the run: completed when all its calls returned, pending otherwise. */
  function Entry(s: Service, answers: seq<Json>): Result<ServiceResult, string> {
    if |answers| >= CallsThrough(s) then Completed(s, answers) else Ok(PendingResult)
  }

  /**
   * orchestrate_security_baseline: the services are set up strictly in
   * order, the first error stops the run, marks it failed and is raised
   * wrapped; the run succeeds only when all three services did.
   */
  function OrchestrateSecurityBaseline(auditAccountId: string, answer: BaselineCall -> Result<Json, string>)
    : (run: BaselineRun)
    ensures exists n :: 0 <= n <= 8 && run.calls == BaselinePlan(auditAccountId)[..n]
    ensures run.raised.None? <==> run.results.overallStatus == OverallSuccess
    ensures run.raised.None? <==>
      (forall i :: 0 <= i < 8 ==> answer(BaselinePlan(auditAccountId)[i]).Ok?)
      && answer(EnableOrganizationSecurityHub).Ok? && answer(EnableOrganizationSecurityHub).value.JObj?
    ensures run.raised.Some? ==>
      run.results.overallStatus == OverallFailed && run.results.error.Some?
      && run.raised.value == "Orchestration failed: " + run.results.error.value
    ensures run.raised.None? ==> run.results.error.None?
    ensures run.results.overallStatus == OverallSuccess <==>
      run.results.config.status == Success && run.results.guardDuty.status == Success
      && run.results.securityHub.status == Success
    ensures run.results.securityHub.status == Success ==> run.results.guardDuty.status == Success
    ensures run.results.guardDuty.status == Success ==> run.results.config.status == Success
  {
    var plan := BaselinePlan(auditAccountId);
    var (answers, failure) := RunUntilFailure(plan, answer);
    var calls := if failure.Some? then plan[..|answers| + 1] else plan;
    var config := Entry(ConfigService, answers).value;
    var guardDuty := Entry(GuardDuty, answers).value;
    var hub := Entry(SecurityHub, answers);
    if failure.Some? || hub.Err? then
      var e := if failure.Some? then failure.value else hub.error;
      assert calls == plan[..|calls|];
      BaselineRun(calls, BaselineResults(config, guardDuty, PendingResult, OverallFailed, Some(e)),
                  Some("Orchestration failed: " + e))
    else
      assert answers[6] == answer(EnableOrganizationSecurityHub).value by {
        assert plan[6] == EnableOrganizationSecurityHub;
      }
      BaselineRun(calls, BaselineResults(config, guardDuty, hub.value, OverallSuccess, None), None)
  }

  /**
   * The calls of a run, and which services it completed, are decided by
   * the first failing call alone: a service completes iff every call up
   * to and including its own returned.
   */
  lemma {:induction false} ServiceCompletesIffItsCallsReturn(auditAccountId: string, answer: BaselineCall -> Result<Json, string>, s: Service)
    requires s != SecurityHub
    ensures var run := OrchestrateSecurityBaseline(auditAccountId, answer);
      (s == ConfigService ==> (run.results.config.status == Success <==>
        forall i :: 0 <= i < CallsThrough(s) ==> answer(BaselinePlan(auditAccountId)[i]).Ok?))
      && (s == GuardDuty ==> (run.results.guardDuty.status == Success <==>
        forall i :: 0 <= i < CallsThrough(s) ==> answer(BaselinePlan(auditAccountId)[i]).Ok?))
  {
    var plan := BaselinePlan(auditAccountId);
    var (answers, failure) := RunUntilFailure(plan, answer);
    if failure.Some? && |answers| < CallsThrough(s) {
      assert !answer(plan[|answers|]).Ok?;
    }
  }

  // ---------------------------------------------------------------------
  // Service health
  // ---------------------------------------------------------------------

  /** One service's named checks, as its manager's validate_*_setup reports them. */
  type Checks = map<string, bool>

  predicate AllTrue(checks: Checks) {
    forall k :: k in checks ==> checks[k]
  }

  /** The health of the three services, each with its overall_healthy entry. */
  datatype HealthReport = HealthReport(config: Checks, guardDuty: Checks, securityHub: Checks, overallHealthy: bool)

  const OverallHealthy := "overall_healthy"

  /** A service's checks with overall_healthy added: true iff every check passed. */
  function WithOverall(checks: Checks): (r: Checks)
    requires OverallHealthy !in checks
    ensures OverallHealthy in r && (r[OverallHealthy] <==> forall k :: k in checks ==> checks[k])
    ensures forall k :: k in checks ==> k in r && r[k] == checks[k]
    ensures r.Keys == checks.Keys + {OverallHealthy}
  {
    checks[OverallHealthy := AllTrue(checks)]
  }

  /**
   * validate_service_health: each service is healthy iff all its checks
   * pass, and the whole baseline is healthy iff every service is.
   */
  function ValidateServiceHealth(config: Checks, guardDuty: Checks, securityHub: Checks): (r: HealthReport)
    requires OverallHealthy !in config && OverallHealthy !in guardDuty && OverallHealthy !in securityHub
    ensures OverallHealthy in r.config && OverallHealthy in r.guardDuty && OverallHealthy in r.securityHub
    ensures r.overallHealthy <==> AllTrue(config) && AllTrue(guardDuty) && AllTrue(securityHub)
    ensures r.overallHealthy <==>
      r.config[OverallHealthy] && r.guardDuty[OverallHealthy] && r.securityHub[OverallHealthy]
  {
    var c := WithOverall(config);
    var g := WithOverall(guardDuty);
    var h := WithOverall(securityHub);
    HealthReport(c, g, h, c[OverallHealthy] && g[OverallHealthy] && h[OverallHealthy])
  }

  // ---------------------------------------------------------------------
  // Deployment status
  // ---------------------------------------------------------------------

  const ServiceNames: seq<string> := ["config", "guardduty", "security_hub"]
  const TotalServices := 3

  /** The checks a health report holds for a service name (empty for any other name). */
  function ChecksOf(h: HealthReport, name: string): Checks {
    if name == "config" then h.config
    else if name == "guardduty" then h.guardDuty
    else if name == "security_hub" then h.securityHub
    else map[]
  }

  /** `.get('overall_healthy', False)` on a service's checks. */
  predicate IsHealthy(checks: Checks) {
    OverallHealthy in checks && checks[OverallHealthy]
  }

  /** How many of the named services are healthy: the reference count. */
  function HealthyCount(h: HealthReport, names: seq<string>): (n: nat)
    ensures n <= |names|
  {
    if names == [] then 0
    else HealthyCount(h, names[..|names| - 1]) + (if IsHealthy(ChecksOf(h, names[|names| - 1])) then 1 else 0)
  }

  /** The three services are counted healthy exactly when each of them is. */
  lemma CountIsFullIffAllHealthy(h: HealthReport)
    ensures HealthyCount(h, ServiceNames) == TotalServices <==>
      IsHealthy(h.config) && IsHealthy(h.guardDuty) && IsHealthy(h.securityHub)
  {
    var one := if IsHealthy(h.config) then 1 else 0;
    var two := one + if IsHealthy(h.guardDuty) then 1 else 0;
    assert ["config"][..0] == [];
    assert HealthyCount(h, ["config"]) == one;
    assert ["config", "guardduty"][..1] == ["config"];
    assert HealthyCount(h, ["config", "guardduty"]) == two;
    assert ServiceNames[..2] == ["config", "guardduty"];
    assert HealthyCount(h, ServiceNames) == two + if IsHealthy(h.securityHub) then 1 else 0;
  }

  datatype ServiceStatus = ServiceStatus(healthy: bool, details: Checks)

  datatype StatusSummary = StatusSummary(totalServices: nat, healthyServices: nat, failedServices: nat, deploymentComplete: bool)

  datatype DeploymentStatus = DeploymentStatus(services: map<string, ServiceStatus>, summary: StatusSummary)

  /**
   * get_deployment_status: every service is either healthy or failed, and
   * the deployment is complete iff all three are healthy, which is exactly
   * when the health report says the baseline is healthy.
   */
  method GetDeploymentStatus(h: HealthReport) returns (status: DeploymentStatus)
    requires h.overallHealthy <==> IsHealthy(h.config) && IsHealthy(h.guardDuty) && IsHealthy(h.securityHub)
    ensures status.summary.totalServices == TotalServices
    ensures status.summary.healthyServices + status.summary.failedServices == TotalServices
    ensures status.summary.healthyServices == HealthyCount(h, ServiceNames)
    ensures status.summary.deploymentComplete <==> status.summary.healthyServices == TotalServices
    ensures status.summary.deploymentComplete <==> h.overallHealthy
    ensures status.services.Keys == set n | n in ServiceNames
    ensures forall n :: n in ServiceNames ==>
      status.services[n] == ServiceStatus(IsHealthy(ChecksOf(h, n)), ChecksOf(h, n))
  {
    var services: map<string, ServiceStatus> := map[];
    var healthy := 0;
    var failed := 0;
    var i := 0;
    while i < |ServiceNames|
      invariant 0 <= i <= |ServiceNames|
      invariant healthy + failed == i
      invariant healthy == HealthyCount(h, ServiceNames[..i])
      invariant services.Keys == set n | n in ServiceNames[..i]
      invariant forall n :: n in ServiceNames[..i] ==>
        services[n] == ServiceStatus(IsHealthy(ChecksOf(h, n)), ChecksOf(h, n))
    {
      var name := ServiceNames[i];
      var checks := ChecksOf(h, name);
      var isHealthy := IsHealthy(checks);
      services := services[name := ServiceStatus(isHealthy, checks)];
      if isHealthy {
        healthy := healthy + 1;
      } else {
        failed := failed + 1;
      }
      assert ServiceNames[..i + 1][..i] == ServiceNames[..i];
      i := i + 1;
    }
    assert ServiceNames[..i] == ServiceNames;
    CountIsFullIffAllHealthy(h);
    status := DeploymentStatus(services, StatusSummary(TotalServices, healthy, failed, healthy == TotalServices));
  }
}

=== FILE: remote.dfy ===
/**
 * Records returned by the cloud APIs the pipeline calls. The APIs
 * themselves are not modelled: each operation receives their answers
 * as parameters.
 */
module Remote {

  /** One entry of an Organizations account listing. */
  datatype Account = Account(id: string, name: string, email: string)

  /** One organizational unit under a parent. */
  datatype OrganizationalUnit = OrganizationalUnit(id: string, name: string)

  /** A botocore ClientError: the service's error code and message. */
  datatype ClientError = ClientError(code: string, message: string)

  /** `str(e)` of a ClientError raised by the named API operation, as botocore formats it. */
  function Describe(e: ClientError, operation: string): string {
    "An error occurred (" + e.code + ") when calling the " + operation + " operation: " + e.message
  }
}

=== FILE: results.dfy ===
/** Success/failure values standing in for the Python exceptions the pipeline raises. */
module Results {

  /** Either the value an operation returns or the error it raises. */
  datatype Result<+T, +E> = Ok(value: T) | Err(error: E) {

    predicate IsFailure() {
      Err?
    }

    function PropagateFailure<U>(): Result<U, E>
      requires Err?
    {
      Err(error)
    }

    function Extract(): T
      requires Ok?
    {
      value
    }
  }

  /** Python's Optional: a value or None. */
  datatype Option<+T> = None | Some(value: T) {

    function GetOr(default: T): T {
      match this
      case Some(v) => v
      case None => default
    }
  }
}

=== FILE: scp.dfy ===
/**
 * Service control policy tiers. A tier is a named list of policy
 * configurations; deploying it validates every configuration first,
 * then creates or updates one policy per configuration and attaches it
 * to each target organizational unit. Cleanup deletes the policies
 * whose name carries a prefix, leaving vendor-managed ones alone.
 *
 * The organization's policy store is simulated: policies with numeric
 * ids, a set of (policy, target) attachments and the next free id.
 * Remote failures are injected through `Faults`, and the remote calls
 * are recorded in order. The one exception is detaching: the targets
 * are a set here, so only the listing of a policy's targets is
 * recorded, not the detach call made for each of them.
 */
module ScpPolicies {
  import opened Results
  import opened Json
  import opened Remote
  import Text

  // ---------------------------------------------------------------------
  // Tiers and policy configurations
  // ---------------------------------------------------------------------

  /** The accepted tier names, compared exactly. */
  const Tiers: seq<string> := ["basic", "standard", "strict"]

  /** The service's size limit for a serialized policy document. */
  const MaxPolicyLength: nat := 5120

  predicate IsTier(tier: string) {
    tier in Tiers
  }

  const InvalidTierPrefix := "Invalid SCP tier: "
  const ValidTiersSuffix := ". Valid tiers: ['basic', 'standard', 'strict']"

  function InvalidTier(tier: string): string {
    InvalidTierPrefix + tier + ValidTiersSuffix
  }

  /** One entry of a tier file: name, description and policy document. */
  type PolicyConfig = map<string, Json>

  const NameKey := "name"
  const DescriptionKey := "description"
  const PolicyKey := "policy"
  const VersionKey := "Version"
  const StatementKey := "Statement"

  predicate HasConfigFields(c: PolicyConfig) {
    NameKey in c && DescriptionKey in c && PolicyKey in c
  }

  /**
   * What the validator asks of one configuration: the three fields, a
   * dictionary document with Version and Statement, and a serialized
   * size within the limit. `length` stands for `len(json.dumps(doc))`.
   */
  predicate PolicyAcceptable(c: PolicyConfig, length: Json -> nat) {
    && HasConfigFields(c)
    && c[PolicyKey].JObj?
    && VersionKey in c[PolicyKey].fields
    && StatementKey in c[PolicyKey].fields
    && length(c[PolicyKey]) <= MaxPolicyLength
  }

  const MissingNameMessage := "Missing required field 'name' in policy configuration"
  const MissingDescriptionMessage := "Missing required field 'description' in policy configuration"
  const MissingPolicyMessage := "Missing required field 'policy' in policy configuration"
  const NotDictionaryPrefix := "Policy document must be a dictionary for policy: "
  const NoVersionPrefix := "Policy document missing 'Version' field for policy: "
  const NoStatementPrefix := "Policy document missing 'Statement' field for policy: "
  const TooLargePrefix := "Policy document too large ("

  /** The first rule one configuration breaks, with the validator's message. */
  function CheckPolicy(c: PolicyConfig, length: Json -> nat): (err: Option<string>)
    ensures err.None? <==> PolicyAcceptable(c, length)
  {
    if NameKey !in c then Some(MissingNameMessage)
    else if DescriptionKey !in c then Some(MissingDescriptionMessage)
    else if PolicyKey !in c then Some(MissingPolicyMessage)
    else
      var doc := c[PolicyKey];
      var name := Render(c[NameKey]);
      if !doc.JObj? then Some(NotDictionaryPrefix + name)
      else if VersionKey !in doc.fields then Some(NoVersionPrefix + name)
      else if StatementKey !in doc.fields then Some(NoStatementPrefix + name)
      else if length(doc) > MaxPolicyLength then
        Some(TooLargePrefix + Text.NatToString(length(doc)) + " chars) for policy: " + name)
      else None
  }

  /**
   * validate_scp_policies: true when every configuration is acceptable;
   * otherwise the message of the first configuration that is not.
   */
  function ValidatePolicies(cs: seq<PolicyConfig>, length: Json -> nat): (r: Result<bool, string>)
    ensures r.Ok? <==> forall i :: 0 <= i < |cs| ==> PolicyAcceptable(cs[i], length)
    ensures r.Ok? ==> r.value
    ensures r.Err? ==> exists i :: 0 <= i < |cs| && CheckPolicy(cs[i], length) == Some(r.error)
                                   && forall j :: 0 <= j < i ==> PolicyAcceptable(cs[j], length)
  {
    if cs == [] then Ok(true)
    else match CheckPolicy(cs[0], length)
      case Some(e) => Err(e)
      case None =>
        var rest := ValidatePolicies(cs[1..], length);
        if rest.Err? then
          var i :| 0 <= i < |cs[1..]| && CheckPolicy(cs[1..][i], length) == Some(rest.error)
                   && forall j :: 0 <= j < i ==> PolicyAcceptable(cs[1..][j], length);
          assert CheckPolicy(cs[i + 1], length) == Some(rest.error);
          assert forall j :: 0 <= j < i + 1 ==> PolicyAcceptable(cs[j], length) by {
            forall j | 0 < j < i + 1 ensures PolicyAcceptable(cs[j], length) {
              assert cs[j] == cs[1..][j - 1];
            }
          }
          rest
        else
          assert forall i :: 0 <= i < |cs| ==> PolicyAcceptable(cs[i], length) by {
            forall i | 0 < i < |cs| ensures PolicyAcceptable(cs[i], length) {
              assert cs[i] == cs[1..][i - 1];
            }
          }
          rest
  }

  const PolicyNamePrefix := "ControlTower-"

  /** `f"ControlTower-{tier.title()}-{name}"` for a configuration (validated ones always have a name). */
  function PolicyName(tier: string, c: PolicyConfig): string {
    PolicyNamePrefix + Text.Capitalize(tier) + "-" + Render(if NameKey in c then c[NameKey] else JNull)
  }

  /** The names a tier's configurations deploy under. */
  function PolicyNames(tier: string, cs: seq<PolicyConfig>): (r: set<string>)
    ensures forall i :: 0 <= i < |cs| ==> PolicyName(tier, cs[i]) in r
    ensures forall n :: n in r ==> exists i :: 0 <= i < |cs| && PolicyName(tier, cs[i]) == n
  {
    if cs == [] then {} else {PolicyName(tier, cs[0])} + PolicyNames(tier, cs[1..])
  }

  // ---------------------------------------------------------------------
  // The simulated policy store
  // ---------------------------------------------------------------------

  datatype Policy = Policy(id: nat, name: string, description: string, content: Json, awsManaged: bool)

  datatype Org = Org(policies: seq<Policy>, attached: set<(nat, string)>, nextId: nat)

  /** No two policies of the store share an id. */
  predicate UniqueIds(ps: seq<Policy>) {
    forall i, j :: 0 <= i < j < |ps| ==> ps[i].id != ps[j].id
  }

  /** Every id in the store is below the next one the store hands out. */
  predicate IdsBelow(org: Org) {
    forall i :: 0 <= i < |org.policies| ==> org.policies[i].id < org.nextId
  }

  /** The store invariant: ids are unique and the next id is fresh. */
  predicate WellFormed(org: Org) {
    UniqueIds(org.policies) && IdsBelow(org)
  }

  /** The remote calls, in the order they are made. */
  datatype Call =
    | ListPolicies
    | CreatePolicy(name: string)
    | UpdatePolicy(policy: nat)
    | AttachPolicy(policy: nat, target: string)
    | ListTargets(policy: nat)
    | DeletePolicy(policy: nat)

  /**
   * Injected service failures. The duplicate-attachment error is also
   * raised by the store itself when the pair is already attached.
   */
  datatype Faults = Faults(
    listError: Option<ClientError>,
    writeError: string -> Option<ClientError>,
    attachError: (nat, string) -> Option<ClientError>,
    listTargetsError: nat -> Option<TargetsCut>,
    detachError: (nat, string) -> Option<ClientError>,
    deleteError: nat -> Option<ClientError>)

  /**
   * A target listing that fails part-way: the targets on the pages that
   * arrived before the failing page, and the error raised for it. The
   * order of targets within the pages is not modelled.
   */
  datatype TargetsCut = TargetsCut(received: set<string>, error: ClientError)

  const NoFaults: Faults :=
    Faults(None, _ => None, (_, _) => None, _ => None, (_, _) => None, _ => None)

  /** The store after some calls, the calls made, and what the operation returned or raised. */
  datatype Outcome<T> = Outcome(org: Org, calls: seq<Call>, result: Result<T, string>)

  /** Index of the first policy carrying exactly this name. */
  function FindByName(ps: seq<Policy>, name: string): (r: Option<nat>)
    ensures r.Some? ==> r.value < |ps| && ps[r.value].name == name
    ensures r.Some? ==> forall j :: 0 <= j < r.value ==> ps[j].name != name
    ensures r.None? ==> forall j :: 0 <= j < |ps| ==> ps[j].name != name
  {
    if ps == [] then None
    else if ps[0].name == name then Some(0)
    else match FindByName(ps[1..], name)
      case None => None
      case Some(k) => Some(k + 1)
  }

  /** The first match is unique: any index meeting its description is the one found. */
  lemma FindByNameIs(ps: seq<Policy>, name: string, k: nat)
    requires k < |ps| && ps[k].name == name
    requires forall j :: 0 <= j < k ==> ps[j].name != name
    ensures FindByName(ps, name) == Some(k)
  {
  }

  /** Updating a policy in place without renaming it leaves every name lookup where it was. */
  lemma FindByNameAfterUpdate(ps: seq<Policy>, k: nat, p: Policy, name: string)
    requires k < |ps| && p.name == ps[k].name
    ensures FindByName(ps[k := p], name) == FindByName(ps, name)
  {
    var r := FindByName(ps, name);
    if r.Some? {
      FindByNameIs(ps[k := p], name, r.value);
    } else {
      var q := ps[k := p];
      assert forall j :: 0 <= j < |q| ==> q[j].name != name;
    }
  }

  /** Appending a policy of another name leaves the lookup of `name` where it was. */
  lemma FindByNameAfterAppend(ps: seq<Policy>, p: Policy, name: string)
    requires p.name != name
    ensures FindByName(ps + [p], name) == FindByName(ps, name)
  {
    var r := FindByName(ps, name);
    if r.Some? {
      FindByNameIs(ps + [p], name, r.value);
    } else {
      assert forall j :: 0 <= j < |ps + [p]| ==> (ps + [p])[j].name != name;
    }
  }

  // ---------------------------------------------------------------------
  // Create or update
  // ---------------------------------------------------------------------

  function ListFailure(e: ClientError): string {
    "Failed to list existing policies: " + e.message
  }

  function WriteFailure(e: ClientError, name: string): string {
    if e.code == "PolicyInUseException" then "Policy is in use and cannot be updated: " + name
    else if e.code == "DuplicatePolicyException" then "Policy with same name already exists: " + name
    else "Failed to create/update policy '" + name + "': " + e.message
  }

  /**
   * _create_or_update_policy: lists the policies, updates the first one
   * whose name is exactly `name`, or creates a new one when there is
   * none, and returns the policy's id.
   */
  function CreateOrUpdate(org: Org, f: Faults, name: string, content: Json, description: string)
    : (r: Outcome<nat>)
    ensures r.result.Err? ==> r.org == org
    ensures r.result.Ok? ==> var k := FindByName(r.org.policies, name);
              && k.Some?
              && r.org.policies[k.value].id == r.result.value
              && r.org.policies[k.value].content == content
              && r.org.policies[k.value].description == description
    ensures r.result.Ok? && FindByName(org.policies, name).Some? ==>
              r.result.value == org.policies[FindByName(org.policies, name).value].id
              && |r.org.policies| == |org.policies|
    ensures r.result.Ok? && FindByName(org.policies, name).None? ==>
              r.result.value == org.nextId && |r.org.policies| == |org.policies| + 1
              && r.org.policies[..|org.policies|] == org.policies
    ensures r.result.Ok? && FindByName(org.policies, name).None? && IdsBelow(org) ==>
              forall i :: 0 <= i < |org.policies| ==> org.policies[i].id != r.result.value
    ensures WellFormed(org) ==> WellFormed(r.org)
    ensures r.org.attached == org.attached
    ensures |r.calls| > 0 && r.calls[0] == ListPolicies
    ensures forall i :: 0 <= i < |r.calls| ==> !r.calls[i].AttachPolicy?
  {
    if f.listError.Some? then Outcome(org, [ListPolicies], Err(ListFailure(f.listError.value)))
    else match FindByName(org.policies, name)
      case Some(k) =>
        var old_ := org.policies[k];
        var calls := [ListPolicies, UpdatePolicy(old_.id)];
        if f.writeError(name).Some? then Outcome(org, calls, Err(WriteFailure(f.writeError(name).value, name)))
        else
          var updated := old_.(description := description, content := content);
          FindByNameAfterUpdate(org.policies, k, updated, name);
          Outcome(org.(policies := org.policies[k := updated]), calls, Ok(old_.id))
      case None =>
        var calls := [ListPolicies, CreatePolicy(name)];
        if f.writeError(name).Some? then Outcome(org, calls, Err(WriteFailure(f.writeError(name).value, name)))
        else
          var created := Policy(org.nextId, name, description, content, false);
          FindByNameIs(org.policies + [created], name, |org.policies|);
          Outcome(Org(org.policies + [created], org.attached, org.nextId + 1), calls, Ok(org.nextId))
  }

  /** Creating or updating `name` leaves the lookup and the policy of every other name untouched. */
  lemma CreateOrUpdateKeepsOthers(org: Org, f: Faults, name: string, content: Json, description: string, other: string)
    requires other != name
    ensures Keeps(org, CreateOrUpdate(org, f, name, content, description).org, other)
  {
    var r := CreateOrUpdate(org, f, name, content, description);
    if f.listError.None? && f.writeError(name).None? {
      match FindByName(org.policies, name)
      case Some(k) =>
        var updated := org.policies[k].(description := description, content := content);
        FindByNameAfterUpdate(org.policies, k, updated, other);
      case None =>
        FindByNameAfterAppend(org.policies, Policy(org.nextId, name, description, content, false), other);
    }
  }

  /**
   * `after` agrees with `before` on the policy named `name` (same
   * position, same record) and keeps every attachment.
   */
  predicate Keeps(before: Org, after: Org, name: string) {
    && FindByName(after.policies, name) == FindByName(before.policies, name)
    && (FindByName(before.policies, name).Some? ==>
          var k := FindByName(before.policies, name).value;
          k < |after.policies| && after.policies[k] == before.policies[k])
    && before.attached <= after.attached
  }

  lemma KeepsTransitive(a: Org, b: Org, c: Org, name: string)
    requires Keeps(a, b, name) && Keeps(b, c, name)
    ensures Keeps(a, c, name)
  {
  }

  // ---------------------------------------------------------------------
  // Attaching
  // ---------------------------------------------------------------------

  const DuplicateAttachment: string := "DuplicatePolicyAttachmentException"

  /** The service reports the pair as already attached. */
  predicate SaysDuplicate(e: Option<ClientError>) {
    e.Some? && e.value.code == DuplicateAttachment
  }

  /** Attaching `pid` to `ou` raises: not yet attached, and a fault other than the duplicate one. */
  predicate AttachFails(org: Org, f: Faults, pid: nat, ou: string) {
    (pid, ou) !in org.attached && f.attachError(pid, ou).Some? && !SaysDuplicate(f.attachError(pid, ou))
  }

  function AttachFailure(e: ClientError): string {
    if e.code == "PolicyNotAttachableException" then "Policy cannot be attached to OU: " + e.message
    else "Failed to attach policy to OU: " + e.message
  }

  /**
   * _attach_policy_to_ou: one attach call; a duplicate attachment counts
   * as success, any other service error raises.
   */
  function Attach(org: Org, f: Faults, pid: nat, ou: string): (r: Outcome<()>)
    ensures r.calls == [AttachPolicy(pid, ou)]
    ensures r.result.Err? <==> AttachFails(org, f, pid, ou)
    ensures r.result.Ok? ==> (pid, ou) in r.org.attached || SaysDuplicate(f.attachError(pid, ou))
    ensures r.org.policies == org.policies && r.org.nextId == org.nextId
    ensures org.attached <= r.org.attached <= org.attached + {(pid, ou)}
  {
    var err := if (pid, ou) in org.attached then Some(ClientError(DuplicateAttachment, "already attached"))
               else f.attachError(pid, ou);
    match err
    case None => Outcome(org.(attached := org.attached + {(pid, ou)}), [AttachPolicy(pid, ou)], Ok(()))
    case Some(e) =>
      if e.code == DuplicateAttachment then Outcome(org, [AttachPolicy(pid, ou)], Ok(()))
      else Outcome(org, [AttachPolicy(pid, ou)], Err(AttachFailure(e)))
  }

  /**
   * The attach at position `i` of `ous` is the one that raises when the
   * targets before it succeeded: the pair was not attached beforehand,
   * the target did not come up earlier, and the service fails it.
   */
  predicate AttachFailsAt(org: Org, f: Faults, pid: nat, ous: seq<string>, i: int)
    requires 0 <= i < |ous|
  {
    ous[i] !in ous[..i] && AttachFails(org, f, pid, ous[i])
  }

  /** Number of attach calls in a call log. */
  function Attaches(calls: seq<Call>): (n: nat)
    ensures n <= |calls|
  {
    if calls == [] then 0 else (if calls[0].AttachPolicy? then 1 else 0) + Attaches(calls[1..])
  }

  lemma {:induction false} AttachesAppend(a: seq<Call>, b: seq<Call>)
    ensures Attaches(a + b) == Attaches(a) + Attaches(b)
  {
    if a == [] {
      assert a + b == b;
    } else {
      assert (a + b)[1..] == a[1..] + b;
      AttachesAppend(a[1..], b);
    }
  }

  /** Attaching one policy to each target in turn, stopping at the first failure. */
  function AttachAll(org: Org, f: Faults, pid: nat, ous: seq<string>): (r: Outcome<()>)
    ensures r.result.Ok? <==> forall i :: 0 <= i < |ous| ==> !AttachFailsAt(org, f, pid, ous, i)
    ensures r.result.Ok? ==> forall i :: 0 <= i < |ous| ==>
              (pid, ous[i]) in r.org.attached || SaysDuplicate(f.attachError(pid, ous[i]))
    ensures r.result.Ok? ==> Attaches(r.calls) == |ous|
    ensures r.org.policies == org.policies && r.org.nextId == org.nextId
    ensures org.attached <= r.org.attached
    decreases |ous|
  {
    if ous == [] then Outcome(org, [], Ok(()))
    else
      var first := Attach(org, f, pid, ous[0]);
      if first.result.Err? then
        assert AttachFailsAt(org, f, pid, ous, 0);
        Outcome(first.org, first.calls, first.result)
      else
        var rest := AttachAll(first.org, f, pid, ous[1..]);
        AttachAllStep(org, f, pid, ous, first.org);
        assert !AttachFailsAt(org, f, pid, ous, 0);
        assert rest.result.Ok? <==> forall i :: 0 <= i < |ous| ==> !AttachFailsAt(org, f, pid, ous, i) by {
          if rest.result.Ok? {
            forall i | 1 <= i < |ous| ensures !AttachFailsAt(org, f, pid, ous, i) {
              assert !AttachFailsAt(first.org, f, pid, ous[1..], i - 1);
            }
          } else {
            var i :| 0 <= i < |ous| - 1 && AttachFailsAt(first.org, f, pid, ous[1..], i);
            assert AttachFailsAt(org, f, pid, ous, i + 1);
          }
        }
        AttachesAppend(first.calls, rest.calls);
        Outcome(rest.org, first.calls + rest.calls, rest.result)
  }

  /** After a successful first attach, failures of the remaining targets are exactly the failures at positions 1.. of the whole list. */
  lemma AttachAllStep(org: Org, f: Faults, pid: nat, ous: seq<string>, o1: Org)
    requires |ous| > 0
    requires o1 == Attach(org, f, pid, ous[0]).org && Attach(org, f, pid, ous[0]).result.Ok?
    ensures forall i :: 0 <= i < |ous| - 1 ==>
              (AttachFailsAt(o1, f, pid, ous[1..], i) <==> AttachFailsAt(org, f, pid, ous, i + 1))
  {
    forall i | 0 <= i < |ous| - 1
      ensures AttachFailsAt(o1, f, pid, ous[1..], i) <==> AttachFailsAt(org, f, pid, ous, i + 1)
    {
      assert ous[..i + 1] == [ous[0]] + ous[1..][..i];
      assert ous[1..][i] == ous[i + 1];
    }
  }

  // ---------------------------------------------------------------------
  // Deploying a tier
  // ---------------------------------------------------------------------

  /**
   * The deployment loop: for each configuration in order, create or
   * update its policy, record its id under its name and attach it to
   * every target. The first failure ends the loop.
   */
  function DeployPolicies(org: Org, f: Faults, tier: string, targets: seq<string>,
                          cs: seq<PolicyConfig>, acc: map<string, nat>)
    : (r: Outcome<map<string, nat>>)
    requires forall i :: 0 <= i < |cs| ==> HasConfigFields(cs[i])
    ensures org.attached <= r.org.attached
    ensures r.calls == [] ==> r.org == org
    ensures WellFormed(org) ==> WellFormed(r.org)
    decreases |cs|
  {
    if cs == [] then Outcome(org, [], Ok(acc))
    else
      var c := cs[0];
      assert HasConfigFields(c);
      var one := DeployOne(org, f, tier, targets, c);
      if one.result.Err? then Outcome(one.org, one.calls, Err(one.result.error))
      else
        var rest := DeployPolicies(one.org, f, tier, targets, cs[1..], acc[PolicyName(tier, c) := one.result.value]);
        Outcome(rest.org, one.calls + rest.calls, rest.result)
  }

  /**
   * A successful deployment records an id under every configuration's
   * name and makes one attach call per configuration and target.
   */
  lemma {:induction false} DeployRecordsAll(org: Org, f: Faults, tier: string, targets: seq<string>,
                                           cs: seq<PolicyConfig>, acc: map<string, nat>)
    requires forall i :: 0 <= i < |cs| ==> HasConfigFields(cs[i])
    ensures var r := DeployPolicies(org, f, tier, targets, cs, acc);
      r.result.Ok? ==> r.result.value.Keys == acc.Keys + PolicyNames(tier, cs)
                       && Attaches(r.calls) == Times(|cs|, |targets|)
    decreases |cs|
  {
    var r := DeployPolicies(org, f, tier, targets, cs, acc);
    if cs != [] && r.result.Ok? {
      var c := cs[0];
      assert HasConfigFields(c);
      var one := DeployOne(org, f, tier, targets, c);
      var next := acc[PolicyName(tier, c) := one.result.value];
      var rest := DeployPolicies(one.org, f, tier, targets, cs[1..], next);
      assert r == Outcome(rest.org, one.calls + rest.calls, rest.result);
      DeployRecordsAll(one.org, f, tier, targets, cs[1..], next);
      AttachesAppend(one.calls, rest.calls);
      NamesStep(tier, cs, acc, one.result.value, rest.result.value.Keys);
    }
  }

  /** The names deployed so far, after the first configuration's name is recorded. */
  lemma NamesStep(tier: string, cs: seq<PolicyConfig>, acc: map<string, nat>, id: nat, keys: set<string>)
    requires cs != []
    requires keys == acc[PolicyName(tier, cs[0]) := id].Keys + PolicyNames(tier, cs[1..])
    ensures keys == acc.Keys + PolicyNames(tier, cs)
  {
    assert PolicyNames(tier, cs) == {PolicyName(tier, cs[0])} + PolicyNames(tier, cs[1..]);
  }

  /** One configuration: create or update its policy, then attach it to every target. */
  function DeployOne(org: Org, f: Faults, tier: string, targets: seq<string>, c: PolicyConfig)
    : (r: Outcome<nat>)
    requires HasConfigFields(c)
    ensures r.result.Ok? ==> Attaches(r.calls) == |targets|
    ensures org.attached <= r.org.attached
    ensures WellFormed(org) ==> WellFormed(r.org)
    ensures r.calls != []
  {
    var made := CreateOrUpdate(org, f, PolicyName(tier, c), c[PolicyKey], Render(c[DescriptionKey]));
    if made.result.Err? then Outcome(made.org, made.calls, Err(made.result.error))
    else
      var attached := AttachAll(made.org, f, made.result.value, targets);
      AttachesOfMade(made.calls);
      AttachesAppend(made.calls, attached.calls);
      Outcome(attached.org, made.calls + attached.calls,
              if attached.result.Err? then Err(attached.result.error) else Ok(made.result.value))
  }

  /** `a * b` as repeated addition, which keeps multiplication out of the deployment proofs. */
  function Times(a: nat, b: nat): nat {
    if a == 0 then 0 else Times(a - 1, b) + b
  }

  lemma {:induction false} TimesIsProduct(a: nat, b: nat)
    ensures Times(a, b) == a * b
  {
    if a > 0 {
      TimesIsProduct(a - 1, b);
    }
  }

  lemma AttachesOfMade(calls: seq<Call>)
    requires forall i :: 0 <= i < |calls| ==> !calls[i].AttachPolicy?
    ensures Attaches(calls) == 0
  {
    if calls != [] {
      AttachesOfMade(calls[1..]);
    }
  }

  /** Validated configurations carry the three fields deployment reads. */
  lemma ValidatedHaveFields(cs: seq<PolicyConfig>, length: Json -> nat)
    requires ValidatePolicies(cs, length).Ok?
    ensures forall i :: 0 <= i < |cs| ==> HasConfigFields(cs[i])
  {
    forall i | 0 <= i < |cs| ensures HasConfigFields(cs[i]) {
      assert PolicyAcceptable(cs[i], length);
    }
  }

  const TierFailurePrefix := "Failed to deploy SCP tier '"

  function WrapTier(tier: string, msg: string): (r: string)
    ensures Text.StartsWith(r, TierFailurePrefix)
  {
    var p := TierFailurePrefix;
    assert (p + (tier + "': " + msg))[..|p|] == p;
    p + (tier + "': " + msg)
  }

  /**
   * deploy_scp_tier: the tier name is checked first, then the tier's
   * configurations are loaded and all validated before any remote call;
   * only then are the policies deployed. Every failure after the tier
   * check is reported as a failure to deploy that tier.
   */
  function DeployTier(org: Org, f: Faults, load: string -> Result<seq<PolicyConfig>, string>,
                      length: Json -> nat, tier: string, targets: seq<string>)
    : (r: Outcome<map<string, nat>>)
    ensures !IsTier(tier) ==> r == Outcome(org, [], Err(InvalidTier(tier)))
    ensures r.calls != [] ==> IsTier(tier) && load(tier).Ok? && ValidatePolicies(load(tier).value, length).Ok?
    ensures r.calls == [] ==> r.org == org
    ensures WellFormed(org) ==> WellFormed(r.org)
    ensures r.result.Err? ==> r.result.error == InvalidTier(tier) || Text.StartsWith(r.result.error, TierFailurePrefix)
    ensures r.result.Ok? ==> (IsTier(tier) && load(tier).Ok?
                              && r.result.value.Keys == PolicyNames(tier, load(tier).value)
                              && Attaches(r.calls) == |load(tier).value| * |targets|)
  {
    if !IsTier(tier) then Outcome(org, [], Err(InvalidTier(tier)))
    else match load(tier)
      case Err(msg) => Outcome(org, [], Err(WrapTier(tier, msg)))
      case Ok(cs) =>
        match ValidatePolicies(cs, length)
        case Err(msg) => Outcome(org, [], Err(WrapTier(tier, msg)))
        case Ok(_) =>
          ValidatedHaveFields(cs, length);
          var r := DeployPolicies(org, f, tier, targets, cs, map[]);
          DeployRecordsAll(org, f, tier, targets, cs, map[]);
          TimesIsProduct(|cs|, |targets|);
          if r.result.Err? then Outcome(r.org, r.calls, Err(WrapTier(tier, r.result.error)))
          else r
  }

  // ---------------------------------------------------------------------
  // Redeploying is a fixpoint
  // ---------------------------------------------------------------------

  /** The store already holds the policy of configuration `c` as deployed, attached to every target. */
  predicate Deployed(org: Org, tier: string, targets: seq<string>, c: PolicyConfig)
    requires HasConfigFields(c)
  {
    var k := FindByName(org.policies, PolicyName(tier, c));
    && k.Some?
    && org.policies[k.value].content == c[PolicyKey]
    && org.policies[k.value].description == Render(c[DescriptionKey])
    && forall j :: 0 <= j < |targets| ==> (org.policies[k.value].id, targets[j]) in org.attached
  }

  /** The id the store holds for `name` (0 when there is none). */
  function IdOf(org: Org, name: string): nat {
    match FindByName(org.policies, name)
    case Some(k) => org.policies[k].id
    case None => 0
  }

  /** The name-to-id map deploying `cs` onto `acc` yields when every id is read from `org`. */
  function IdsOf(org: Org, tier: string, cs: seq<PolicyConfig>, acc: map<string, nat>): map<string, nat>
    decreases |cs|
  {
    if cs == [] then acc
    else IdsOf(org, tier, cs[1..], acc[PolicyName(tier, cs[0]) := IdOf(org, PolicyName(tier, cs[0]))])
  }

  /** Attaching a policy to targets it is already attached to changes nothing. */
  lemma {:induction false} AttachAllAlreadyAttached(org: Org, f: Faults, pid: nat, ous: seq<string>)
    requires forall j :: 0 <= j < |ous| ==> (pid, ous[j]) in org.attached
    ensures AttachAll(org, f, pid, ous).org == org
    ensures AttachAll(org, f, pid, ous).result.Ok?
    decreases |ous|
  {
    if ous != [] {
      assert (pid, ous[0]) in org.attached;
      assert Attach(org, f, pid, ous[0]).org == org;
      AttachAllAlreadyAttached(org, f, pid, ous[1..]);
    }
  }

  /** Without faults, a policy is attached to every target. */
  lemma NoFaultsAttachesAll(org: Org, pid: nat, ous: seq<string>)
    ensures AttachAll(org, NoFaults, pid, ous).result.Ok?
    ensures forall j :: 0 <= j < |ous| ==> (pid, ous[j]) in AttachAll(org, NoFaults, pid, ous).org.attached
  {
    assert forall i :: 0 <= i < |ous| ==> !AttachFailsAt(org, NoFaults, pid, ous, i);
  }

  /**
   * Deploying configurations of other names keeps the policy named `n`
   * where it was and keeps every attachment, whatever the faults.
   */
  lemma {:induction false} DeployKeepsOthers(org: Org, f: Faults, tier: string, targets: seq<string>,
                                            cs: seq<PolicyConfig>, acc: map<string, nat>, n: string)
    requires forall i :: 0 <= i < |cs| ==> HasConfigFields(cs[i])
    requires forall i :: 0 <= i < |cs| ==> PolicyName(tier, cs[i]) != n
    ensures Keeps(org, DeployPolicies(org, f, tier, targets, cs, acc).org, n)
    decreases |cs|
  {
    if cs != [] {
      var c := cs[0];
      assert HasConfigFields(c);
      var name := PolicyName(tier, c);
      var made := CreateOrUpdate(org, f, name, c[PolicyKey], Render(c[DescriptionKey]));
      CreateOrUpdateKeepsOthers(org, f, name, c[PolicyKey], Render(c[DescriptionKey]), n);
      if made.result.Ok? {
        var attached := AttachAll(made.org, f, made.result.value, targets);
        assert Keeps(made.org, attached.org, n);
        KeepsTransitive(org, made.org, attached.org, n);
        if attached.result.Ok? {
          var rest := DeployPolicies(attached.org, f, tier, targets, cs[1..], acc[name := made.result.value]);
          DeployKeepsOthers(attached.org, f, tier, targets, cs[1..], acc[name := made.result.value], n);
          KeepsTransitive(org, attached.org, rest.org, n);
        }
      }
    }
  }

  /**
   * Configuration `i` is the last of `cs` deploying under its name, so its
   * description and content are the ones that stay: each write replaces
   * what an earlier configuration of the same name wrote.
   */
  predicate LastOfName(tier: string, cs: seq<PolicyConfig>, i: int)
    requires 0 <= i < |cs|
  {
    forall j :: i < j < |cs| ==> PolicyName(tier, cs[j]) != PolicyName(tier, cs[i])
  }

  /** The store holds a policy named `name`, attached to every target. */
  predicate Present(org: Org, name: string, targets: seq<string>) {
    var k := FindByName(org.policies, name);
    k.Some? && forall j :: 0 <= j < |targets| ==> (org.policies[k.value].id, targets[j]) in org.attached
  }

  /**
   * A fault-free deployment keeps an existing policy of name `n` where it
   * is, with its id, and keeps it attached wherever it was.
   */
  lemma {:induction false} DeployKeepsSlot(org: Org, tier: string, targets: seq<string>,
                                          cs: seq<PolicyConfig>, acc: map<string, nat>, n: string)
    requires forall i :: 0 <= i < |cs| ==> HasConfigFields(cs[i])
    requires FindByName(org.policies, n).Some?
    ensures var r := DeployPolicies(org, NoFaults, tier, targets, cs, acc);
            && FindByName(r.org.policies, n) == FindByName(org.policies, n)
            && IdOf(r.org, n) == IdOf(org, n)
            && (Present(org, n, targets) ==> Present(r.org, n, targets))
    decreases |cs|
  {
    if cs != [] {
      var c := cs[0];
      assert HasConfigFields(c);
      var name := PolicyName(tier, c);
      var made := CreateOrUpdate(org, NoFaults, name, c[PolicyKey], Render(c[DescriptionKey]));
      if name == n {
        var k := FindByName(org.policies, n).value;
        var updated := org.policies[k].(description := Render(c[DescriptionKey]), content := c[PolicyKey]);
        assert made.org.policies == org.policies[k := updated];
        FindByNameAfterUpdate(org.policies, k, updated, n);
      } else {
        CreateOrUpdateKeepsOthers(org, NoFaults, name, c[PolicyKey], Render(c[DescriptionKey]), n);
      }
      var attached := AttachAll(made.org, NoFaults, made.result.value, targets);
      DeployKeepsSlot(attached.org, tier, targets, cs[1..], acc[name := made.result.value], n);
    }
  }

  /** Without faults, one configuration is deployed, and the id returned is the one the store holds for its name. */
  lemma DeployOneEstablishes(org: Org, tier: string, targets: seq<string>, c: PolicyConfig)
    requires HasConfigFields(c)
    ensures var one := DeployOne(org, NoFaults, tier, targets, c);
            && one.result.Ok?
            && Deployed(one.org, tier, targets, c)
            && IdOf(one.org, PolicyName(tier, c)) == one.result.value
  {
    var made := CreateOrUpdate(org, NoFaults, PolicyName(tier, c), c[PolicyKey], Render(c[DescriptionKey]));
    NoFaultsAttachesAll(made.org, made.result.value, targets);
  }

  /**
   * The facts about the tail, shifted by one, together with the facts
   * about the first configuration, are the facts about the whole list.
   */
  lemma EstablishedShift(org: Org, tier: string, targets: seq<string>, cs: seq<PolicyConfig>)
    requires cs != [] && forall i :: 0 <= i < |cs| ==> HasConfigFields(cs[i])
    requires LastOfName(tier, cs, 0) ==> Deployed(org, tier, targets, cs[0])
    requires Present(org, PolicyName(tier, cs[0]), targets)
    requires forall i :: 0 <= i < |cs[1..]| && LastOfName(tier, cs[1..], i) ==> Deployed(org, tier, targets, cs[1..][i])
    requires forall i :: 0 <= i < |cs[1..]| ==> Present(org, PolicyName(tier, cs[1..][i]), targets)
    ensures forall i :: 0 <= i < |cs| && LastOfName(tier, cs, i) ==> Deployed(org, tier, targets, cs[i])
    ensures forall i :: 0 <= i < |cs| ==> Present(org, PolicyName(tier, cs[i]), targets)
  {
    var tail := cs[1..];
    forall i | 0 < i < |cs| && LastOfName(tier, cs, i) ensures Deployed(org, tier, targets, cs[i]) {
      assert cs[i] == tail[i - 1];
      assert LastOfName(tier, tail, i - 1);
    }
    forall i | 0 < i < |cs| ensures Present(org, PolicyName(tier, cs[i]), targets) {
      assert cs[i] == tail[i - 1];
    }
  }

  /**
   * A fault-free deployment succeeds, leaves the last configuration of
   * each name deployed and every configured name present on every target,
   * and returns the ids the final store holds for the names.
   */
  lemma {:induction false} DeployEstablishes(org: Org, tier: string, targets: seq<string>,
                                            cs: seq<PolicyConfig>, acc: map<string, nat>)
    requires forall i :: 0 <= i < |cs| ==> HasConfigFields(cs[i])
    ensures var r := DeployPolicies(org, NoFaults, tier, targets, cs, acc);
            && r.result.Ok?
            && (forall i :: 0 <= i < |cs| && LastOfName(tier, cs, i) ==> Deployed(r.org, tier, targets, cs[i]))
            && (forall i :: 0 <= i < |cs| ==> Present(r.org, PolicyName(tier, cs[i]), targets))
            && r.result.value == IdsOf(r.org, tier, cs, acc)
    decreases |cs|
  {
    if cs != [] {
      var c := cs[0];
      assert HasConfigFields(c);
      var name := PolicyName(tier, c);
      var one := DeployOne(org, NoFaults, tier, targets, c);
      DeployOneEstablishes(org, tier, targets, c);
      var id := one.result.value;
      var tail := cs[1..];
      var rest := DeployPolicies(one.org, NoFaults, tier, targets, tail, acc[name := id]);
      DeployEstablishes(one.org, tier, targets, tail, acc[name := id]);
      DeployKeepsSlot(one.org, tier, targets, tail, acc[name := id], name);
      assert DeployPolicies(org, NoFaults, tier, targets, cs, acc) == Outcome(rest.org, one.calls + rest.calls, rest.result);
      if LastOfName(tier, cs, 0) {
        DeployKeepsOthers(one.org, NoFaults, tier, targets, tail, acc[name := id], name);
      }
      EstablishedShift(rest.org, tier, targets, cs);
    }
  }

  /** Two policies agree in id, name and vendor flag; description and content may differ. */
  predicate SameShape(p: Policy, q: Policy) {
    p.id == q.id && p.name == q.name && p.awsManaged == q.awsManaged
  }

  /** Position `k` of `target` holds the policy some configuration of `cs` writes. */
  predicate Rewritten(target: Org, tier: string, cs: seq<PolicyConfig>, k: nat) {
    exists i :: 0 <= i < |cs| && FindByName(target.policies, PolicyName(tier, cs[i])) == Some(k)
  }

  /**
   * `org` differs from `target` only in the descriptions and contents of
   * policies that deploying `cs` is still going to write.
   */
  predicate PendingRewrites(org: Org, target: Org, tier: string, cs: seq<PolicyConfig>) {
    && org.attached == target.attached && org.nextId == target.nextId
    && |org.policies| == |target.policies|
    && forall k :: 0 <= k < |org.policies| ==>
         SameShape(org.policies[k], target.policies[k])
         && (org.policies[k] == target.policies[k] || Rewritten(target, tier, cs, k))
  }

  /** Stores whose policies carry the same names position by position find every name at the same place. */
  lemma FindByNameSameNames(ps: seq<Policy>, qs: seq<Policy>, name: string)
    requires |ps| == |qs| && forall k :: 0 <= k < |ps| ==> ps[k].name == qs[k].name
    ensures FindByName(ps, name) == FindByName(qs, name)
  {
    match FindByName(qs, name)
    case Some(k) => FindByNameIs(ps, name, k);
    case None => assert forall j :: 0 <= j < |ps| ==> ps[j].name != name;
  }

  /**
   * Writing the first configuration into the slot of its name settles that
   * slot for good when no later configuration shares the name; otherwise
   * a later one writes it again.
   */
  lemma RewriteStep(org: Org, target: Org, tier: string, targets: seq<string>, cs: seq<PolicyConfig>,
                    k: nat, updated: Policy)
    requires cs != [] && HasConfigFields(cs[0])
    requires PendingRewrites(org, target, tier, cs)
    requires FindByName(target.policies, PolicyName(tier, cs[0])) == Some(k)
    requires LastOfName(tier, cs, 0) ==> Deployed(target, tier, targets, cs[0])
    requires k < |org.policies|
    requires updated == org.policies[k].(description := Render(cs[0][DescriptionKey]), content := cs[0][PolicyKey])
    ensures PendingRewrites(org.(policies := org.policies[k := updated]), target, tier, cs[1..])
  {
    var o2 := org.(policies := org.policies[k := updated]);
    var tail := cs[1..];
    forall j | 0 <= j < |o2.policies|
      ensures o2.policies[j] == target.policies[j] || Rewritten(target, tier, tail, j)
    {
      if j == k {
        if !LastOfName(tier, cs, 0) {
          var m :| 0 < m < |cs| && PolicyName(tier, cs[m]) == PolicyName(tier, cs[0]);
          assert tail[m - 1] == cs[m];
        }
      } else if o2.policies[j] != target.policies[j] {
        assert Rewritten(target, tier, cs, j);
        var i :| 0 <= i < |cs| && FindByName(target.policies, PolicyName(tier, cs[i])) == Some(j);
        assert i != 0;
        assert tail[i - 1] == cs[i];
      }
    }
  }

  /**
   * Deploying `cs` without faults onto a store that differs from `target`
   * only in slots `cs` rewrites yields `target` itself, when `target`
   * already holds the last configuration of each name and every name is
   * attached to every target; the result reads the ids off `target`.
   */
  lemma {:induction false} DeployRestores(org: Org, target: Org, tier: string, targets: seq<string>,
                                         cs: seq<PolicyConfig>, acc: map<string, nat>)
    requires forall i :: 0 <= i < |cs| ==> HasConfigFields(cs[i])
    requires PendingRewrites(org, target, tier, cs)
    requires forall i :: 0 <= i < |cs| && LastOfName(tier, cs, i) ==> Deployed(target, tier, targets, cs[i])
    requires forall i :: 0 <= i < |cs| ==> Present(target, PolicyName(tier, cs[i]), targets)
    ensures DeployPolicies(org, NoFaults, tier, targets, cs, acc).org == target
    ensures DeployPolicies(org, NoFaults, tier, targets, cs, acc).result == Ok(IdsOf(target, tier, cs, acc))
    decreases |cs|
  {
    if cs == [] {
      NothingPending(org, target, tier);
    } else {
      var c := cs[0];
      assert HasConfigFields(c) && Present(target, PolicyName(tier, c), targets);
      var name := PolicyName(tier, c);
      var one := DeployOne(org, NoFaults, tier, targets, c);
      DeployOneRewrites(org, target, tier, targets, cs);
      var tail := cs[1..];
      RestoredShift(target, tier, targets, cs);
      var rest := DeployPolicies(one.org, NoFaults, tier, targets, tail, acc[name := IdOf(target, name)]);
      DeployRestores(one.org, target, tier, targets, tail, acc[name := IdOf(target, name)]);
      assert DeployPolicies(org, NoFaults, tier, targets, cs, acc) == Outcome(rest.org, one.calls + rest.calls, rest.result);
    }
  }

  /** With nothing left to rewrite, the store is the target. */
  lemma NothingPending(org: Org, target: Org, tier: string)
    requires PendingRewrites(org, target, tier, [])
    ensures org == target
  {
    assert org.policies == target.policies;
  }

  /** What the whole list asks of the target, the tail asks too. */
  lemma RestoredShift(target: Org, tier: string, targets: seq<string>, cs: seq<PolicyConfig>)
    requires cs != [] && forall i :: 0 <= i < |cs| ==> HasConfigFields(cs[i])
    requires forall i :: 0 <= i < |cs| && LastOfName(tier, cs, i) ==> Deployed(target, tier, targets, cs[i])
    requires forall i :: 0 <= i < |cs| ==> Present(target, PolicyName(tier, cs[i]), targets)
    ensures forall i :: 0 <= i < |cs[1..]| && LastOfName(tier, cs[1..], i) ==> Deployed(target, tier, targets, cs[1..][i])
    ensures forall i :: 0 <= i < |cs[1..]| ==> Present(target, PolicyName(tier, cs[1..][i]), targets)
  {
    var tail := cs[1..];
    forall i | 0 <= i < |tail| && LastOfName(tier, tail, i) ensures Deployed(target, tier, targets, tail[i]) {
      assert tail[i] == cs[i + 1];
      assert LastOfName(tier, cs, i + 1);
    }
    forall i | 0 <= i < |tail| ensures Present(target, PolicyName(tier, tail[i]), targets) {
      assert tail[i] == cs[i + 1];
    }
  }

  /**
   * Deploying the first configuration onto such a store rewrites the slot
   * of its name, attaches nothing new, and returns the target's id.
   */
  lemma DeployOneRewrites(org: Org, target: Org, tier: string, targets: seq<string>, cs: seq<PolicyConfig>)
    requires cs != [] && HasConfigFields(cs[0])
    requires PendingRewrites(org, target, tier, cs)
    requires LastOfName(tier, cs, 0) ==> Deployed(target, tier, targets, cs[0])
    requires Present(target, PolicyName(tier, cs[0]), targets)
    ensures var one := DeployOne(org, NoFaults, tier, targets, cs[0]);
            && one.result == Ok(IdOf(target, PolicyName(tier, cs[0])))
            && PendingRewrites(one.org, target, tier, cs[1..])
  {
    var c := cs[0];
    var name := PolicyName(tier, c);
    var k := FindByName(target.policies, name).value;
    FindByNameSameNames(org.policies, target.policies, name);
    var updated := org.policies[k].(description := Render(c[DescriptionKey]), content := c[PolicyKey]);
    var made := CreateOrUpdate(org, NoFaults, name, c[PolicyKey], Render(c[DescriptionKey]));
    assert made.org == org.(policies := org.policies[k := updated]);
    assert made.result == Ok(IdOf(target, name));
    AttachAllAlreadyAttached(made.org, NoFaults, IdOf(target, name), targets);
    RewriteStep(org, target, tier, targets, cs, k, updated);
  }

  /**
   * Deploying onto a store that already holds the last configuration of
   * each name, every name attached to every target, changes nothing and
   * returns the existing ids.
   */
  lemma DeployStays(org: Org, tier: string, targets: seq<string>, cs: seq<PolicyConfig>, acc: map<string, nat>)
    requires forall i :: 0 <= i < |cs| ==> HasConfigFields(cs[i])
    requires forall i :: 0 <= i < |cs| && LastOfName(tier, cs, i) ==> Deployed(org, tier, targets, cs[i])
    requires forall i :: 0 <= i < |cs| ==> Present(org, PolicyName(tier, cs[i]), targets)
    ensures DeployPolicies(org, NoFaults, tier, targets, cs, acc).org == org
    ensures DeployPolicies(org, NoFaults, tier, targets, cs, acc).result == Ok(IdsOf(org, tier, cs, acc))
  {
    DeployRestores(org, org, tier, targets, cs, acc);
  }

  /**
   * Idempotence of deploy_scp_tier: without faults, deploying a valid
   * tier succeeds, and deploying it again on the resulting store changes
   * nothing and returns the same ids. Configurations sharing a name are
   * allowed: the second run rewrites their slot in the same order, so the
   * last one's description and content are what remains.
   */
  lemma RedeployIsFixpoint(org: Org, load: string -> Result<seq<PolicyConfig>, string>,
                           length: Json -> nat, tier: string, targets: seq<string>)
    requires IsTier(tier) && load(tier).Ok? && ValidatePolicies(load(tier).value, length).Ok?
    ensures DeployTier(org, NoFaults, load, length, tier, targets).result.Ok?
    ensures var once := DeployTier(org, NoFaults, load, length, tier, targets);
            var twice := DeployTier(once.org, NoFaults, load, length, tier, targets);
            twice.org == once.org && twice.result == once.result
  {
    var cs := load(tier).value;
    ValidatedHaveFields(cs, length);
    var once := DeployPolicies(org, NoFaults, tier, targets, cs, map[]);
    DeployEstablishes(org, tier, targets, cs, map[]);
    DeployStays(once.org, tier, targets, cs, map[]);
  }

  // ---------------------------------------------------------------------
  // Cleanup
  // ---------------------------------------------------------------------

  /** A policy cleanup removes: its name carries the prefix and it is not vendor-managed. */
  predicate Matches(p: Policy, prefix: string) {
    Text.StartsWith(p.name, prefix) && !p.awsManaged
  }

  /** The policies cleanup leaves, in order. */
  function Survivors(ps: seq<Policy>, prefix: string): (r: seq<Policy>)
    ensures |r| <= |ps|
    ensures forall i :: 0 <= i < |r| ==> !Matches(r[i], prefix)
  {
    if ps == [] then []
    else if Matches(ps[0], prefix) then Survivors(ps[1..], prefix)
    else [ps[0]] + Survivors(ps[1..], prefix)
  }

  /** How many policies cleanup removes. */
  function CountMatching(ps: seq<Policy>, prefix: string): (n: nat)
    ensures n + |Survivors(ps, prefix)| == |ps|
  {
    if ps == [] then 0 else (if Matches(ps[0], prefix) then 1 else 0) + CountMatching(ps[1..], prefix)
  }

  /**
   * _detach_policy_from_all_targets: pages through the policy's targets and
   * detaches each as its page arrives; a target whose detach fails is
   * skipped and the rest are still detached. A listing that fails on a
   * later page stops there: targets on the pages already received have
   * been detached, the others stay. Never raises.
   */
  function DetachAll(org: Org, f: Faults, pid: nat): (r: Outcome<()>)
    ensures r.result.Ok? && r.calls == [ListTargets(pid)]
    ensures r.org.policies == org.policies && r.org.nextId == org.nextId
    ensures forall x :: x in r.org.attached <==>
              x in org.attached
              && (x.0 != pid || f.detachError(pid, x.1).Some?
                  || (f.listTargetsError(pid).Some? && x.1 !in f.listTargetsError(pid).value.received))
  {
    var reached := (t: string) => f.listTargetsError(pid).None? || t in f.listTargetsError(pid).value.received;
    var left := set x | x in org.attached && (x.0 != pid || f.detachError(pid, x.1).Some? || !reached(x.1));
    Outcome(org.(attached := left), [ListTargets(pid)], Ok(()))
  }

  /** The policies other than the one with id `pid`. */
  function RemoveId(ps: seq<Policy>, pid: nat): (r: seq<Policy>)
    ensures forall i :: 0 <= i < |r| ==> r[i].id != pid
  {
    if ps == [] then []
    else if ps[0].id == pid then RemoveId(ps[1..], pid)
    else [ps[0]] + RemoveId(ps[1..], pid)
  }

  /** Removal only drops policies: whatever is left was there before. */
  lemma {:induction false} RemoveIdFrom(ps: seq<Policy>, pid: nat)
    ensures forall q :: q in RemoveId(ps, pid) ==> q in ps
  {
    if ps != [] {
      RemoveIdFrom(ps[1..], pid);
      assert forall q :: q in ps[1..] ==> q in ps;
    }
  }

  /** Removal keeps the ids unique. */
  lemma {:induction false} RemoveIdUnique(ps: seq<Policy>, pid: nat)
    requires UniqueIds(ps)
    ensures UniqueIds(RemoveId(ps, pid))
  {
    if ps != [] {
      UniqueIdsTail(ps);
      RemoveIdUnique(ps[1..], pid);
      if ps[0].id != pid {
        var rest := RemoveId(ps[1..], pid);
        var r := [ps[0]] + rest;
        RemoveIdFrom(ps[1..], pid);
        forall i, j | 0 <= i < j < |r| ensures r[i].id != r[j].id {
          assert r[j] == rest[j - 1];
          if i == 0 {
            assert rest[j - 1] in RemoveId(ps[1..], pid);
            var k :| 0 <= k < |ps[1..]| && ps[1..][k] == rest[j - 1];
          } else {
            assert r[i] == rest[i - 1];
          }
        }
      }
    }
  }

  /** Removing a policy from a well-formed store leaves it well-formed. */
  lemma RemoveIdKeepsWellFormed(org: Org, pid: nat)
    ensures WellFormed(org) ==>
      WellFormed(Org(RemoveId(org.policies, pid), (set x | x in org.attached && x.0 != pid), org.nextId))
  {
    if WellFormed(org) {
      var r := RemoveId(org.policies, pid);
      RemoveIdUnique(org.policies, pid);
      RemoveIdFrom(org.policies, pid);
      forall i | 0 <= i < |r| ensures r[i].id < org.nextId {
        assert r[i] in r;
        var k :| 0 <= k < |org.policies| && org.policies[k] == r[i];
      }
    }
  }

  /**
   * delete_policy in the simulated store: an injected fault raises,
   * otherwise the policy and whatever attachments it still has go.
   */
  function Delete(org: Org, f: Faults, pid: nat): (r: Outcome<()>)
    ensures r.calls == [DeletePolicy(pid)]
    ensures r.result.Err? <==> f.deleteError(pid).Some?
    ensures r.result.Err? ==> r.org == org
    ensures r.result.Ok? ==> r.org.policies == RemoveId(org.policies, pid)
    ensures WellFormed(org) ==> WellFormed(r.org)
  {
    RemoveIdKeepsWellFormed(org, pid);
    match f.deleteError(pid)
    case Some(e) => Outcome(org, [DeletePolicy(pid)], Err(Describe(e, "DeletePolicy")))
    case None =>
      var left := set x | x in org.attached && x.0 != pid;
      Outcome(Org(RemoveId(org.policies, pid), left, org.nextId), [DeletePolicy(pid)], Ok(()))
  }

  /** The cleanup loop over a listing, counting deletions from `count`. */
  function CleanupLoop(org: Org, f: Faults, listing: seq<Policy>, prefix: string, count: nat): (r: Outcome<nat>)
    ensures r.result.Ok? ==> r.result.value == count + CountMatching(listing, prefix)
    ensures r.result.Err? ==> exists i :: 0 <= i < |listing| && Matches(listing[i], prefix)
                                         && f.deleteError(listing[i].id).Some?
    ensures WellFormed(org) ==> WellFormed(r.org)
    decreases |listing|
  {
    if listing == [] then Outcome(org, [], Ok(count))
    else
      var p := listing[0];
      if Matches(p, prefix) then
        var detached := DetachAll(org, f, p.id);
        var deleted := Delete(detached.org, f, p.id);
        if deleted.result.Err? then Outcome(deleted.org, detached.calls + deleted.calls, Err(deleted.result.error))
        else
          var rest := CleanupLoop(deleted.org, f, listing[1..], prefix, count + 1);
          Outcome(rest.org, detached.calls + deleted.calls + rest.calls, rest.result)
      else
        var rest := CleanupLoop(org, f, listing[1..], prefix, count);
        Outcome(rest.org, rest.calls, rest.result)
  }

  /**
   * cleanup_policies: lists the policies once, then detaches and deletes
   * every one that matches the prefix and is not vendor-managed, and
   * returns how many it deleted. The first failed delete ends the
   * cleanup.
   */
  function Cleanup(org: Org, f: Faults, prefix: string): (r: Outcome<nat>)
    ensures r.result.Ok? ==> r.result.value == CountMatching(org.policies, prefix)
    ensures r.result.Ok? ==> f.listError.None?
    ensures r.result.Err? ==> Text.StartsWith(r.result.error, CleanupFailurePrefix)
    ensures WellFormed(org) ==> WellFormed(r.org)
    ensures |r.calls| > 0 && r.calls[0] == ListPolicies
  {
    if f.listError.Some? then
      Outcome(org, [ListPolicies], Err(CleanupFailure(ListFailure(f.listError.value))))
    else
      var loop := CleanupLoop(org, f, org.policies, prefix, 0);
      var result := if loop.result.Err? then Err(CleanupFailure(loop.result.error)) else loop.result;
      Outcome(loop.org, [ListPolicies] + loop.calls, result)
  }

  const CleanupFailurePrefix := "Failed to cleanup policies: "

  function CleanupFailure(msg: string): (r: string)
    ensures Text.StartsWith(r, CleanupFailurePrefix)
  {
    var p := CleanupFailurePrefix;
    assert (p + msg)[..|p|] == p;
    p + msg
  }

  lemma {:induction false} RemoveIdAbsent(ps: seq<Policy>, pid: nat)
    requires forall i :: 0 <= i < |ps| ==> ps[i].id != pid
    ensures RemoveId(ps, pid) == ps
  {
    if ps != [] {
      RemoveIdAbsent(ps[1..], pid);
    }
  }

  /** With ids unique, removing the id of the first listed policy removes just that policy. */
  lemma RemoveIdFirst(pre: seq<Policy>, listing: seq<Policy>)
    requires |listing| > 0
    requires UniqueIds(pre + listing)
    ensures RemoveId(pre + listing, listing[0].id) == pre + listing[1..]
  {
    var pid := listing[0].id;
    var whole := pre + listing;
    forall i | 0 <= i < |pre| ensures pre[i].id != pid {
      assert whole[i] == pre[i] && whole[|pre|] == listing[0];
    }
    RemoveIdSkipsPrefix(pre, listing, pid);
    assert whole[|pre|..] == listing;
    UniqueIdsTail(listing);
    RemoveIdAbsent(listing[1..], pid);
    assert RemoveId(listing, pid) == listing[1..];
  }

  /** Removing an id none of `pre` carries leaves `pre` in front untouched. */
  lemma {:induction false} RemoveIdSkipsPrefix(pre: seq<Policy>, rest: seq<Policy>, pid: nat)
    requires forall i :: 0 <= i < |pre| ==> pre[i].id != pid
    ensures RemoveId(pre + rest, pid) == pre + RemoveId(rest, pid)
  {
    if pre != [] {
      var whole := pre + rest;
      assert whole[0] == pre[0] && whole[1..] == pre[1..] + rest;
      RemoveIdSkipsPrefix(pre[1..], rest, pid);
      assert RemoveId(whole, pid) == [pre[0]] + (pre[1..] + RemoveId(rest, pid));
      assert pre == [pre[0]] + pre[1..];
    } else {
      assert pre + rest == rest;
    }
  }

  /** Dropping the head of a list with unique ids keeps them unique, and none of the rest shares the head's id. */
  lemma UniqueIdsTail(ps: seq<Policy>)
    requires |ps| > 0 && UniqueIds(ps)
    ensures UniqueIds(ps[1..])
    ensures forall i :: 0 <= i < |ps[1..]| ==> ps[1..][i].id != ps[0].id
  {
    var tail := ps[1..];
    forall i, j | 0 <= i < j < |tail| ensures tail[i].id != tail[j].id {
      assert tail[i] == ps[i + 1] && tail[j] == ps[j + 1];
    }
    forall i | 0 <= i < |tail| ensures tail[i].id != ps[0].id {
      assert tail[i] == ps[i + 1];
    }
  }

  lemma UniqueIdsDropFirst(pre: seq<Policy>, listing: seq<Policy>)
    requires |listing| > 0 && UniqueIds(pre + listing)
    ensures UniqueIds(pre + listing[1..])
  {
    var whole := pre + listing;
    var part := pre + listing[1..];
    forall i, j | 0 <= i < j < |part| ensures part[i].id != part[j].id {
      var i' := if i < |pre| then i else i + 1;
      var j' := if j < |pre| then j else j + 1;
      assert part[i] == whole[i'] && part[j] == whole[j'];
    }
  }

  /**
   * Walking a listing that is the tail of the store's policies, a
   * successful cleanup leaves the policies before it and the survivors
   * of the listing.
   */
  lemma {:induction false} CleanupLoopLeavesSurvivors(org: Org, f: Faults, listing: seq<Policy>, prefix: string,
                                                     count: nat, pre: seq<Policy>)
    requires org.policies == pre + listing
    requires UniqueIds(pre + listing)
    ensures CleanupLoop(org, f, listing, prefix, count).result.Ok? ==>
              CleanupLoop(org, f, listing, prefix, count).org.policies == pre + Survivors(listing, prefix)
    decreases |listing|
  {
    var r := CleanupLoop(org, f, listing, prefix, count);
    if listing == [] {
      assert pre + [] == pre;
    } else if r.result.Ok? {
      var p := listing[0];
      if Matches(p, prefix) {
        var next := CleanupMatchStep(org, f, listing, prefix, count);
        RemoveIdFirst(pre, listing);
        UniqueIdsDropFirst(pre, listing);
        CleanupLoopLeavesSurvivors(next, f, listing[1..], prefix, count + 1, pre);
      } else {
        CleanupSkipStep(org, f, listing, prefix, count, pre);
        CleanupLoopLeavesSurvivors(org, f, listing[1..], prefix, count, pre + [p]);
      }
    }
  }

  /**
   * One policy that does not match: the cleanup skips it, and it moves
   * from the listing to the part of the store already walked.
   */
  lemma CleanupSkipStep(org: Org, f: Faults, listing: seq<Policy>, prefix: string, count: nat, pre: seq<Policy>)
    requires listing != [] && !Matches(listing[0], prefix)
    ensures CleanupLoop(org, f, listing, prefix, count) == CleanupLoop(org, f, listing[1..], prefix, count)
    ensures pre + listing == (pre + [listing[0]]) + listing[1..]
    ensures pre + Survivors(listing, prefix) == (pre + [listing[0]]) + Survivors(listing[1..], prefix)
  {
    var p, rest := listing[0], listing[1..];
    assert listing == [p] + rest;
    assert Survivors(listing, prefix) == [p] + Survivors(rest, prefix);
    ConcatShift(pre, p, rest);
    ConcatShift(pre, p, Survivors(rest, prefix));
  }

  lemma ConcatShift(pre: seq<Policy>, p: Policy, rest: seq<Policy>)
    ensures pre + ([p] + rest) == (pre + [p]) + rest
  {
  }

  /**
   * One matching policy in a successful cleanup: it is deleted, and the
   * cleanup carries on from the store without it.
   */
  lemma CleanupMatchStep(org: Org, f: Faults, listing: seq<Policy>, prefix: string, count: nat)
    returns (next: Org)
    requires listing != [] && Matches(listing[0], prefix)
    requires CleanupLoop(org, f, listing, prefix, count).result.Ok?
    ensures next.policies == RemoveId(org.policies, listing[0].id)
    ensures CleanupLoop(next, f, listing[1..], prefix, count + 1).result.Ok?
    ensures CleanupLoop(org, f, listing, prefix, count).org == CleanupLoop(next, f, listing[1..], prefix, count + 1).org
  {
    var detached := DetachAll(org, f, listing[0].id);
    var deleted := Delete(detached.org, f, listing[0].id);
    next := deleted.org;
  }

  /**
   * A successful cleanup leaves exactly the policies that do not match,
   * in their listed order: every vendor-managed policy and every policy
   * without the prefix survives, and nothing else does.
   */
  lemma CleanupLeavesSurvivors(org: Org, f: Faults, prefix: string)
    requires UniqueIds(org.policies)
    ensures Cleanup(org, f, prefix).result.Ok? ==>
              Cleanup(org, f, prefix).org.policies == Survivors(org.policies, prefix)
  {
    if f.listError.None? {
      var loop := CleanupLoop(org, f, org.policies, prefix, 0);
      assert [] + org.policies == org.policies;
      CleanupLoopLeavesSurvivors(org, f, org.policies, prefix, 0, []);
      if loop.result.Ok? {
        assert Cleanup(org, f, prefix).org == loop.org;
        assert [] + Survivors(org.policies, prefix) == Survivors(org.policies, prefix);
      }
    }
  }

  /**
   * Deploying and then cleaning up composes: the deployment loop, whatever
   * its faults, keeps the store well-formed, so a cleanup after it keeps
   * it well-formed too and, when it succeeds, leaves exactly the
   * survivors of the deployed store. The deployment loop is where a tier
   * deployment changes the store (`DeployTier` changes nothing before it).
   */
  lemma DeployThenCleanup(org: Org, f: Faults, tier: string, targets: seq<string>,
                          cs: seq<PolicyConfig>, acc: map<string, nat>, g: Faults, prefix: string)
    requires WellFormed(org)
    requires forall i :: 0 <= i < |cs| ==> HasConfigFields(cs[i])
    ensures WellFormed(Cleanup(DeployPolicies(org, f, tier, targets, cs, acc).org, g, prefix).org)
    ensures Cleanup(DeployPolicies(org, f, tier, targets, cs, acc).org, g, prefix).result.Ok? ==>
              Cleanup(DeployPolicies(org, f, tier, targets, cs, acc).org, g, prefix).org.policies
                == Survivors(DeployPolicies(org, f, tier, targets, cs, acc).org.policies, prefix)
  {
    var deployed := DeployPolicies(org, f, tier, targets, cs, acc).org;
    CleanupLeavesSurvivors(deployed, g, prefix);
  }

  /** Vendor-managed policies are never among those cleanup removes. */
  lemma {:induction false} ManagedSurvive(ps: seq<Policy>, prefix: string, i: nat)
    requires i < |ps| && ps[i].awsManaged
    ensures ps[i] in Survivors(ps, prefix)
  {
    if i > 0 {
      assert ps[i] == ps[1..][i - 1];
      ManagedSurvive(ps[1..], prefix, i - 1);
    }
  }

  /** Cleanup keeps exactly the listed policies that do not match the prefix. */
  lemma {:induction false} SurvivorsExactly(ps: seq<Policy>, prefix: string)
    ensures forall p :: p in Survivors(ps, prefix) <==> p in ps && !Matches(p, prefix)
  {
    if ps != [] {
      SurvivorsExactly(ps[1..], prefix);
      assert ps == [ps[0]] + ps[1..];
    }
  }

  /** Without detach faults, a policy has no attachment left after detaching it from all targets. */
  lemma DetachAllClears(org: Org, pid: nat)
    ensures forall t :: (pid, t) !in DetachAll(org, NoFaults, pid).org.attached
  {
  }

  /**
   * A listing that fails on a later page: a target received on an earlier
   * page whose detach succeeds is detached, while a target the listing
   * never reached stays attached.
   */
  lemma DetachBeforeListingFailure(org: Org, f: Faults, pid: nat, early: string, late: string)
    requires f.listTargetsError(pid).Some?
    requires early in f.listTargetsError(pid).value.received && f.detachError(pid, early).None?
    requires (pid, late) in org.attached && late !in f.listTargetsError(pid).value.received
    ensures (pid, early) !in DetachAll(org, f, pid).org.attached
    ensures (pid, late) in DetachAll(org, f, pid).org.attached
  {
  }
}

=== FILE: security_config.dfy ===
/**
 * The security-tier configuration, kept apart from the deployment
 * settings: a global tier, per-OU tier overrides and account exceptions,
 * with the three fixed tiers and the policies each one deploys.
 */
module SecurityConfig {
  import opened Results

  // ---------------------------------------------------------------------
  // The tiers
  // ---------------------------------------------------------------------

  /** One entry of the tier table. */
  datatype TierSpec = TierSpec(name: string, description: string, policies: seq<string>)

  const BasicPolicies: seq<string> := ["deny_root_access", "require_mfa"]
  const StandardPolicies: seq<string> := BasicPolicies + ["restrict_regions", "deny_leave_org"]
  const StrictPolicies: seq<string> := StandardPolicies + ["restrict_instance_types", "require_encryption"]

  /** SECURITY_TIERS: basic, standard and strict. */
  function TierTable(tier: string): Option<TierSpec> {
    if tier == "basic" then
      Some(TierSpec("Basic Security Tier", "Minimal restrictions for development environments", BasicPolicies))
    else if tier == "standard" then
      Some(TierSpec("Standard Security Tier", "Balanced security for production workloads", StandardPolicies))
    else if tier == "strict" then
      Some(TierSpec("Strict Security Tier", "Maximum security for compliance environments", StrictPolicies))
    else None
  }

  /** Every known tier deploys at least the basic policies and at most the strict ones. */
  lemma TierPoliciesNest(tier: string)
    requires TierTable(tier).Some?
    ensures BasicPolicies <= TierTable(tier).value.policies <= StrictPolicies
    ensures TierTable(tier).value.policies != []
  {
    assert BasicPolicies <= StandardPolicies <= StrictPolicies;
  }

  /** A tier the table knows. */
  predicate KnownTier(tier: string) {
    TierTable(tier).Some?
  }

  const DefaultTier := "standard"

  // ---------------------------------------------------------------------
  // The configuration data
  // ---------------------------------------------------------------------

  /** One account exempted from the security policies, with the reason. */
  datatype AccountException = AccountException(accountId: string, reason: string)

  /**
   * The loaded security configuration. Each key may be absent; the OU
   * overrides keep the dictionary's insertion order as a list of
   * (OU name, tier) pairs.
   */
  datatype SecurityData = SecurityData(
    securityTier: Option<string>,
    ouOverrides: Option<seq<(string, string)>>,
    accountExceptions: Option<seq<AccountException>>)

  /** _get_default_config, reduced to the keys the operations read. */
  const DefaultData := SecurityData(Some(DefaultTier), Some([]), Some([]))

  /** The overrides, an empty dictionary when the key is absent. */
  function Overrides(d: SecurityData): seq<(string, string)> {
    d.ouOverrides.GetOr([])
  }

  /** The OU names of the overrides are distinct, as the keys of a dictionary are. */
  predicate KeysUnique(ov: seq<(string, string)>) {
    forall i, j :: 0 <= i < j < |ov| ==> ov[i].0 != ov[j].0
  }

  /** The tier an override list gives an OU, if any: its value for the first (only) entry with that name. */
  function Lookup(ov: seq<(string, string)>, ou: string): (r: Option<string>)
    ensures r.Some? <==> exists i :: 0 <= i < |ov| && ov[i].0 == ou
    ensures r.Some? ==> exists i :: 0 <= i < |ov| && ov[i] == (ou, r.value)
  {
    if ov == [] then None
    else if ov[0].0 == ou then Some(ov[0].1)
    else
      var rest := Lookup(ov[1..], ou);
      assert rest.Some? ==> exists i :: 0 <= i < |ov| && ov[i] == (ou, rest.value) by {
        if rest.Some? {
          var i :| 0 <= i < |ov[1..]| && ov[1..][i] == (ou, rest.value);
          assert ov[i + 1] == ov[1..][i];
        }
      }
      assert (exists i :: 0 <= i < |ov| && ov[i].0 == ou) ==> (exists i :: 0 <= i < |ov[1..]| && ov[1..][i].0 == ou) by {
        if exists i :: 0 <= i < |ov| && ov[i].0 == ou {
          var i :| 0 <= i < |ov| && ov[i].0 == ou;
          assert ov[1..][i - 1] == ov[i];
        }
      }
      rest
  }

  /** Python's `ov[ou] = tier`: the entry's value replaced in place, or a new entry at the end. */
  function Put(ov: seq<(string, string)>, ou: string, tier: string): (r: seq<(string, string)>)
    ensures Lookup(r, ou) == Some(tier)
    ensures forall other :: other != ou ==> Lookup(r, other) == Lookup(ov, other)
  {
    if ov == [] then [(ou, tier)]
    else if ov[0].0 == ou then [(ou, tier)] + ov[1..]
    else
      var rest := Put(ov[1..], ou, tier);
      var r := [ov[0]] + rest;
      assert r[1..] == rest;
      r
  }

  /** Storing an entry adds nothing but that entry. */
  lemma {:induction false} PutEntriesFrom(ov: seq<(string, string)>, ou: string, tier: string)
    ensures forall i :: 0 <= i < |Put(ov, ou, tier)| ==> Put(ov, ou, tier)[i] == (ou, tier) || Put(ov, ou, tier)[i] in ov
  {
    if ov != [] && ov[0].0 != ou {
      PutEntriesFrom(ov[1..], ou, tier);
      var rest := Put(ov[1..], ou, tier);
      var r := Put(ov, ou, tier);
      forall i | 0 < i < |r| ensures r[i] == (ou, tier) || r[i] in ov {
        assert r[i] == rest[i - 1];
        if r[i] != (ou, tier) {
          assert rest[i - 1] in ov[1..];
          var k :| 0 <= k < |ov[1..]| && ov[1..][k] == rest[i - 1];
          assert ov[k + 1] == r[i];
        }
      }
    }
  }

  /** Storing under a key keeps the keys of a dictionary distinct. */
  lemma {:induction false} PutKeepsKeysUnique(ov: seq<(string, string)>, ou: string, tier: string)
    ensures KeysUnique(ov) ==> KeysUnique(Put(ov, ou, tier))
  {
    if !KeysUnique(ov) || ov == [] {
    } else if ov[0].0 == ou {
      var r := Put(ov, ou, tier);
      forall i, j | 0 <= i < j < |r| ensures r[i].0 != r[j].0 {
        assert r[j] == ov[j];
        if i > 0 { assert r[i] == ov[i]; }
      }
    } else {
      var tail := ov[1..];
      forall i, j | 0 <= i < j < |tail| ensures tail[i].0 != tail[j].0 {
        assert tail[i] == ov[i + 1] && tail[j] == ov[j + 1];
      }
      PutKeepsKeysUnique(tail, ou, tier);
      var rest := Put(tail, ou, tier);
      var r := Put(ov, ou, tier);
      assert r == [ov[0]] + rest;
      forall j | 0 <= j < |rest| ensures ov[0].0 != rest[j].0 {
        var x := rest[j].0;
        if x != ou {
          assert Lookup(rest, x).Some?;
          var k :| 0 <= k < |tail| && tail[k].0 == x;
          assert ov[k + 1] == tail[k];
        }
      }
      forall i, j | 0 <= i < j < |r| ensures r[i].0 != r[j].0 {
        assert r[j] == rest[j - 1];
        if i > 0 { assert r[i] == rest[i - 1]; }
      }
    }
  }

  // ---------------------------------------------------------------------
  // The operations
  // ---------------------------------------------------------------------

  /** get_security_tier: the stored tier, "standard" when none is stored. */
  function GetSecurityTier(d: SecurityData): (t: string)
    ensures d.securityTier.None? ==> t == DefaultTier
    ensures d.securityTier.Some? ==> t == d.securityTier.value
  {
    d.securityTier.GetOr(DefaultTier)
  }

  /** The message set_security_tier raises for an unknown tier. */
  function InvalidTierListing(tier: string): string {
    "Invalid security tier: " + tier + ". Must be one of: ['basic', 'standard', 'strict']"
  }

  /** set_security_tier: an unknown tier is rejected and nothing changes. */
  function SetSecurityTier(d: SecurityData, tier: string): (r: Result<SecurityData, string>)
    ensures r.Ok? <==> KnownTier(tier)
    ensures r.Err? ==> r.error == InvalidTierListing(tier)
    ensures r.Ok? ==> GetSecurityTier(r.value) == tier
    ensures r.Ok? ==> r.value.ouOverrides == d.ouOverrides && r.value.accountExceptions == d.accountExceptions
  {
    if !KnownTier(tier) then Err(InvalidTierListing(tier))
    else Ok(d.(securityTier := Some(tier)))
  }

  /**
   * get_tier_policies: the policies of the given tier, or of the global
   * tier when none (or an empty name) is given; an unknown tier has none.
   * The tiers nest: every tier starts with basic's policies and is a
   * prefix of strict's.
   */
  function GetTierPolicies(d: SecurityData, tier: Option<string>): (r: seq<string>)
    ensures var t := if tier.Some? && tier.value != "" then tier.value else GetSecurityTier(d);
      (r == [] <==> !KnownTier(t))
      && (KnownTier(t) ==> BasicPolicies <= r && r <= StrictPolicies)
      && (KnownTier(t) ==> r == TierTable(t).value.policies)
  {
    var t := if tier.Some? && tier.value != "" then tier.value else GetSecurityTier(d);
    match TierTable(t)
    case Some(spec) =>
      TierPoliciesNest(t);
      spec.policies
    case None => []
  }

  /** get_ou_override: the OU's override tier, if one is set. */
  function GetOuOverride(d: SecurityData, ou: string): (r: Option<string>)
    ensures r.Some? <==> exists i :: 0 <= i < |Overrides(d)| && Overrides(d)[i].0 == ou
    ensures r.Some? ==> exists i :: 0 <= i < |Overrides(d)| && Overrides(d)[i] == (ou, r.value)
    ensures KeysUnique(Overrides(d)) ==>
      forall i :: 0 <= i < |Overrides(d)| && Overrides(d)[i].0 == ou ==> r == Some(Overrides(d)[i].1)
  {
    Lookup(Overrides(d), ou)
  }

  /** set_ou_override: an unknown tier is rejected and nothing changes; otherwise the OU's entry is set. */
  function SetOuOverride(d: SecurityData, ou: string, tier: string): (r: Result<SecurityData, string>)
    ensures r.Ok? <==> KnownTier(tier)
    ensures r.Err? ==> r.error == "Invalid security tier: " + tier
    ensures r.Ok? ==> GetOuOverride(r.value, ou) == Some(tier)
    ensures r.Ok? ==> forall other :: other != ou ==> GetOuOverride(r.value, other) == GetOuOverride(d, other)
    ensures r.Ok? ==> r.value.securityTier == d.securityTier && r.value.accountExceptions == d.accountExceptions
    ensures r.Ok? && KeysUnique(Overrides(d)) ==> KeysUnique(Overrides(r.value))
  {
    if !KnownTier(tier) then Err("Invalid security tier: " + tier)
    else
      PutKeepsKeysUnique(Overrides(d), ou, tier);
      Ok(d.(ouOverrides := Some(Put(Overrides(d), ou, tier))))
  }

  /** get_effective_tier_for_ou: a non-empty override wins, otherwise the global tier. */
  function EffectiveTier(d: SecurityData, ou: string): (t: string)
    ensures GetOuOverride(d, ou).Some? && GetOuOverride(d, ou).value != "" ==> t == GetOuOverride(d, ou).value
    ensures !(GetOuOverride(d, ou).Some? && GetOuOverride(d, ou).value != "") ==> t == GetSecurityTier(d)
  {
    match GetOuOverride(d, ou)
    case Some(o) => if o != "" then o else GetSecurityTier(d)
    case None => GetSecurityTier(d)
  }

  /** add_account_exception: the (account, reason) pair is appended unless already listed. */
  function AddAccountException(d: SecurityData, accountId: string, reason: string): (r: SecurityData)
    ensures r.accountExceptions.Some?
    ensures AccountException(accountId, reason) in r.accountExceptions.value
    ensures d.accountExceptions.Some? ==> d.accountExceptions.value <= r.accountExceptions.value
    ensures |r.accountExceptions.value| <= |d.accountExceptions.GetOr([])| + 1
    ensures forall x :: x in r.accountExceptions.value ==> x in d.accountExceptions.GetOr([]) || x == AccountException(accountId, reason)
    ensures r.securityTier == d.securityTier && r.ouOverrides == d.ouOverrides
  {
    var existing := d.accountExceptions.GetOr([]);
    var e := AccountException(accountId, reason);
    d.(accountExceptions := Some(if e in existing then existing else existing + [e]))
  }

  /** No exception is listed twice. */
  predicate Distinct(xs: seq<AccountException>) {
    forall i, j :: 0 <= i < j < |xs| ==> xs[i] != xs[j]
  }

  /** Adding the same exception twice is the same as adding it once, and no duplicate is ever stored. */
  lemma AddAccountExceptionIdempotent(d: SecurityData, accountId: string, reason: string)
    ensures AddAccountException(AddAccountException(d, accountId, reason), accountId, reason)
         == AddAccountException(d, accountId, reason)
    ensures Distinct(d.accountExceptions.GetOr([])) ==> Distinct(AddAccountException(d, accountId, reason).accountExceptions.value)
  {
    var existing := d.accountExceptions.GetOr([]);
    var e := AccountException(accountId, reason);
    if e !in existing && Distinct(existing) {
      var r := existing + [e];
      forall i, j | 0 <= i < j < |r| ensures r[i] != r[j] {
        if j == |existing| {
          assert r[i] == existing[i];
        }
      }
    }
  }

  /** One error per override whose tier is unknown, in the dictionary's order. */
  function OverrideErrors(ov: seq<(string, string)>): (r: seq<string>)
    ensures r == [] <==> forall i :: 0 <= i < |ov| ==> KnownTier(ov[i].1)
    ensures |r| <= |ov|
  {
    if ov == [] then []
    else
      var rest := OverrideErrors(ov[1..]);
      assert (forall i :: 0 <= i < |ov| ==> KnownTier(ov[i].1)) <==>
        KnownTier(ov[0].1) && (forall i :: 0 <= i < |ov[1..]| ==> KnownTier(ov[1..][i].1)) by {
        if KnownTier(ov[0].1) && (forall i :: 0 <= i < |ov[1..]| ==> KnownTier(ov[1..][i].1)) {
          forall i | 1 <= i < |ov| ensures KnownTier(ov[i].1) {
            assert ov[i] == ov[1..][i - 1];
          }
        }
      }
      (if KnownTier(ov[0].1) then [] else ["Invalid override tier for OU " + ov[0].0 + ": " + ov[0].1]) + rest
  }

  /** Every tier in the configuration is known. */
  predicate AllTiersKnown(d: SecurityData) {
    KnownTier(GetSecurityTier(d)) && forall i :: 0 <= i < |Overrides(d)| ==> KnownTier(Overrides(d)[i].1)
  }

  /** validate_configuration: the global tier's error first, then one per bad override. */
  function ValidateConfiguration(d: SecurityData): (errors: seq<string>)
    ensures errors == [] <==> AllTiersKnown(d)
    ensures !KnownTier(GetSecurityTier(d)) ==> errors[0] == "Invalid security tier: " + GetSecurityTier(d)
  {
    var t := GetSecurityTier(d);
    (if KnownTier(t) then [] else ["Invalid security tier: " + t]) + OverrideErrors(Overrides(d))
  }

  /** The setters only ever store known tiers, so they keep a valid configuration valid. */
  lemma SettersPreserveValidity(d: SecurityData, ou: string, tier: string)
    requires ValidateConfiguration(d) == []
    ensures SetSecurityTier(d, tier).Ok? ==> ValidateConfiguration(SetSecurityTier(d, tier).value) == []
    ensures SetOuOverride(d, ou, tier).Ok? ==> ValidateConfiguration(SetOuOverride(d, ou, tier).value) == []
  {
    if KnownTier(tier) {
      var ov := Put(Overrides(d), ou, tier);
      PutEntriesFrom(Overrides(d), ou, tier);
      forall i | 0 <= i < |ov| ensures KnownTier(ov[i].1) {
        if ov[i] != (ou, tier) {
          assert ov[i] in Overrides(d);
          var k :| 0 <= k < |Overrides(d)| && Overrides(d)[k] == ov[i];
        }
      }
    }
  }

  /** After an override is set, it is the OU's effective tier; other OUs keep theirs. */
  lemma OverrideBecomesEffective(d: SecurityData, ou: string, tier: string, other: string)
    requires KnownTier(tier) && other != ou
    ensures EffectiveTier(SetOuOverride(d, ou, tier).value, ou) == tier
    ensures EffectiveTier(SetOuOverride(d, ou, tier).value, other) == EffectiveTier(d, other)
  {
  }

  /**
   * migrate_legacy_config over the loaded security data: the deployment
   * settings' scp_tier becomes the global tier, and an unknown one makes
   * the migration raise.
   */
  function MigrateLegacyTier(d: SecurityData, legacyTier: string): (r: Result<SecurityData, string>)
    ensures r.Ok? <==> KnownTier(legacyTier)
    ensures r.Ok? ==> GetSecurityTier(r.value) == legacyTier
  {
    SetSecurityTier(d, legacyTier)
  }
}

=== FILE: text.dfy ===
/**
 * The handful of Python string operations the pipeline relies on:
 * lower-casing, digit tests, prefix and substring tests, joining,
 * splitting on a separator and decimal rendering of integers.
 * Characters are treated as ASCII: Python's Unicode-aware `lower`,
 * `title` and `isdigit` agree with these on ASCII text.
 */
module Text {

  function LowerChar(c: char): char {
    if 'A' <= c <= 'Z' then (c as int + 32) as char else c
  }

  function UpperChar(c: char): char {
    if 'a' <= c <= 'z' then (c as int - 32) as char else c
  }

  /** Python's `str.lower()` on ASCII text. */
  function Lower(s: string): (r: string)
    ensures |r| == |s|
    ensures forall i :: 0 <= i < |s| ==> r[i] == LowerChar(s[i])
  {
    if s == [] then [] else [LowerChar(s[0])] + Lower(s[1..])
  }

  /** Case-insensitive equality, the `a.lower() == b.lower()` idiom. */
  predicate EqualsIgnoreCase(a: string, b: string) {
    Lower(a) == Lower(b)
  }

  /** Python's `str.title()` for a single lower-case word such as a tier name. */
  function Capitalize(s: string): (r: string)
    ensures |r| == |s|
    ensures s != [] ==> r[0] == UpperChar(s[0]) && r[1..] == Lower(s[1..])
  {
    if s == [] then [] else [UpperChar(s[0])] + Lower(s[1..])
  }

  predicate IsDigit(c: char) {
    '0' <= c <= '9'
  }

  /** Python's `str.isdigit()`: non-empty and every character a digit. */
  predicate IsDigits(s: string) {
    |s| > 0 && forall i :: 0 <= i < |s| ==> IsDigit(s[i])
  }

  /** The account-id shape the manifest checks use: exactly 12 decimal digits. */
  predicate IsAccountId(s: string) {
    |s| == 12 && IsDigits(s)
  }

  /** Python's `s.startswith(prefix)`. */
  predicate StartsWith(s: string, prefix: string) {
    |prefix| <= |s| && s[..|prefix|] == prefix
  }

  /** A string built by prefixing starts with that prefix. */
  lemma PrefixedStartsWith(prefix: string, rest: string)
    ensures StartsWith(prefix + rest, prefix)
  {
    assert (prefix + rest)[..|prefix|] == prefix;
  }

  /** Python's `sub in s` for strings. */
  predicate Contains(s: string, sub: string)
    decreases |s|
  {
    StartsWith(s, sub) || (|s| > 0 && Contains(s[1..], sub))
  }

  /** `sub` occurs in `s` starting at index `i`. */
  predicate OccursAt(s: string, sub: string, i: int) {
    0 <= i && i + |sub| <= |s| && s[i..i + |sub|] == sub
  }

  /** `Contains` holds exactly when `sub` occurs at some position of `s`. */
  lemma {:induction false} ContainsOccurs(s: string, sub: string)
    ensures Contains(s, sub) <==> exists i :: OccursAt(s, sub, i)
    decreases |s|
  {
    if StartsWith(s, sub) {
      assert OccursAt(s, sub, 0);
    }
    if |s| > 0 {
      ContainsOccurs(s[1..], sub);
      if Contains(s[1..], sub) {
        var i :| OccursAt(s[1..], sub, i);
        assert OccursAt(s, sub, i + 1);
      }
      if exists i :: OccursAt(s, sub, i) {
        var i :| OccursAt(s, sub, i);
        if i > 0 {
          assert OccursAt(s[1..], sub, i - 1);
        }
      }
    } else {
      if exists i :: OccursAt(s, sub, i) {
        var i :| OccursAt(s, sub, i);
        assert i == 0 && StartsWith(s, sub);
      }
    }
  }

  /** Python's `sep.join(parts)`. */
  function Join(parts: seq<string>, sep: string): string {
    if |parts| == 0 then ""
    else if |parts| == 1 then parts[0]
    else parts[0] + sep + Join(parts[1..], sep)
  }

  /** Index of the first occurrence of `c` in `s`, or `|s|` when absent. */
  function IndexOf(s: string, c: char): (k: nat)
    ensures k <= |s|
    ensures forall j :: 0 <= j < k ==> s[j] != c
    ensures k < |s| ==> s[k] == c
  {
    if s == [] then 0
    else if s[0] == c then 0
    else 1 + IndexOf(s[1..], c)
  }

  /** Python's `s.split(c)` for a one-character separator: never empty. */
  function Split(s: string, c: char): (parts: seq<string>)
    ensures |parts| >= 1
    ensures forall k :: 0 <= k < |parts| ==> c !in parts[k]
    decreases |s|
  {
    var k := IndexOf(s, c);
    if k == |s| then [s]
    else [s[..k]] + Split(s[k + 1..], c)
  }

  /** Splitting on `c` and joining the pieces with `c` gives back the original text. */
  lemma {:induction false} SplitJoin(s: string, c: char)
    ensures Join(Split(s, c), [c]) == s
    decreases |s|
  {
    var k := IndexOf(s, c);
    if k < |s| {
      SplitJoin(s[k + 1..], c);
      var rest := Split(s[k + 1..], c);
      assert Split(s, c) == [s[..k]] + rest;
      assert Split(s, c)[1..] == rest;
      assert s == s[..k] + [c] + s[k + 1..];
    }
  }

  function DigitChar(d: nat): char
    requires d < 10
  {
    ('0' as int + d) as char
  }

  /** Python's `str(n)` for a natural number. */
  function NatToString(n: nat): (r: string)
    ensures IsDigits(r)
    ensures n < 10 ==> r == [DigitChar(n)]
  {
    if n < 10 then [DigitChar(n)] else NatToString(n / 10) + [DigitChar(n % 10)]
  }

  /** Python's `str(i)` for an integer. */
  function IntToString(i: int): (r: string)
    ensures i >= 0 ==> IsDigits(r)
    ensures i < 0 ==> |r| >= 2 && r[0] == '-' && IsDigits(r[1..])
  {
    if i >= 0 then NatToString(i) else "-" + NatToString(-i)
  }
}

=== FILE: validation.dfy ===
/**
 * The prerequisite validation framework: the result record every checker
 * produces, the fixed ordered list of checkers with its early stop after
 * a foundational failure, the readiness verdict, and the decision logic of
 * the Organizations, Organizations-structure and Control Tower checkers.
 */
module Validation {
  import opened Results
  import opened Json
  import opened Text
  import opened Remote
  import opened Organizations

  datatype Status = Passed | Failed | Warning | Skipped

  /**
   * One checker's verdict. Python's `None` for remediation steps or
   * details is the empty sequence or map here.
   */
  datatype ValidationResult = ValidationResult(
    validatorName: string,
    status: Status,
    message: string,
    remediation: seq<string>,
    details: map<string, Json>)

  const CredentialsName := "AWS Credentials"
  const OrganizationsName := "AWS Organizations"
  const StructureName := "Organizations Structure"
  const AccountsName := "Account Structure"
  const IamName := "IAM Roles"
  const ControlTowerName := "Control Tower Status"

  /** The checkers in the order validate_all runs them. */
  const ValidatorNames: seq<string> :=
    [CredentialsName, OrganizationsName, StructureName, AccountsName, IamName, ControlTowerName]

  /** A checker whose returned failure ends the run. */
  predicate Foundational(name: string) {
    name == CredentialsName || name == OrganizationsName
  }

  // ---------------------------------------------------------------------------
  // Running every checker
  // ---------------------------------------------------------------------------

  /** The result recorded for an exception a checker raised. */
  function ExceptionResult(name: string, error: string): (r: ValidationResult)
    ensures r.validatorName == name && r.status == Failed
    ensures r.message == "Validation error: " + error
    ensures r.remediation == ["Check validator implementation", "Verify AWS service availability"]
  {
    ValidationResult(name, Failed, "Validation error: " + error,
      ["Check validator implementation", "Verify AWS service availability"], map[])
  }

  /** The result recorded for one checker: its own result, or the exception turned into one. */
  function Recorded(name: string, outcome: Result<ValidationResult, string>): ValidationResult {
    match outcome
    case Ok(result) => result
    case Err(error) => ExceptionResult(name, error)
  }

  /** The run ends after this checker: it returned (not raised) a failure and is foundational. */
  predicate Stops(name: string, outcome: Result<ValidationResult, string>) {
    outcome.Ok? && outcome.value.status == Failed && Foundational(name)
  }

  /**
   * Runs the checkers in order, `outcomes[i]` being what the i-th checker
   * returned or raised. One result per checker run, in order; the run
   * stops right after a foundational checker returns a failure.
   */
  method ValidateAll(outcomes: seq<Result<ValidationResult, string>>) returns (results: seq<ValidationResult>)
    requires |outcomes| == |ValidatorNames|
    ensures 0 < |results| <= |outcomes|
    ensures forall i :: 0 <= i < |results| ==> results[i] == Recorded(ValidatorNames[i], outcomes[i])
    ensures forall i :: 0 <= i < |results| - 1 ==> !Stops(ValidatorNames[i], outcomes[i])
    ensures |results| < |outcomes| ==>
      results[|results| - 1].status == Failed && Foundational(ValidatorNames[|results| - 1])
    ensures forall i :: 0 <= i < |results| && outcomes[i].Err? && i + 1 < |outcomes| ==> i + 1 < |results|
    ensures |results| < |outcomes| ==> !IsReady(results)
  {
    results := [];
    var i := 0;
    while i < |outcomes|
      invariant 0 <= i <= |outcomes|
      invariant |results| == i
      invariant forall k :: 0 <= k < i ==> results[k] == Recorded(ValidatorNames[k], outcomes[k])
      invariant forall k :: 0 <= k < i ==> !Stops(ValidatorNames[k], outcomes[k])
    {
      results := results + [Recorded(ValidatorNames[i], outcomes[i])];
      if Stops(ValidatorNames[i], outcomes[i]) {
        assert results[i].status == Failed;
        return;
      }
      i := i + 1;
    }
  }

  /** Ready for deployment: no result FAILED; warnings and skips do not block. */
  function IsReady(results: seq<ValidationResult>): (r: bool)
    ensures r <==> forall i :: 0 <= i < |results| ==> results[i].status != Failed
  {
    if results == [] then true
    else results[0].status != Failed && IsReady(results[1..])
  }

  // ---------------------------------------------------------------------------
  // AWS Organizations checker
  // ---------------------------------------------------------------------------

  /** The checker's handler for a ClientError raised while reading the organization. */
  function OrganizationsClientFailure(e: ClientError, operation: string): (r: ValidationResult)
    ensures r.validatorName == OrganizationsName && r.status == Failed
    ensures e.code == "AccessDenied" ==> r.message == "Insufficient permissions to access AWS Organizations"
    ensures e.code != "AccessDenied" ==> r.message == "Organizations validation failed: " + Describe(e, operation)
  {
    if e.code == "AccessDenied" then
      ValidationResult(OrganizationsName, Failed, "Insufficient permissions to access AWS Organizations",
        ["Ensure the following IAM permissions are granted:",
         "- organizations:DescribeOrganization",
         "- organizations:ListAccounts",
         "- organizations:ListRoots"], map[])
    else
      ValidationResult(OrganizationsName, Failed, "Organizations validation failed: " + Describe(e, operation),
        ["Check AWS Organizations service status",
         "Verify IAM permissions for Organizations access"], map[])
  }

  const NotInUseCode := "AWSOrganizationsNotInUseException"
  const NotEnabledMessage := "AWS Organizations is not enabled for this account"
  const NotAllFeaturesMessage := "AWS Organizations does not have all features enabled"
  const NotManagementMessage := "Control Tower must be deployed from the management account"
  const OrganizationsOkMessage := "AWS Organizations is properly configured with all features enabled"
  const NotEnabledSteps := ["Enable AWS Organizations:",
           "1. Go to AWS Organizations console",
           "2. Click 'Create organization'",
           "3. Choose 'Enable all features' (required for Control Tower)"]
  const AllFeaturesSteps := ["Enable all features in AWS Organizations:",
           "1. Go to AWS Organizations console",
           "2. Navigate to Settings",
           "3. Click 'Enable all features'",
           "4. Confirm the change (this cannot be undone)"]

  /** The organization is usable by Control Tower from the calling account. */
  predicate OrganizationReady(describe: Result<OrgInfo, ClientError>, caller: Result<string, ClientError>) {
    describe.Ok? && describe.value.featureSet == AllFeatures
    && caller.Ok? && describe.value.masterAccountId == caller.value
  }

  /**
   * Decides from the DescribeOrganization answer and the caller's account
   * id (read only once the feature set is ALL).
   */
  function CheckOrganizations(describe: Result<OrgInfo, ClientError>, caller: Result<string, ClientError>): (r: ValidationResult)
    ensures r.validatorName == OrganizationsName
    ensures r.status == Passed <==> OrganizationReady(describe, caller)
    ensures r.status == Passed || r.status == Failed
    ensures describe.Err? && describe.error.code == NotInUseCode ==>
      r.message == NotEnabledMessage
    ensures describe.Ok? && describe.value.featureSet != AllFeatures ==>
      r.message == NotAllFeaturesMessage
    ensures (describe.Ok? && describe.value.featureSet == AllFeatures && caller.Ok?
             && describe.value.masterAccountId != caller.value) ==>
      r.message == NotManagementMessage
    ensures r.status == Passed ==>
      r.details == map["organization_id" := JStr(describe.value.id),
                       "management_account_id" := JStr(describe.value.masterAccountId),
                       "feature_set" := JStr(describe.value.featureSet)]
  {
    match describe
    case Err(e) =>
      if e.code == NotInUseCode then
        ValidationResult(OrganizationsName, Failed, NotEnabledMessage,
NotEnabledSteps, map[])
      else OrganizationsClientFailure(e, "DescribeOrganization")
    case Ok(org) =>
      if org.featureSet != AllFeatures then
        ValidationResult(OrganizationsName, Failed, NotAllFeaturesMessage,
AllFeaturesSteps, map[])
      else match caller
        case Err(e) => OrganizationsClientFailure(e, "GetCallerIdentity")
        case Ok(accountId) =>
          if org.masterAccountId != accountId then
            ValidationResult(OrganizationsName, Failed, NotManagementMessage,
              ["Switch to the management account: " + org.masterAccountId,
               "Control Tower can only be deployed from the organization's management account"], map[])
          else
            ValidationResult(OrganizationsName, Passed,
              OrganizationsOkMessage, [],
              map["organization_id" := JStr(org.id),
                  "management_account_id" := JStr(org.masterAccountId),
                  "feature_set" := JStr(org.featureSet)])
  }

  // ---------------------------------------------------------------------------
  // Control Tower status checker
  // ---------------------------------------------------------------------------

  /** `d.get(key)` on a landing-zone summary, None rendering as JNull. */
  function GetOrNull(d: map<string, Json>, key: string): Json {
    if key in d then d[key] else JNull
  }

  const LandingZoneExistsSteps := ["Control Tower is already deployed in this organization",
           "If you need to modify the configuration, use the Control Tower console",
           "To redeploy, you must first delete the existing landing zone"]
  const LandingZoneExistsMessage := "Control Tower landing zone already exists"
  const NoLandingZoneMessage := "No existing Control Tower deployment found - ready for new deployment"
  const ControlTowerPermissionSteps := ["Ensure the following IAM permissions are granted:",
           "- controltower:ListLandingZones",
           "- controltower:GetLandingZone"]
  const ControlTowerDeniedMessage := "Insufficient permissions to check Control Tower status"
  const ControlTowerAccessibleMessage := "Control Tower service accessible - ready for deployment"

  /**
   * Why the landing zones could not be listed: the service answered with
   * a ClientError, or some other exception was raised (obtaining the
   * client, or reaching a region where the service is not offered), with
   * its `str(e)`.
   */
  datatype ListingFailure = ServiceError(error: ClientError) | OtherError(text: string)

  const ControlTowerFailedPrefix := "Control Tower validation failed: "
  const ControlTowerUnavailableSteps := ["Check Control Tower service availability in your region",
           "Verify IAM permissions for Control Tower access"]

  /** An AccessDenied answer from the service. */
  predicate Denied(listing: Result<seq<map<string, Json>>, ListingFailure>) {
    listing.Err? && listing.error.ServiceError? && listing.error.error.code == "AccessDenied"
  }

  /**
   * Decides from the ListLandingZones answer: an existing landing zone is
   * a warning, AccessDenied a failure, any other service error is read as
   * "no landing zone yet", and an exception that is not a service error
   * is a failure of the check itself.
   */
  function CheckControlTower(listing: Result<seq<map<string, Json>>, ListingFailure>): (r: ValidationResult)
    ensures r.validatorName == ControlTowerName
    ensures r.status == Failed <==> Denied(listing) || (listing.Err? && listing.error.OtherError?)
    ensures r.status == Warning <==> listing.Ok? && listing.value != []
    ensures r.status == Passed <==>
      (listing.Ok? && listing.value == []) || (listing.Err? && listing.error.ServiceError? && !Denied(listing))
    ensures r.status == Warning ==>
      r.details == map["landing_zone_arn" := GetOrNull(listing.value[0], "arn"),
                       "status" := GetOrNull(listing.value[0], "status")]
    ensures Denied(listing) ==> r.message == ControlTowerDeniedMessage && r.remediation == ControlTowerPermissionSteps
    ensures listing.Err? && listing.error.OtherError? ==>
      r.message == ControlTowerFailedPrefix + listing.error.text && r.remediation == ControlTowerUnavailableSteps
  {
    match listing
    case Ok(zones) =>
      if zones != [] then
        ValidationResult(ControlTowerName, Warning, LandingZoneExistsMessage,
          LandingZoneExistsSteps,
          map["landing_zone_arn" := GetOrNull(zones[0], "arn"), "status" := GetOrNull(zones[0], "status")])
      else
        ValidationResult(ControlTowerName, Passed,
          NoLandingZoneMessage, [], map[])
    case Err(ServiceError(e)) =>
      if e.code == "AccessDenied" then
        ValidationResult(ControlTowerName, Failed, ControlTowerDeniedMessage,
          ControlTowerPermissionSteps, map[])
      else
        ValidationResult(ControlTowerName, Passed, ControlTowerAccessibleMessage, [], map[])
    case Err(OtherError(text)) =>
      ValidationResult(ControlTowerName, Failed, ControlTowerFailedPrefix + text,
        ControlTowerUnavailableSteps, map[])
  }

  /**
   * On its own, the Control Tower check blocks readiness exactly when the
   * listing was denied or raised something other than a service error.
   */
  lemma ControlTowerBlocksIff(listing: Result<seq<map<string, Json>>, ListingFailure>)
    ensures !IsReady([CheckControlTower(listing)]) <==> Denied(listing) || (listing.Err? && listing.error.OtherError?)
  {
    var r := CheckControlTower(listing);
    assert IsReady([r]) <==> r.status != Failed;
  }

  /**
   * A service error other than AccessDenied is read as "no landing zone
   * yet" whatever its code and message: any two give the same result.
   */
  lemma OtherServiceErrorsAlike(e1: ClientError, e2: ClientError)
    requires e1.code != "AccessDenied" && e2.code != "AccessDenied"
    ensures CheckControlTower(Err(ServiceError(e1))) == CheckControlTower(Err(ServiceError(e2)))
    ensures CheckControlTower(Err(ServiceError(e1))).status == Passed
  {
  }

  // ---------------------------------------------------------------------------
  // Organizations structure checker
  // ---------------------------------------------------------------------------

  const AllFeaturesIssue := "all features enabled"
  const SecurityOuIssue := "Security OU not found"
  const SandboxOuIssue := "Sandbox OU not found"
  const AllFeaturesIssueSteps := ["1. Enable all features in AWS Organizations:",
                                  "   - Go to AWS Organizations console",
                                  "   - Navigate to Settings",
                                  "   - Click 'Enable all features'",
                                  "   - Confirm the change (cannot be undone)"]
  const SecurityOuIssueSteps := ["2. Create Security OU under root organization"]
  const SandboxOuIssueSteps := ["3. Create Sandbox OU under root organization"]

  /** The remediation lines one structure issue contributes, chosen by substring. */
  function IssueSteps(issue: string): seq<string> {
    if Contains(issue, AllFeaturesIssue) then AllFeaturesIssueSteps
    else if Contains(issue, SecurityOuIssue) then SecurityOuIssueSteps
    else if Contains(issue, SandboxOuIssue) then SandboxOuIssueSteps
    else []
  }

  /** Concatenated remediation lines of the issues, in issue order; each issue adds at most five. */
  function IssuesSteps(issues: seq<string>): (r: seq<string>)
    ensures |r| <= 5 * |issues|
  {
    if issues == [] then [] else IssueSteps(issues[0]) + IssuesSteps(issues[1..])
  }

  const StructureHeader := "Fix the following Organizations issues:"

  /**
   * The failure the checker reports for an invalid structure report. Its
   * details are the whole report, from which the report can be read back.
   */
  function StructureIssuesResult(report: StructureReport): (r: ValidationResult)
    ensures r.status == Failed
    ensures r.message == "Organizations structure issues: " + Join(report.issues, ", ")
    ensures r.remediation == [StructureHeader] + IssuesSteps(report.issues)
    ensures ReportOfDetails(r.details) == Some(report)
  {
    ReportRoundTrip(report);
    ValidationResult(StructureName, Failed, "Organizations structure issues: " + Join(report.issues, ", "),
      [StructureHeader] + IssuesSteps(report.issues), ReportDetails(report))
  }

  // The structure report as the dictionary validate_organization_structure
  // builds: the organization record is `{}` until it is read, and the root
  // and the two OUs are None until found. Of the service's records only the
  // fields the model carries appear.

  function StringsJson(xs: seq<string>): seq<Json> {
    if xs == [] then [] else [JStr(xs[0])] + StringsJson(xs[1..])
  }

  function OrgInfoJson(info: Option<OrgInfo>): Json {
    match info
    case None => JObj(map[])
    case Some(i) => JObj(map["Id" := JStr(i.id), "FeatureSet" := JStr(i.featureSet),
                             "MasterAccountId" := JStr(i.masterAccountId)])
  }

  function OuJson(ou: Option<OrganizationalUnit>): Json {
    match ou
    case None => JNull
    case Some(u) => JObj(map["Id" := JStr(u.id), "Name" := JStr(u.name)])
  }

  function ReportDetails(report: StructureReport): map<string, Json> {
    map["valid" := JBool(report.valid),
        "issues" := JList(StringsJson(report.issues)),
        "organization_info" := OrgInfoJson(report.orgInfo),
        "root_id" := if report.rootId.Some? then JStr(report.rootId.value) else JNull,
        "security_ou" := OuJson(report.securityOu),
        "sandbox_ou" := OuJson(report.sandboxOu)]
  }

  // Reading the dictionary back; None when it does not have the report's shape.

  function StringsOf(items: seq<Json>): Option<seq<string>> {
    if items == [] then Some([])
    else if !items[0].JStr? then None
    else
      match StringsOf(items[1..])
      case None => None
      case Some(rest) => Some([items[0].s] + rest)
  }

  /** A string-valued field of a dictionary. */
  function StrField(fields: map<string, Json>, key: string): Option<string> {
    if key in fields && fields[key].JStr? then Some(fields[key].s) else None
  }

  function OrgInfoOf(v: Json): Option<Option<OrgInfo>> {
    if v == JObj(map[]) then Some(None)
    else if !v.JObj? then None
    else
      match (StrField(v.fields, "Id"), StrField(v.fields, "FeatureSet"), StrField(v.fields, "MasterAccountId"))
      case (Some(id), Some(features), Some(master)) => Some(Some(OrgInfo(id, features, master)))
      case _ => None
  }

  function OuOf(v: Json): Option<Option<OrganizationalUnit>> {
    if v == JNull then Some(None)
    else if !v.JObj? then None
    else
      match (StrField(v.fields, "Id"), StrField(v.fields, "Name"))
      case (Some(id), Some(name)) => Some(Some(OrganizationalUnit(id, name)))
      case _ => None
  }

  function RootOf(v: Json): Option<Option<string>> {
    match v
    case JNull => Some(None)
    case JStr(s) => Some(Some(s))
    case _ => None
  }

  function ReportOfDetails(d: map<string, Json>): Option<StructureReport> {
    if !("valid" in d && d["valid"].JBool? && "issues" in d && d["issues"].JList?
         && "organization_info" in d && "root_id" in d && "security_ou" in d && "sandbox_ou" in d)
    then None
    else
      match (StringsOf(d["issues"].items), OrgInfoOf(d["organization_info"]), RootOf(d["root_id"]),
             OuOf(d["security_ou"]), OuOf(d["sandbox_ou"]))
      case (Some(issues), Some(info), Some(root), Some(security), Some(sandbox)) =>
        Some(StructureReport(d["valid"].b, issues, info, root, security, sandbox))
      case _ => None
  }

  lemma {:induction false} StringsRoundTrip(xs: seq<string>)
    ensures StringsOf(StringsJson(xs)) == Some(xs)
  {
    if xs != [] {
      StringsRoundTrip(xs[1..]);
      assert StringsJson(xs)[1..] == StringsJson(xs[1..]);
      assert [xs[0]] + xs[1..] == xs;
    }
  }

  /** The report dictionary determines the report: reading it back gives the report unchanged. */
  lemma ReportRoundTrip(report: StructureReport)
    ensures ReportOfDetails(ReportDetails(report)) == Some(report)
  {
    StringsRoundTrip(report.issues);
    var d := ReportDetails(report);
    if report.orgInfo.Some? {
      assert "Id" in d["organization_info"].fields;
    }
    assert OrgInfoOf(d["organization_info"]) == Some(report.orgInfo);
    assert OuOf(d["security_ou"]) == Some(report.securityOu);
    assert OuOf(d["sandbox_ou"]) == Some(report.sandboxOu);
  }

  /** The ids the checker reports for a valid structure, a missing OU reading as JNull. */
  function StructureDetails(report: StructureReport): map<string, Json> {
    map["organization_id" := if report.orgInfo.Some? then JStr(report.orgInfo.value.id) else JNull,
        "feature_set" := if report.orgInfo.Some? then JStr(report.orgInfo.value.featureSet) else JNull,
        "root_id" := if report.rootId.Some? then JStr(report.rootId.value) else JNull,
        "security_ou_id" := if report.securityOu.Some? then JStr(report.securityOu.value.id) else JNull,
        "sandbox_ou_id" := if report.sandboxOu.Some? then JStr(report.sandboxOu.value.id) else JNull]
  }

  const NoneGetMessage := "Organizations validation failed: 'NoneType' object has no attribute 'get'"
  const StructureCheckSteps := ["Check AWS Organizations service status",
                                "Verify IAM permissions for Organizations access",
                                "Ensure you're running from the management account"]

  /**
   * The checker as written. For a valid report it reads
   * `results.get('security_ou', {}).get('Id')`, but the report always
   * holds the key, with None for a missing OU, so `None.get` raises and
   * the checker's own exception handler reports a failure.
   */
  function CheckStructureAsWritten(report: StructureReport): (r: ValidationResult)
    ensures r.validatorName == StructureName
    ensures r.status == Passed <==> report.valid && report.securityOu.Some? && report.sandboxOu.Some?
    ensures r.status == Passed || r.status == Failed
    ensures !report.valid ==> r == StructureIssuesResult(report)
  {
    if !report.valid then StructureIssuesResult(report)
    else if report.securityOu.None? || report.sandboxOu.None? then
      ValidationResult(StructureName, Failed, NoneGetMessage, StructureCheckSteps, map[])
    else
      ValidationResult(StructureName, Passed, "Organizations structure is ready for Control Tower", [],
        StructureDetails(report))
  }

  /**
   * An organization with all features enabled and a Security OU but no
   * Sandbox OU gives a valid report, yet the checker as written fails it.
   */
  lemma MissingSandboxFailsAsWritten(
    info: OrgInfo, root: string, ous: seq<OrganizationalUnit>,
    listOus: string -> Result<seq<OrganizationalUnit>, ClientError>)
    requires info.featureSet == AllFeatures
    requires listOus(root) == Ok(ous)
    requires NameTaken(ous, "Security") && !NameTaken(ous, "Sandbox")
    ensures var report := ValidateOrganizationStructure(Ok(info), Ok([root]), listOus);
      report.valid && CheckStructureAsWritten(report).status == Failed
  {
    var report := ValidateOrganizationStructure(Ok(info), Ok([root]), listOus);
    assert StructureReadable(Ok(info), Ok([root]), listOus);
    assert report.sandboxOu.None?;
  }

  /**
   * The checker as intended: PASSED exactly when the structure report is
   * valid, a missing OU appearing as a null id in the details.
   */
  function CheckStructure(report: StructureReport): (r: ValidationResult)
    ensures r.validatorName == StructureName
    ensures r.status == Passed <==> report.valid
    ensures r.status == Passed || r.status == Failed
    ensures !report.valid ==> r == StructureIssuesResult(report)
    ensures report.valid ==> r.details == StructureDetails(report)
    ensures report.valid ==>
      ("security_ou_id" in r.details && (r.details["security_ou_id"] == JNull <==> report.securityOu.None?))
  {
    if !report.valid then StructureIssuesResult(report)
    else
      ValidationResult(StructureName, Passed, "Organizations structure is ready for Control Tower", [],
        StructureDetails(report))
  }

  /** The intended checker passes the organization the as-written one fails. */
  lemma MissingSandboxPassesIntended(
    info: OrgInfo, root: string, ous: seq<OrganizationalUnit>,
    listOus: string -> Result<seq<OrganizationalUnit>, ClientError>)
    requires info.featureSet == AllFeatures
    requires listOus(root) == Ok(ous)
    ensures CheckStructure(ValidateOrganizationStructure(Ok(info), Ok([root]), listOus)).status == Passed
  {
    assert StructureReadable(Ok(info), Ok([root]), listOus);
  }
}
